=== FILE: README.md ===
# Airport equipment tracker — a Dafny model

The application keeps an inventory of airport equipment for three systems:

- CUTE: check-in desks and gates;
- FIDS: flight information displays;
- ZAMAR: security screening.

Each system has an equipment table and an installation table. A piece of
equipment either sits in the warehouse or is bound to one installation.

This project models the core of that application:

- the tables and their validations;
- binding equipment to an installation, releasing it, and destroying an
  installation;
- creating and updating equipment, and the paginated audit history;
- repair batches: the repair-number generator, the batch-creation request
  that snapshots equipment and sends it to repair, and the maintenance and
  serial-statistics pages;
- the CSV/XLSX import service, with its status and terminal mappings;
- the strong-password validator;
- API tokens and the token check in front of the API;
- the admin catalogs of equipment types and installation types;
- the dashboard counters.

Every request is a function or method over the tables it reads and writes.
The current time, the acting user, the admin flag, the random token secret
and the contents of uploaded files are parameters.

## Layout

| file | module | models |
|---|---|---|
| text.dfy | Text | Ruby string primitives: `strip`, `split`, `to_i`, `format("%03d")`, string order |
| enums.dfy | Enums | the status and type enums, the system names |
| records.dfy | Records | equipment and installation rows, validations, `save`, terminals |
| binding.dfy | Binding | search, attach, detach and destroy on the installation pages |
| equipment_actions.dfy | EquipmentActions | create, update, the index filter, the audit history |
| repair_number.dfy | RepairNumber | `RepairBatch.generate_repair_number` |
| repairs.dfy | Repairs | repair batches, their items, and the repairs controller |
| ordering.dfy | Ordering | the sorting and gathering the repairs pages do in Ruby |
| import.dfy | Import | `EquipmentImportService` |
| password.dfy | Password | `StrongPasswordValidator` |
| api_tokens.dfy | ApiTokens | `ApiToken` and `Api::BaseController` authentication |
| catalogs.dfy | Catalogs | `EquipmentType`/`InstallationType` and their admin controllers |
| dashboard.dfy | Dashboard | `PagesController#dashboard` counters and the recent-equipment feed |

## Where the code and the documented design disagree

- Some older tests refer to `inactive` and `archived` statuses, or to
  inventory numbers that are unique per user. The model files define seven
  statuses (codes 0 to 6) and an inventory number unique per table. The
  model follows the model files.
- The design describes the repair number as sequential within the year. The
  code takes the greatest existing number in string order (see Findings);
  the batch-creation model follows the code.

## Model

| member | source | states |
|---|---|---|
| Enums.StatusOfCode | app/models/cute_equipment.rb:23-31 | a stored integer reads back as a status exactly when it is 0..6, and that status stores as the same integer |
| Enums.StatusCodeRoundTrip | app/models/cute_equipment.rb:23-31 | storing a status and reading the column back gives the same status |
| Enums.SystemOfClassName | app/controllers/repairs_controller.rb:122 | only the three equipment class names resolve, each to its own system |
| Enums.SystemOfKey | app/models/equipment_type.rb:5 | only "cute", "fids" and "zamar" name a system, each its own |
| Enums.EnumCode | app/models/cute_equipment.rb:11-21 | a type key has a stored integer exactly when it is one of the enum's keys, and it gets the integer paired with it |
| Enums.TypeEnumsWellFormed | app/models/zamar_equipment.rb:11-17 | the CUTE and ZAMAR type enums have pairwise distinct keys and pairwise distinct codes |
| Records.Save | app/models/cute_equipment.rb:33-56 | an enum type value outside the enum is a server error; otherwise the row is stripped and blanks become nil first, and it is refused as invalid exactly when the stripped row fails the fields or the inventory number's uniqueness; a save either stores the stripped row under its id, touching no other row, or leaves the table unchanged; a stored row is stamped now unless it equals the stored one |
| Records.Normalize | app/models/cute_equipment.rb:55-56 | every text column is stripped and a blank one becomes nil; the other columns are untouched, and a row already stripped is left as it is |
| Records.PaddedDuplicateRefused | app/models/cute_equipment.rb:36-38 | an inventory number that differs from another row's only by padding around it is refused as a duplicate |
| Records.SavePreservesValid | app/models/zamar_equipment.rb:29-38 | a save keeps every row valid and its inventory number unique |
| Records.WarehousePartition | app/models/cute_equipment.rb:7 | every row is either in the warehouse or bound to an installation, never both, and the two counts add up to the table size |
| Records.ListedOrderTotalPreorder | app/models/cute_equipment.rb:43 | the listing order (newest action first) is total and transitive |
| Records.TerminalKey | app/models/fids_installation.rb:10-17 | a terminal key exists exactly for the codes 0..5, one key per code |
| Records.TerminalName | app/models/fids_installation.rb:43-46 | a terminal name exists exactly for terminal codes 0..5 |
| Records.TerminalNameIsLetter | app/models/fids_installation.rb:43-46 | the terminal name of codes 0..5 is the single upper-case letter A..F of its key |
| Records.EquipmentTerminal | app/models/zamar_equipment.rb:93-95 | equipment shows a terminal only when it is bound to an existing installation; which terminal it shows is stated by Binding.AttachShowsTerminal, Binding.DetachHidesTerminal and Binding.DestroyHidesTerminal |
| Binding.Search | app/controllers/cute_installations_controller.rb:87-126 | each reply holds exactly under its guard: missing installation, blank serial, no row with the serial, rows with the serial but all bound; a found row, or a row refused for its duplicate type, is the smallest-id unbound row with the stripped serial, and the duplicate-type rule decides between the two |
| Binding.SearchFindsOnlyMatch | app/controllers/zamar_installations_controller.rb:55 | when one unbound row carries the serial, search finds that row |
| Binding.Attach | app/controllers/cute_installations_controller.rb:129-159 | a missing installation, a missing or already bound row, and a duplicate type are each refused exactly when their guard fails, and any refusal changes nothing; success binds exactly that row, sets the time to now and, per system, makes a CUTE row active and records the actor; the text columns are saved stripped |
| Binding.AttachSucceedsPastGuards | app/controllers/cute_installations_controller.rb:151 | when all guards pass and the row stays valid, attach succeeds |
| Binding.SearchThenAttach | app/controllers/cute_installations_controller.rb:94-151 | attaching the row search found succeeds on a valid table |
| Binding.AttachPreservesValid | app/controllers/fids_installations_controller.rb:121-136 | attach keeps the equipment table valid |
| Binding.AttachMovesOne | app/models/cute_installation.rb:28-30 | after an attach the installation's `equipment_count` is one more and the warehouse one fewer |
| Binding.Detach | app/controllers/cute_installations_controller.rb:162-182 | a row not bound to this installation is refused with nothing changed; success returns exactly that row to the warehouse, stamps now and, per system, makes a CUTE row ready to dispatch and records the actor; the text columns are saved stripped |
| Binding.DetachSucceeds | app/controllers/zamar_installations_controller.rb:100-115 | detaching a row bound to the installation succeeds on a valid table |
| Binding.DetachPreservesValid | app/controllers/fids_installations_controller.rb:139-154 | detach keeps the equipment table valid |
| Binding.AttachShowsTerminal | app/models/zamar_equipment.rb:93-95 | after an attach the row shows the terminal of the installation it joined, where it showed none before, and every other row shows the same terminal as before |
| Binding.DetachMovesOne | app/models/cute_installation.rb:28-30 | after a detach the installation's count is one fewer and the warehouse one more |
| Binding.AttachThenDetach | app/controllers/zamar_installations_controller.rb:82-115 | attach then detach returns the row to the warehouse with its other fields as before, apart from status and audit fields, and every other row unchanged |
| Binding.Nullify | app/models/cute_installation.rb:7 | `dependent: :nullify` clears exactly the references to the destroyed installation |
| Binding.DetachHidesTerminal | app/models/zamar_equipment.rb:93-95 | after a detach the row shows no terminal, where it showed its installation's before, and every other row shows the same terminal as before |
| Binding.DestroyInstallation | app/controllers/cute_installations_controller.rb:81-84 | a missing installation or a user without delete permission changes nothing; otherwise exactly that installation is removed and every row bound to it is unbound, with no other change to any row |
| Binding.DestroyReturnsToWarehouse | app/models/fids_installation.rb:7 | the destroyed installation's equipment moves to the warehouse, which grows by its `equipment_count` |
| Binding.DestroyHidesTerminal | app/models/zamar_equipment.rb:93-95 | after an installation is destroyed its rows show no terminal and every other row shows the same terminal as before |
| Binding.DestroyPreservesValid | app/models/cute_installation.rb:7 | destroying an installation keeps both tables valid |
| EquipmentActions.Create | app/controllers/cute_equipments_controller.rb:64-71 | a created row goes under a fresh id with the submitted text fields stripped (blank ones nil), the actor as owner and last editor, created and stamped now, and status active unless an enum key is given; a status outside the enum is a server error, a blank one is refused as invalid or, once the validations pass, a server error from the NOT NULL column, so a saved row always carries an enum status; a failed save stores nothing |
| Enums.StatusNamed | app/models/cute_equipment.rb:23-31 | a text names a status exactly when it is that status's enum key |
| EquipmentActions.CastStatus | app/models/cute_equipment.rb:23-31 | the submitted status text is unsubmitted, an enum key naming its status, blank (cast to nil), or anything else (raises), each exactly when its condition holds |
| EquipmentActions.Update | app/controllers/cute_equipments_controller.rb:124-129 | a missing row is refused; a saved update puts the submitted fields over the row, strips the text columns and makes the actor the last editor, stamping now unless nothing changed; the status becomes the submitted enum key, while a status outside the enum is a server error and a blank one is invalid or a server error; other rows and failures change nothing |
| EquipmentActions.UnchangedUpdateKeepsDate | app/models/cute_equipment.rb:94-96 | an update by the last editor whose stripped result equals the stored row changes nothing, `last_action_date` included |
| EquipmentActions.PaddedResubmitKeepsDate | app/models/cute_equipment.rb:54-56 | resubmitting the stored inventory number with padding around it is no change |
| EquipmentActions.BlankStatusIsServerError | app/controllers/cute_equipments_controller.rb:124-129 | a blank status on an otherwise unchanged, valid update makes the write fail with a server error and changes nothing |
| EquipmentActions.ChangingUpdateStampsDate | app/models/cute_equipment.rb:94-96 | an update whose stripped result differs from the stored row sets `last_action_date` to now |
| EquipmentActions.CreateUpdatePreserveValid | app/models/cute_equipment.rb:33-40 | create and update keep the table valid |
| EquipmentActions.IndexFilter | app/controllers/cute_equipments_controller.rb:12-21 | a row is listed exactly when it is on the requested terminal, if any, and unbound, if "unassigned" was asked |
| EquipmentActions.TerminalAndUnassignedExclusive | app/controllers/cute_equipments_controller.rb:13-21 | filtering by terminal and by "unassigned" together lists nothing |
| EquipmentActions.Window | app/controllers/cute_equipments_controller.rb:238 | a page holds the next 30 entries from the offset, fewer at the end and none past it, each the history entry at its position |
| EquipmentActions.History | app/controllers/cute_equipments_controller.rb:233-240 | a page below 1 is a negative offset; page p holds entries (p-1)*30 onward, and "more" holds exactly when p*30 < total; no page means page 1 |
| EquipmentActions.PagesTileHistory | app/controllers/cute_equipments_controller.rb:234-238 | pages 1..n concatenated are the first n*30 entries |
| EquipmentActions.HasMoreIffNextPage | app/controllers/cute_equipments_controller.rb:239-240 | "more" is reported exactly when the next page is non-empty |
| RepairNumber.NumberFor | app/models/repair_batch.rb:61 | a generated number starts with REP-year- |
| RepairNumber.SuffixOfNumberFor | app/models/repair_batch.rb:60-61 | the suffix read back from a generated number is its counter |
| RepairNumber.NextNumber | app/models/repair_batch.rb:56-64 | the corrected generator: REP-year- followed by one more than the greatest numeric suffix of that year |
| RepairNumber.NextNumberFresh | app/models/repair_batch.rb:7 | the next number is not among the existing ones |
| RepairNumber.NextNumberSequential | app/models/repair_batch.rb:59-63 | after numbers 1..m of a year the next one is m+1 (001 in a fresh year) |
| RepairNumber.NextNumberAsWritten | app/models/repair_batch.rb:57-63 | the code's generator: one more than the suffix of the greatest number of the year in string order, 001 in a fresh year |
| RepairNumber.AsWrittenReadsYear | app/models/repair_batch.rb:57 | only the numbers of the year matter |
| RepairNumber.AsWrittenPresent | app/models/repair_batch.rb:7 | the proposed number always passes the presence validation |
| RepairNumber.AsWrittenAgreesBelow1000 | app/models/repair_batch.rb:57-63 | while a year holds numbers 1..m with m below 1000, the code proposes m+1, as the corrected generator does |
| RepairNumber.Format03Thousand | app/models/repair_batch.rb:61 | 1000 formats as four digits, which sort before 999 |
| RepairNumber.AsWrittenRepeatsAfter999 | app/models/repair_batch.rb:57 | with numbers 1..1000 existing, the code proposes 1000 again |
| Repairs.BatchStatusText | app/models/repair_batch.rb:17-30 | the four known statuses get their Russian label; any other status is shown humanized; a nil status raises |
| Repairs.BatchStatusTextInjective | app/models/repair_batch.rb:17-22 | distinct statuses have distinct labels |
| Repairs.BatchStatusColor | app/models/repair_batch.rb:32-40 | sent, in progress and received get their own colour; any other status the neutral one |
| Repairs.GeneratedNumberValid | app/models/repair_batch.rb:7 | a batch numbered by the corrected generator passes the presence and uniqueness validations |
| Repairs.DestroyBatch | app/models/repair_batch.rb:4 | destroying a batch removes exactly its items and leaves the equipment tables alone |
| Repairs.ItemEquipment | app/models/repair_batch_item.rb:15-17 | an item resolves to the live row its class and id name, or to "gone" when that row was deleted; a class name other than the three equipment classes is not resolved: `constantize` raises on an unknown name, and a known but unrelated model is not an equipment row |
| Repairs.SnapshotOutlivesEquipment | app/models/repair_batch_item.rb:15-17 | deleting the equipment keeps the item, which then resolves to "gone" |
| Repairs.ItemsBySystem | app/models/repair_batch_item.rb:11 | a blank filter keeps every item; otherwise exactly the items of that system |
| Repairs.ItemsBySerial | app/models/repair_batch_item.rb:12 | a blank filter keeps every item; otherwise exactly the items of that serial number |
| Repairs.SystemOf | app/controllers/repairs_controller.rb:119-122 | only the three class names resolve |
| Repairs.Snapshot | app/controllers/repairs_controller.rb:124-142 | the item copies the class name, system label, serial, model, inventory number and note of the row, and is a valid item |
| Repairs.Step | app/controllers/repairs_controller.rb:118-150 | a selection naming an unknown class or a missing row fails with a server error; any failure is a server or validation error; the batch table is untouched |
| Repairs.Run | app/controllers/repairs_controller.rb:118-150 | the loop fails only with a server error or a validation error and never touches the batch table |
| Repairs.BatchStart | app/controllers/repairs_controller.rb:112-116 | opening the batch leaves the equipment tables and the items alone |
| Repairs.CreateBatchSpec | app/controllers/repairs_controller.rb:104-163 | an empty selection is a bad request; a proposed number that exists already is refused as invalid; any failure leaves every table as it was; success adds the new batch under a fresh id |
| Repairs.CreateBatch | app/controllers/repairs_controller.rb:104-163 | the request returns and stores what the specification above says |
| Repairs.RunStopsAtFailure | app/controllers/repairs_controller.rb:111-151 | once a row fails, the rows after it change nothing |
| Repairs.SentTwice | app/controllers/repairs_controller.rb:145-149 | sending an already sent row again changes nothing more |
| Repairs.SnapshotIgnoresStatus | app/controllers/repairs_controller.rb:132-142 | the snapshot of a row after it was sent to repair is the snapshot of the row stripped: status and stamps do not enter it |
| Repairs.RepeatSnapshotSame | app/controllers/repairs_controller.rb:118-142 | on valid tables a row selected twice records the same snapshot both times |
| Repairs.RunTables | app/controllers/repairs_controller.rb:118-150 | after a successful loop each selected row is waiting for repair (saved stripped) and every other row is unchanged |
| Repairs.RunItems | app/controllers/repairs_controller.rb:118-150 | after a successful loop there is one fresh item per selection, each the snapshot of its row from before the batch; a repeated selection sees the row as its first save left it |
| Repairs.StepSucceeds | app/controllers/repairs_controller.rb:122-149 | a resolvable valid row never fails its step |
| Repairs.RunSucceeds | app/controllers/repairs_controller.rb:118-150 | when every selected row resolves and the tables are valid, the loop succeeds |
| Repairs.CreateBatchSucceeds | app/controllers/repairs_controller.rb:104-163 | a non-empty selection of resolvable rows on valid tables creates the batch exactly when the proposed number is free, and is refused as invalid otherwise |
| Repairs.CreateBatchSucceedsBelow1000 | app/models/repair_batch.rb:57-63 | while a year holds batches 1..m, m below 1000, such a selection opens batch m+1 |
| Repairs.CreateBatchStallsAfter999 | app/models/repair_batch.rb:57-61 | once a year holds batches 1..1000, every later batch of that year is refused and nothing changes |
| Repairs.CreateBatchNeedsEveryRow | app/controllers/repairs_controller.rb:159-162 | a selection naming a missing row fails and changes nothing |
| Repairs.CreateBatchIsRun | app/controllers/repairs_controller.rb:104-163 | a created batch is exactly the loop's result on the opened batch |
| Repairs.CreateBatchOpensBatch | app/controllers/repairs_controller.rb:112-116 | the new batch has the number the code proposes, the actor, the number of selections and status "sent", and its number is unique |
| Repairs.CreateBatchSendsSelected | app/controllers/repairs_controller.rb:145-149 | after creation every selected row waits for repair |
| Repairs.CreateBatchRecordsItems | app/controllers/repairs_controller.rb:132-142 | after creation the batch holds one fresh item per selection, each its row's snapshot; older items are untouched |
| Repairs.ChosenSystems | app/controllers/repairs_controller.rb:17-28 | the systems shown are the one asked for, or all three |
| Repairs.MaintenanceRows | app/controllers/repairs_controller.rb:6-35 | a row is listed exactly when it passes the terminal, system and type filters and is in maintenance, with its last action date |
| Repairs.MaintenanceIndex | app/controllers/repairs_controller.rb:37-95 | the page lists exactly those rows, each once, latest action first |
| Repairs.SerialStats | app/controllers/repairs_controller.rb:217-223 | the number of items with that serial and the list of them, each once, newest first |
| Import.FileTypeOf | app/services/equipment_import_service.rb:39-43 | a name ending in .csv is CSV, in .xlsx is XLSX, anything else or no name is unsupported |
| Import.StatusOfWord | app/services/equipment_import_service.rb:208-227 | every status word maps to one of the seven status codes |
| Import.MapStatus | app/services/equipment_import_service.rb:208-227 | a missing status cell maps to active (0) |
| Import.StatusOfKey | app/services/equipment_import_service.rb:210-223 | each English status key maps to its own code |
| Import.MapStatusReadsKeys | app/services/equipment_import_service.rb:209-223 | a status cell holding a key, in any case and with surrounding spaces, reads as that status |
| Import.SquashSpaces | app/services/equipment_import_service.rb:204 | the result has no whitespace and is never longer; text without whitespace is kept as it is |
| Import.SquashSpacesRun | app/services/equipment_import_service.rb:204 | a word without whitespace is kept, the whole whitespace run after it becomes one underscore, and the rest is squashed in turn |
| Import.MapTerminal | app/services/equipment_import_service.rb:193-206 | a blank cell has no terminal |
| Import.MapTerminalReadsLetters | app/services/equipment_import_service.rb:196-202 | the letters A..F in either case map to terminal_a..terminal_f |
| Import.MapTerminalReadsLongForm | app/services/equipment_import_service.rb:196-202 | "Терминал X" in any case maps to the terminal of letter X |
| Import.PlaceOf | app/services/equipment_import_service.rb:103-106 | an installation is requested exactly when the terminal and place name are present and the terminal maps to a key |
| Import.Queued | app/services/equipment_import_service.rb:108-118 | the queued row carries the stripped cells, "N/A" for a blank serial and the mapped status |
| Import.Classify | app/services/equipment_import_service.rb:71-119 | a row is skipped for missing fields or a stored inventory number (naming row index + 2), raises under an unknown system, else is queued |
| Import.Process | app/services/equipment_import_service.rb:68-126 | imported plus skipped is the number of rows seen, one message per skip |
| Import.ProcessRows | app/services/equipment_import_service.rb:68-126 | the loop computes the process above |
| Import.RaisedStays | app/services/equipment_import_service.rb:33-34 | after an exception no later row matters |
| Import.KnownSystemNeverRaises | app/services/equipment_import_service.rb:165-172 | a known system never raises |
| Import.UnknownSystemRaises | app/services/equipment_import_service.rb:92 | under an unknown system the first row with model and inventory number raises |
| Import.UnknownSystemSkipsBlankRows | app/services/equipment_import_service.rb:85-89 | under an unknown system a file of incomplete rows is only skipped |
| Import.QueuedRowsAreNew | app/services/equipment_import_service.rb:84-96 | every queued row has a model and an inventory number storage does not hold |
| Import.ErrorsNameRows | app/services/equipment_import_service.rb:72 | every skip message names a row between 2 and n + 1 |
| Import.RepeatsInFileAccepted | app/services/equipment_import_service.rb:121-125 | two rows with the same new inventory number are both queued |
| Import.NoteInOneRowOnlyBreaksInsert | app/services/equipment_import_service.rb:108-123 | two accepted rows, one with a note and one with a nil note cell, queue hashes with different keys |
| Import.UniformRowsInsert | app/services/equipment_import_service.rb:108-123 | rows that agree on whether they have a type, a note and a place queue hashes with the same keys |
| Import.Import | app/services/equipment_import_service.rb:17-35 | an unsupported file is refused; a raising row fails the import, and so does a final insert of queued rows whose hashes differ in keys or lack the NOT NULL type column of a table without a default; otherwise the counts add up to the rows and the first ten messages are shown |
| Import.NewRowFailsInsert | app/services/equipment_import_service.rb:108-123 | a CUTE or FIDS file with one new row queues a hash without `equipment_type`, so the insert raises |
| Import.TypedInsertTakesNewRow | app/services/equipment_import_service.rb:108-123 | with the type in every hash one new row of any system is inserted, and ZAMAR behaves as before |
| Password.LoadCommon | app/validators/strong_password_validator.rb:73-92 | a file that cannot be read gives the built-in list; a read file gives exactly its words in lower case |
| Password.Collect | app/validators/strong_password_validator.rb:20-50 | a blank password has no errors; an unreadable email raises; otherwise the errors are exactly the broken rules in rule order |
| Password.BrokenMembers | app/validators/strong_password_validator.rb:23-50 | a rule is reported exactly when the password breaks it |
| Password.BrokenOrdered | app/validators/strong_password_validator.rb:23-50 | reported rules keep the order of the checks |
| Password.OrderedUnique | app/validators/strong_password_validator.rb:23-50 | two ordered lists with the same members are equal |
| Password.BrokenCharacterised | app/validators/strong_password_validator.rb:23-55 | the report is the only ordered list of exactly the broken rules |
| Password.StrongPasswordValidator.CommonPasswords | app/validators/strong_password_validator.rb:69-71 | the list is loaded on first use and then kept |
| Password.StrongPasswordValidator.ValidateEach | app/validators/strong_password_validator.rb:20-56 | a blank password adds nothing and loads nothing; an unreadable email raises; otherwise the errors are the broken rules against the cached list |
| Password.Messages | app/validators/strong_password_validator.rb:102-123 | one message per broken rule, in order |
| Password.AddMessages | app/validators/strong_password_validator.rb:52-55 | the record's errors grow by exactly those messages |
| Password.LineBreaksNotARun | app/validators/strong_password_validator.rb:12 | a password made only of line breaks has no repeated character, since `.` does not match a line break |
| Password.RunAnywhere | app/validators/strong_password_validator.rb:12 | any character other than a line break, three times in a row anywhere in a password, is a repeated character |
| Password.RunSurvivesExtension | app/validators/strong_password_validator.rb:12 | a password holding a run still holds it when extended |
| Password.CapitalisedCommonRejected | app/validators/strong_password_validator.rb:65-67 | a capitalised common password is still common |
| Password.DefaultsLowerCase | app/validators/strong_password_validator.rb:94-100 | the built-in list is in lower case |
| Password.LocalPart | app/validators/strong_password_validator.rb:47-50 | the name before the first "@" of an email |
| Password.EmailRule | app/validators/strong_password_validator.rb:47-50 | with a readable email, the rule is broken exactly when the name is longer than two characters and occurs in the password, ignoring case |
| Password.UnreadableIff | app/validators/strong_password_validator.rb:48 | the email rule cannot be checked exactly when the email is made only of "@" |
| Password.PatternAt | app/validators/strong_password_validator.rb:60-63 | a password containing a listed sequence, ignoring case, has a sequence |
| Password.SequenceAnywhereAnyCase | app/validators/strong_password_validator.rb:60-63 | a password containing, anywhere and in any case, a word whose lower-case form is a listed sequence has a sequence |
| ApiTokens.ExpiryBoundary | app/models/api_token.rb:9-13 | "active" and "expired" never both hold, and neither holds exactly at the expiry instant |
| ApiTokens.InactiveStays | app/models/api_token.rb:9 | an inactive token stays inactive, and is expired at any later time |
| ApiTokens.GenerateToken | app/models/api_token.rb:21-23 | a missing token is filled with the secret; a given one is kept; nothing else changes |
| ApiTokens.GenerateKeepsGiven | app/models/api_token.rb:7 | a given token does not depend on the secret |
| ApiTokens.GeneratedTokenPresent | app/models/api_token.rb:22 | a generated token is present and 64 characters long |
| ApiTokens.ExtractToken | app/controllers/api/base_controller.rb:23-33 | no header gives no token; a header without "Bearer " is the token itself; after "Bearer " the token is a non-empty word |
| ApiTokens.BearerRoundTrip | app/controllers/api/base_controller.rb:28-29 | "Bearer " followed by a token reads as that token |
| ApiTokens.BearerIgnoresTrailingSpace | app/controllers/api/base_controller.rb:28-29 | whitespace after the token does not change the token read |
| ApiTokens.FindActive | app/controllers/api/base_controller.rb:15 | the lookup finds an active row holding the token exactly when one exists |
| ApiTokens.FindActiveUnique | app/models/api_token.rb:4 | with unique tokens, it finds the one row holding the token |
| ApiTokens.TokenStore.Create | app/models/api_token.rb:4-7 | a valid row, its token generated, is stored under a fresh id; an invalid one is not stored |
| ApiTokens.TokenStore.UpdateName | app/models/api_token.rb:5-7 | renaming revalidates and never changes a token |
| ApiTokens.TokenStore.TouchLastUsed | app/models/api_token.rb:15-17 | only `last_used_at` of that row changes, to now |
| ApiTokens.TokenStore.Authenticate | app/controllers/api/base_controller.rb:11-21 | 401 "Token missing" exactly without a header; 401 "Invalid or expired token" exactly when no active row holds it; otherwise the owner is authenticated and the token marked used |
| Catalogs.ValidIgnoresPosition | app/models/equipment_type.rb:5-7 | a type's validity does not depend on its position |
| Catalogs.PositionsOnly | app/controllers/admin/equipment_types_controller.rb:56 | changing only positions keeps every type valid |
| Catalogs.Underscore | app/models/equipment_type.rb:55 | same length, every hyphen becomes an underscore, no hyphen is left |
| Catalogs.Prepare | app/models/equipment_type.rb:20 | only the code changes: a blank code of a named type becomes the underscored slug; otherwise the type is kept |
| Catalogs.SlugCode | app/models/equipment_type.rb:54-56 | a non-empty slug gives a present code that is still a slug |
| Catalogs.PrepareKeepsGivenCode | app/models/installation_type.rb:20 | a present code is never overwritten |
| Catalogs.PrepareIdempotent | app/models/equipment_type.rb:20 | preparing twice is preparing once |
| Catalogs.EmptySlugRefused | app/models/equipment_type.rb:7 | a blank code with an empty slug fails validation |
| Catalogs.UpdateKeepsUnsubmittedCode | app/controllers/admin/equipment_types_controller.rb:32-33 | an update that does not submit a code keeps the stored code and the position |
| Catalogs.BlankCodeRegenerated | app/models/equipment_type.rb:20 | a submitted blank code of a named type is regenerated from the name |
| Catalogs.RefCount | app/models/equipment_type.rb:29 | zero exactly when no row refers to the type |
| Catalogs.CanDestroyIff | app/models/equipment_type.rb:26-41 | a type can be destroyed exactly when no row of its own system refers to it; a type of an unknown system always can |
| Catalogs.Nullify | app/models/equipment_type.rb:10-12 | exactly the references to the type are cleared, nothing else changes |
| Catalogs.NullifyClears | app/models/installation_type.rb:10-12 | afterwards no row refers to the type and other references are kept |
| Catalogs.NullifyUnused | app/models/equipment_type.rb:10-12 | an unused type's nullify changes nothing |
| Catalogs.Repositioned | app/controllers/admin/equipment_types_controller.rb:55-57 | only positions change, and no type is added or removed |
| Catalogs.RepositionedUnlisted | app/controllers/admin/equipment_types_controller.rb:54-60 | a type not listed keeps its position |
| Catalogs.RepositionedLast | app/controllers/admin/equipment_types_controller.rb:55-57 | a type listed several times ends at the position of its last listing |
| Catalogs.RepositionedDistinct | app/controllers/admin/installation_types_controller.rb:55-57 | after a full reorder with distinct ids, the type listed i-th has position i |
| Catalogs.ApplyPositions | app/controllers/admin/equipment_types_controller.rb:55-57 | the loop stops at the first unknown id, with the earlier positions kept |
| Catalogs.SystemParam | app/controllers/admin/equipment_types_controller.rb:10 | a given system is taken as is; none means "cute" |
| Catalogs.NewType | app/controllers/admin/equipment_types_controller.rb:15 | the new-type form has the requested system and no name or code |
| Catalogs.NewTypeDefault | app/controllers/admin/installation_types_controller.rb:15 | without a system the new type is a CUTE type |
| Catalogs.RowLeTotal | app/models/equipment_type.rb:17 | the catalog order is total |
| Catalogs.RowLeTransitive | app/models/equipment_type.rb:17 | the catalog order is transitive |
| Catalogs.TypeCatalog.Index | app/controllers/admin/equipment_types_controller.rb:9-12 | lists exactly the types of the system (default CUTE), each once, in catalog order |
| Catalogs.TypeCatalog.Create | app/controllers/admin/equipment_types_controller.rb:18-27 | the submitted attributes over a blank row (position 0, active), with the code filled in, are stored under a fresh id when valid; an invalid one changes nothing |
| Catalogs.TypeCatalog.Update | app/controllers/admin/equipment_types_controller.rb:32-39 | an unknown id is not found and changes nothing; otherwise the submitted attributes over the stored row, with the code filled in, replace it exactly when valid, and a refusal changes nothing |
| Catalogs.TypeCatalog.Destroy | app/controllers/admin/equipment_types_controller.rb:41-52 | an unknown id changes nothing; a type in use is refused with its usage count and nothing changes; otherwise it is removed and references to it are cleared |
| Catalogs.TypeCatalog.Reorder | app/controllers/admin/equipment_types_controller.rb:54-60 | without a list nothing changes; otherwise the listed types are repositioned up to the first unknown id |
| Dashboard.TerminalLetter | app/controllers/pages_controller.rb:112-120 | nil, codes outside -6..5 and blank text show "?"; only a text made of underscores shows nothing |
| Dashboard.LettersDistinct | app/controllers/pages_controller.rb:116 | the six terminal letters are distinct and none is "?" |
| Dashboard.NegativeCodeWraps | app/controllers/pages_controller.rb:116 | code k-6 shows the same letter as code k, as Ruby's negative indexing does |
| Dashboard.KeyAndCodeAgree | app/helpers/application_helper.rb:36-43 | a terminal's key, its code and the installation's terminal name all show the same letter |
| Dashboard.KeyCode | app/controllers/pages_controller.rb:118 | the key of code k shows the k-th letter |
| Dashboard.KeyLetterValue | app/controllers/pages_controller.rb:118 | a key terminal_x shows the letter X |
| Dashboard.LetterInjective | app/controllers/pages_controller.rb:26-30 | two terminals, or none, showing the same letter are the same, so counts grouped by letter stay apart |
| Dashboard.TotalEquipmentCountsAll | app/controllers/pages_controller.rb:8-11 | the total is the sum of the three tables' sizes |
| Dashboard.TotalInstallationsCountsAll | app/controllers/pages_controller.rb:83-86 | the installation total is the sum of the three tables' sizes |
| Dashboard.WarehousePartition | app/controllers/pages_controller.rb:47-50 | warehouse and placed equipment add up to each table's size |
| Dashboard.WarehouseBound | app/controllers/pages_controller.rb:47-50 | the warehouse total never exceeds the equipment total, and equals it exactly when nothing is placed |
| Dashboard.TakeNewest | app/controllers/pages_controller.rb:91-101 | the first n entries of a list of all entries sorted newest first are the n newest |
| Dashboard.NewestOf | app/controllers/pages_controller.rb:91 | the five newest rows of the table |
| Dashboard.RecentEquipment | app/controllers/pages_controller.rb:103-106 | the feed is sorted newest first and holds the five newest rows of the three tables |
| Dashboard.MergeIsNewest | app/controllers/pages_controller.rb:91-106 | merging each table's five newest and keeping the five newest gives the five newest of all three |
| Text.Strip | app/controllers/cute_installations_controller.rb:88 | never longer than the input and without whitespace at either end |
| Text.StripPadded | app/controllers/cute_installations_controller.rb:88 | whitespace around text that neither starts nor ends with whitespace is removed, and nothing else, so every string strips to its middle |
| Text.StripKeepsBlank | app/controllers/cute_installations_controller.rb:88-90 | a text is blank exactly when its stripped form is |
| Text.StripIdempotent | app/services/equipment_import_service.rb:196 | stripping twice is stripping once |
| Text.Tidy | app/models/cute_equipment.rb:55-56 | the result has no padding at either end and is nil exactly when the text is nil or only padding; tidy text is kept |
| Text.TidyPadded | app/models/cute_equipment.rb:55 | padding around tidy text is removed and nothing else |
| Text.SplitLast | app/models/fids_installation.rb:45 | nothing exactly when the text is made only of separators; otherwise a non-empty last field holding no separator |
| Text.LastWord | app/controllers/api/base_controller.rb:29 | nothing exactly when the text is all spaces; otherwise the non-empty word without spaces that ends the text once trailing whitespace is dropped, preceded by whitespace or nothing |
| Text.LastWordPadded | app/controllers/api/base_controller.rb:29 | a word after whitespace (or at the start) and before any trailing whitespace is returned whole |
| Text.ToINonNegative | app/models/repair_batch.rb:60 | `to_i` of a suffix is never negative |
| Text.ToIOfDigits | app/models/repair_batch.rb:60 | `to_i` of a digit string is its value |
| Text.Format03 | app/models/repair_batch.rb:61 | at least three digits, zero-padded |
| Text.Format03RoundTrip | app/models/repair_batch.rb:60-61 | reading a formatted number back gives the number |
| Text.Format03Injective | app/models/repair_batch.rb:61 | distinct numbers format differently |
| Text.LexTrichotomy | app/models/repair_batch.rb:57 | string order is total |
| Text.LexTransitive | app/models/repair_batch.rb:57 | string order is transitive |
| Text.GreatestString | app/models/repair_batch.rb:57 | the greatest string of a non-empty set is in it and above every other |
| Ordering.SortDesc | app/controllers/repairs_controller.rb:95 | the result is sorted by descending key and is a permutation of the input |
| Ordering.Gather | app/controllers/repairs_controller.rb:40-92 | the list holds every member of the set exactly once |

## Left out

- Reading CSV and XLSX files is not modelled. The rows are an input.
- Navigating the JSON of the weak-password file is not modelled. The file's words, and whether the file exists, are an input.
- `find_by` with several matches is modelled as choosing the smallest id. The database does not specify an order.
- Case mapping covers Latin and Cyrillic letters only.
- Database collation is modelled as character order.
- NULL positions in the catalog order are not modelled.
- `parameterize` is taken as an input slug. `Catalogs.Underscore` models only the hyphen-to-underscore step.
- The dashboard's group-by counts by type and status and its terminal matrix are not modelled. The per-terminal counts appear only through the letter relabelling.
- `insert_all` bypasses validations and callbacks. Of the database constraints, only the NOT NULL `equipment_type` column is modelled; the others are not.
- The import's `find_or_create` of types and installations is recorded as requests and not executed against the catalogs. No raise of `find_or_create_by!` is modelled: neither an unknown terminal enum value nor a validation failure of the type or installation it creates. Import.Import's failure condition assumes none happens.
- Error message texts of unexpected exceptions are not modelled, only that an exception happened.
- The CUTE installation has no `terminal_name` in its model file, so it is a parameter of the repair snapshot.
- The `unassigned` scope used by the CUTE equipment index is not defined in its model file. It is taken as "no installation".
- app/models/fids_equipment.rb and app/models/zamar_installation.rb are not part of this model. The FIDS rules used (free-text type of at most 100 characters, no uniqueness) come from spec/models/fids_equipment_spec.rb.
- The current time, the year, the admin flag and the random token secret are inputs.
- Transactions and concurrency are not modelled. Requests run one after another; a rolled-back transaction is a request that changes nothing.
- Audit history entries are generic values; their contents are not modelled.
- HTML and Turbo rendering, flash messages and redirects are not modelled, only the reply kinds and status codes.
- The CUTE equipment `assign`/`unassign` actions have no route, so they are not modelled.
- The API v1 resource controllers are not modelled, only the token check in front of them.
- Text.Strip: Ruby's `strip` also removes NUL characters at the ends of a string; this model strips whitespace only.
- `current_user_admin=` is called on CUTE equipment by the create, update and attach actions (app/controllers/cute_equipments_controller.rb:68,126,211; app/controllers/cute_installations_controller.rb:149) but defined in none of the model files; the model treats it as an attribute with no effect on saving.
- `human_equipment_type` and `human_status` are called by the installation controllers but defined in none of the model files, so they are not modelled.
- Repairs.BatchStatusText: `humanize` itself is not modelled. An unknown status is returned as it is, standing for its humanized form.
- Installations are never saved by the model, so their `strip_attributes` and `nilify_blanks` are not modelled. Their identifier uniqueness is checked on the submitted value.
- `insert_all` skips callbacks, so imported rows are queued as built and not stripped.
- The `terminal` request parameter of the equipment and repair lists is taken as an already cast terminal code. Casting the request string, an enum key or a number, is not modelled.
- Repairs.CreateBatchSpec: follows the generator as the code writes it. The corrected Repairs numbering is RepairNumber.NextNumber; the two agree while a year holds fewer than 1000 batches (RepairNumber.AsWrittenAgreesBelow1000).

## Findings

| source | as written | input that shows it | evidently intended | confidence | as-written member | corrected member |
|---|---|---|---|---|---|---|
| app/models/repair_batch.rb:57-61 | the previous number is the greatest `repair_number` of the year in string order, and its suffix plus one is proposed | a year already holding REP-Y-001 … REP-Y-1000: "REP-Y-999" is greatest in string order, so REP-Y-1000 is proposed again and fails the uniqueness validation | the numeric maximum of the suffixes, so REP-Y-1001 is proposed | not executed | Repairs.CreateBatchStallsAfter999 | RepairNumber.NextNumber |
| app/services/equipment_import_service.rb:108-123 | the queued hash sets `equipment_type_ref_id` but not `equipment_type`, which is NOT NULL without a default in the CUTE and FIDS tables (db/migrate/20260121130229_create_cute_equipments.rb:6, db/migrate/20260121130245_create_fids_equipments.rb:6) | a CUTE or FIDS file with one row holding a new inventory number and a model: `insert_all` raises and the import answers that it failed | each hash also carries the row's `equipment_type`, so such a file is inserted | not executed | Import.NewRowFailsInsert | Import.TypedInsertTakesNewRow |

=== FILE: api_tokens.dfy ===
/**
 * API tokens and the token check in front of every API request: a token
 * row belongs to a user, carries a generated secret, may expire, and records
 * when it was last used. A request names its token in the Authorization
 * header, either bare or after "Bearer ".
 */
module ApiTokens {
  import opened Text
  import opened Records

  /** One row of `api_tokens`. */
  datatype TokenRow = TokenRow(
    user: UserId,
    token: Option<string>,
    name: Option<string>,
    lastUsedAt: Option<Time>,
    expiresAt: Option<Time>)

  const MaxNameLength: nat := 100

  // ----------------------------------------------------------------- expiry

  /** `expired?`: an expiry is set and lies strictly before now. */
  predicate Expired(t: TokenRow, now: Time) {
    t.expiresAt.Some? && t.expiresAt.value < now
  }

  /** The `active` scope: no expiry, or an expiry strictly after now. */
  predicate Active(t: TokenRow, now: Time) {
    t.expiresAt.None? || t.expiresAt.value > now
  }

  /**
   * The two tests never both hold, and at the instant of expiry neither
   * does: such a token is refused although it is not yet `expired?`.
   */
  lemma ExpiryBoundary(t: TokenRow, now: Time)
    ensures !(Active(t, now) && Expired(t, now))
    ensures !Active(t, now) && !Expired(t, now) <==> t.expiresAt == Some(now)
  {
  }

  /** Once a token has stopped being active, it stays inactive. */
  lemma InactiveStays(t: TokenRow, now: Time, later: Time)
    requires !Active(t, now) && now <= later
    ensures !Active(t, later) && (now < later ==> Expired(t, later))
  {
  }

  // ------------------------------------------------------------- validation

  /** The token is present and no other row holds the same one. */
  predicate TokenUnique(rows: map<Id, TokenRow>, id: Id, t: TokenRow) {
    Present(t.token) && forall o | o in rows && o != id :: rows[o].token != t.token
  }

  /** `validates :token, presence, uniqueness` and `validates :name, presence, length <= 100`. */
  predicate RowValid(rows: map<Id, TokenRow>, id: Id, t: TokenRow) {
    TokenUnique(rows, id, t) && Present(t.name) && |t.name.value| <= MaxNameLength
  }

  /** `SecureRandom.hex(32)`: 64 lower-case hexadecimal digits. */
  predicate IsHexSecret(s: string) {
    |s| == 64 && forall i | 0 <= i < |s| :: IsDigit(s[i]) || 'a' <= s[i] <= 'f'
  }

  /**
   * `generate_token`, run before validation on create: `token ||=
   * SecureRandom.hex(32)` fills the token only when it is nil.
   */
  function GenerateToken(t: TokenRow, secret: string): (r: TokenRow)
    ensures t.token.None? ==> r.token == Some(secret)
    ensures t.token.Some? ==> r == t
    ensures r.(token := t.token) == t
  {
    if t.token.None? then t.(token := Some(secret)) else t
  }

  /** A token that was given one keeps it. */
  lemma GenerateKeepsGiven(t: TokenRow, secret: string, secret': string)
    requires t.token.Some?
    ensures GenerateToken(t, secret) == GenerateToken(t, secret') == t
  {
  }

  /** A generated token is 64 characters long and present. */
  lemma GeneratedTokenPresent(t: TokenRow, secret: string)
    requires t.token.None? && IsHexSecret(secret)
    ensures Present(GenerateToken(t, secret).token) && |GenerateToken(t, secret).token.value| == 64
  {
    assert !IsUnicodeSpace(secret[0]);
  }

  // ------------------------------------------------------------- the header

  /**
   * `extract_token_from_header`: nothing without a header; after "Bearer "
   * the last space-separated word; any other header verbatim.
   */
  function ExtractToken(header: Option<string>): (r: Option<string>)
    ensures header.None? <==> r.None?
    ensures header.Some? && !StartsWith(header.value, "Bearer ") ==> r == header
    ensures header.Some? && StartsWith(header.value, "Bearer ") ==>
      r.Some? && r.value != [] && forall i | 0 <= i < |r.value| :: !IsAsciiSpace(r.value[i])
  {
    if header.None? then None
    else if StartsWith(header.value, "Bearer ") then
      assert !IsAsciiSpace(header.value[0]);
      LastWord(header.value)
    else header
  }

  /** A client sending "Bearer <token>" is read as sending the token itself. */
  lemma BearerRoundTrip(token: string)
    requires token != [] && forall i | 0 <= i < |token| :: !IsAsciiSpace(token[i])
    ensures ExtractToken(Some("Bearer " + token)) == Some(token)
  {
    var h := "Bearer " + token;
    assert h[..7] == "Bearer ";
    assert h == "Bearer " + token + "";
    LastWordPadded("Bearer ", token, "");
  }

  /** White space after the token, as `split(' ')` drops it, does not change what is read. */
  lemma BearerIgnoresTrailingSpace(token: string, b: string)
    requires token != [] && forall i | 0 <= i < |token| :: !IsAsciiSpace(token[i])
    requires forall i | 0 <= i < |b| :: IsAsciiSpace(b[i])
    ensures ExtractToken(Some("Bearer " + token + b)) == Some(token)
  {
    var h := "Bearer " + token + b;
    assert h[..7] == "Bearer ";
    LastWordPadded("Bearer ", token, b);
  }

  // ------------------------------------------------------------------ lookup

  /** The rows whose token is `token` and which are active now. */
  function Matching(rows: map<Id, TokenRow>, token: string, now: Time): (r: set<Id>)
    ensures forall id :: id in r <==> id in rows && rows[id].token == Some(token) && Active(rows[id], now)
  {
    set id | id in rows && rows[id].token == Some(token) && Active(rows[id], now)
  }

  /**
   * `ApiToken.active.find_by(token: token)`: the active row with that token,
   * the one with the smallest id should several match.
   */
  function FindActive(rows: map<Id, TokenRow>, token: string, now: Time): (r: Option<Id>)
    ensures r.None? <==> Matching(rows, token, now) == {}
    ensures r.Some? ==> r.value in rows && rows[r.value].token == Some(token) && Active(rows[r.value], now)
  {
    var m := Matching(rows, token, now);
    if m == {} then None else Some(MinOf(m))
  }

  /** With unique tokens the match, when there is one, is the only row holding that token. */
  lemma FindActiveUnique(rows: map<Id, TokenRow>, token: string, now: Time, id: Id)
    requires forall o | o in rows :: TokenUnique(rows, o, rows[o])
    requires id in rows && rows[id].token == Some(token) && Active(rows[id], now)
    ensures FindActive(rows, token, now) == Some(id)
  {
    var m := Matching(rows, token, now);
    assert id in m;
    assert TokenUnique(rows, id, rows[id]);
    assert m == {id};
  }

  /** The answer of the token check. */
  datatype AuthResult =
    | Unauthorized(message: string)   // 401 with `{ error: message }`
    | Authenticated(user: UserId, token: Id)

  /** The `api_tokens` table. */
  class TokenStore {
    var rows: map<Id, TokenRow>

    /** Every stored row passed its validations when it was saved. */
    ghost predicate Valid()
      reads this
    {
      forall id | id in rows :: RowValid(rows, id, rows[id])
    }

    constructor()
      ensures rows == map[] && Valid()
    {
      rows := map[];
    }

    /**
     * `ApiToken.create`: generate the token when it is absent, validate,
     * and insert under a fresh id; a row that fails validation is not saved.
     */
    method Create(t: TokenRow, secret: string) returns (id: Option<Id>)
      requires Valid()
      modifies this
      ensures Valid()
      ensures var g := GenerateToken(t, secret);
        if RowValid(old(rows), FreshKey(old(rows).Keys), g) then
          id == Some(FreshKey(old(rows).Keys)) && rows == old(rows)[id.value := g]
        else
          id.None? && rows == old(rows)
    {
      var g := GenerateToken(t, secret);
      var k := FreshKey(rows.Keys);
      if RowValid(rows, k, g) {
        rows := rows[k := g];
        id := Some(k);
      } else {
        id := None;
      }
    }

    /**
     * `token.update(name: ...)`: validations run again but the token is
     * never regenerated, so it stays what it was.
     */
    method UpdateName(id: Id, name: Option<string>) returns (saved: bool)
      requires Valid()
      modifies this
      ensures Valid()
      ensures saved <==> id in old(rows) && RowValid(old(rows), id, old(rows)[id].(name := name))
      ensures saved ==> rows == old(rows)[id := old(rows)[id].(name := name)]
      ensures !saved ==> rows == old(rows)
      ensures rows.Keys == old(rows).Keys && forall o | o in rows :: rows[o].token == old(rows)[o].token
    {
      if id in rows && RowValid(rows, id, rows[id].(name := name)) {
        rows := rows[id := rows[id].(name := name)];
        saved := true;
      } else {
        saved := false;
      }
    }

    /** `touch_last_used!`: `update_column` writes `last_used_at` alone, skipping validations. */
    method TouchLastUsed(id: Id, now: Time)
      requires Valid() && id in rows
      modifies this
      ensures Valid()
      ensures rows == old(rows)[id := old(rows)[id].(lastUsedAt := Some(now))]
    {
      rows := rows[id := rows[id].(lastUsedAt := Some(now))];
      assert forall o | o in rows :: rows[o].token == old(rows)[o].token;
    }

    /**
     * `authenticate_with_token!`: 401 "Token missing" without a header, 401
     * "Invalid or expired token" when no active row holds the token, and
     * otherwise the token is marked used and its owner becomes the current
     * user.
     */
    method Authenticate(header: Option<string>, now: Time) returns (r: AuthResult)
      requires Valid()
      modifies this
      ensures Valid()
      ensures header.None? <==> r == Unauthorized("Token missing")
      ensures header.Some? && FindActive(old(rows), ExtractToken(header).value, now).None? <==>
        r == Unauthorized("Invalid or expired token")
      ensures r.Unauthorized? ==> rows == old(rows)
      ensures r.Authenticated? ==>
        && header.Some?
        && FindActive(old(rows), ExtractToken(header).value, now) == Some(r.token)
        && r.user == old(rows)[r.token].user
        && rows == old(rows)[r.token := old(rows)[r.token].(lastUsedAt := Some(now))]
    {
      var token := ExtractToken(header);
      if token.None? {
        return Unauthorized("Token missing");
      }
      var found := FindActive(rows, token.value, now);
      if found.None? {
        return Unauthorized("Invalid or expired token");
      }
      var id := found.value;
      TouchLastUsed(id, now);
      r := Authenticated(rows[id].user, id);
    }
  }
}

=== FILE: binding.dfy ===
/**
 * The binding engine of the three installation controllers: the serial
 * number search, attaching warehouse equipment to an installation,
 * detaching it again, and destroying an installation (which returns its
 * equipment to the warehouse). One definition serves all three systems; the
 * `Policy` carries what differs between them.
 */
module Binding {
  import opened Text
  import opened Enums
  import opened Records

  /** The answer of `search_equipment`. */
  datatype SearchReply =
    | NoInstallation        // 404: `set_installation` did not find the installation
    | SerialMissing         // 400: the serial number is absent or blank
    | Found(id: Id)         // 200: warehouse equipment with that serial number
    | TypeTaken(id: Id)     // 422: it exists, but the installation already holds its type
    | AlreadyBound          // 404: every equipment with that serial number is bound
    | NoSuchSerial          // 404: no equipment has that serial number

  /** The equipment whose serial number is exactly `serial`. */
  function WithSerial(t: Table, serial: string): set<Id> {
    set id | id in t.equipment && t.equipment[id].serial == Some(serial)
  }

  /** `find_by(serial_number: serial, installation_id: nil)` candidates. */
  function FreeWithSerial(t: Table, serial: string): set<Id> {
    set id | id in t.equipment && t.equipment[id].serial == Some(serial) && t.equipment[id].installation.None?
  }

  /** `equipment_type_exists?`: the installation already holds equipment of this type. */
  predicate TypeTakenAt(t: Table, inst: Id, etype: Option<string>) {
    exists id | id in t.equipment :: t.equipment[id].installation == Some(inst) && t.equipment[id].etype == etype
  }

  /** The duplicate-type rule: only CUTE applies it, and never to administrators. */
  predicate RefusesDuplicate(p: Policy, t: Table, inst: Id, etype: Option<string>, admin: bool) {
    p.duplicateTypeCheck && !admin && TypeTakenAt(t, inst, etype)
  }

  /**
   * `search_equipment`: strip the serial number, look for warehouse equipment
   * carrying it (the lowest id when several do), and tell a bound serial
   * number apart from an unknown one.
   */
  function Search(p: Policy, t: Table, inst: Id, serialParam: Option<string>, admin: bool): (r: SearchReply)
    ensures r.NoInstallation? <==> inst !in t.installations
    ensures r.SerialMissing? <==> inst in t.installations && BlankOpt(serialParam)
    ensures (r.Found? || r.TypeTaken?) ==>
      && serialParam.Some?
      && r.id in FreeWithSerial(t, Strip(serialParam.value))
      && forall o | o in FreeWithSerial(t, Strip(serialParam.value)) :: r.id <= o
    ensures r.Found? ==> !RefusesDuplicate(p, t, inst, t.equipment[r.id].etype, admin)
    ensures r.TypeTaken? ==> RefusesDuplicate(p, t, inst, t.equipment[r.id].etype, admin)
    ensures r.AlreadyBound? ==>
      serialParam.Some? && WithSerial(t, Strip(serialParam.value)) != {} && FreeWithSerial(t, Strip(serialParam.value)) == {}
    ensures r.NoSuchSerial? ==> serialParam.Some? && WithSerial(t, Strip(serialParam.value)) == {}
    ensures inst in t.installations && Present(serialParam) && FreeWithSerial(t, Strip(serialParam.value)) != {} ==>
      r.Found? || r.TypeTaken?
  {
    assert serialParam.Some? ==> (Blank(Strip(serialParam.value)) <==> Blank(serialParam.value)) by {
      if serialParam.Some? {
        StripKeepsBlank(serialParam.value);
      }
    }
    if inst !in t.installations then NoInstallation
    else if serialParam.None? || Blank(Strip(serialParam.value)) then SerialMissing
    else
      var serial := Strip(serialParam.value);
      var free := FreeWithSerial(t, serial);
      if free != {} then
        var id := MinOf(free);
        if RefusesDuplicate(p, t, inst, t.equipment[id].etype, admin) then TypeTaken(id) else Found(id)
      else if WithSerial(t, serial) != {} then AlreadyBound
      else NoSuchSerial
  }

  /** Where serial numbers are unique (ZAMAR), a successful search names the only match. */
  lemma SearchFindsOnlyMatch(t: Table, inst: Id, serialParam: Option<string>, admin: bool)
    requires TableValid(PolicyOf(Zamar), t)
    requires Search(PolicyOf(Zamar), t, inst, serialParam, admin).Found?
    ensures WithSerial(t, Strip(serialParam.value)) == {Search(PolicyOf(Zamar), t, inst, serialParam, admin).id}
  {
    var p := PolicyOf(Zamar);
    var id := Search(p, t, inst, serialParam, admin).id;
    var serial := Strip(serialParam.value);
    assert EquipmentValid(p, t, id);
    forall o | o in WithSerial(t, serial)
      ensures o == id
    {
      assert t.equipment[o].serial == t.equipment[id].serial;
    }
  }

  // ------------------------------------------------------------------ attach

  /** The row `attach_equipment` saves: bound to `inst`, stamped as the policy says. */
  function Attached(p: Policy, e: Equipment, inst: Id, actor: UserId, now: Time): Equipment {
    var e1 := e.(installation := Some(inst));
    var e2 := if p.attachSetsStatus then e1.(status := Active, lastChangedBy := Some(actor), lastActionDate := Some(now)) else e1;
    if p.attachSetsOwner then e2.(owner := Some(actor)) else e2
  }

  /**
   * `attach_equipment`: the installation must exist, the equipment must be in
   * the warehouse, the duplicate-type rule must allow it; then the row is
   * bound and saved.
   */
  function Attach(p: Policy, t: Table, inst: Id, id: Id, actor: UserId, admin: bool, now: Time): (r: (Table, Reply))
    ensures r.1 != Ok ==> r.0 == t
    ensures r.1 == InstallationMissing <==> inst !in t.installations
    ensures r.1 == EquipmentMissing <==>
      inst in t.installations && (id !in t.equipment || t.equipment[id].installation.Some?)
    ensures r.1 == DuplicateType <==>
      && inst in t.installations && id in t.equipment && t.equipment[id].installation.None?
      && RefusesDuplicate(p, t, inst, t.equipment[id].etype, admin)
    ensures r.1 == Ok ==>
      && id in t.equipment && t.equipment[id].installation.None?
      && r.0.installations == t.installations
      && r.0.equipment.Keys == t.equipment.Keys
      && (forall o | o in t.equipment && o != id :: r.0.equipment[o] == t.equipment[o])
      && var (e, e') := (t.equipment[id], r.0.equipment[id]);
      && e'.installation == Some(inst)
      && e'.lastActionDate == Some(now)
      && e'.status == (if p.attachSetsStatus then Active else e.status)
      && e'.lastChangedBy == (if p.attachSetsStatus then Some(actor) else e.lastChangedBy)
      && e'.owner == (if p.attachSetsOwner then Some(actor) else e.owner)
      && e'.(installation := e.installation, status := e.status, lastChangedBy := e.lastChangedBy,
             owner := e.owner, lastActionDate := e.lastActionDate) == Normalize(e)
  {
    if inst !in t.installations then (t, InstallationMissing)
    else if id !in t.equipment || t.equipment[id].installation.Some? then (t, EquipmentMissing)
    else if RefusesDuplicate(p, t, inst, t.equipment[id].etype, admin) then (t, DuplicateType)
    else
      var e := t.equipment[id];
      NormalizeStamped(e, Attached(p, e, inst, actor, now));
      Save(p, t, id, Attached(p, e, inst, actor, now), now)
  }

  /** On a valid state the save inside attach cannot fail: the guards alone decide. */
  lemma AttachSucceedsPastGuards(p: Policy, t: Table, inst: Id, id: Id, actor: UserId, admin: bool, now: Time)
    requires TableValid(p, t)
    requires inst in t.installations && id in t.equipment && t.equipment[id].installation.None?
    requires !RefusesDuplicate(p, t, inst, t.equipment[id].etype, admin)
    ensures Attach(p, t, inst, id, actor, admin, now).1 == Ok
  {
    assert EquipmentValid(p, t, id);
    var e' := Attached(p, t.equipment[id], inst, actor, now);
    assert UniqueIn(p, t.equipment, id, e');
  }

  /** What the search offers can be attached: a `Found` answer is followed by a successful attach. */
  lemma SearchThenAttach(p: Policy, t: Table, inst: Id, serialParam: Option<string>, actor: UserId, admin: bool, now: Time)
    requires TableValid(p, t)
    requires Search(p, t, inst, serialParam, admin).Found?
    ensures Attach(p, t, inst, Search(p, t, inst, serialParam, admin).id, actor, admin, now).1 == Ok
  {
    var id := Search(p, t, inst, serialParam, admin).id;
    AttachSucceedsPastGuards(p, t, inst, id, actor, admin, now);
  }

  /** Attaching keeps every row valid. */
  lemma AttachPreservesValid(p: Policy, t: Table, inst: Id, id: Id, actor: UserId, admin: bool, now: Time)
    requires TableValid(p, t)
    ensures TableValid(p, Attach(p, t, inst, id, actor, admin, now).0)
  {
    if inst in t.installations && id in t.equipment && t.equipment[id].installation.None?
       && !RefusesDuplicate(p, t, inst, t.equipment[id].etype, admin) {
      SavePreservesValid(p, t, id, Attached(p, t.equipment[id], inst, actor, now), now);
    }
  }

  /** A successful attach moves exactly one row from the warehouse to the installation. */
  lemma AttachMovesOne(p: Policy, t: Table, inst: Id, id: Id, actor: UserId, admin: bool, now: Time)
    requires Attach(p, t, inst, id, actor, admin, now).1 == Ok
    ensures var t' := Attach(p, t, inst, id, actor, admin, now).0;
      && BoundTo(t', inst) == BoundTo(t, inst) + {id}
      && EquipmentCount(t', inst) == EquipmentCount(t, inst) + 1
      && Warehouse(t') == Warehouse(t) - {id}
      && |Warehouse(t')| == |Warehouse(t)| - 1
  {
    var t' := Attach(p, t, inst, id, actor, admin, now).0;
    Rebound(t, t', id, inst);
  }

  /**
   * After an attach the row shows the terminal of the installation it joined
   * (`installation&.terminal`), and every other row shows what it showed before.
   */
  lemma AttachShowsTerminal(p: Policy, t: Table, inst: Id, id: Id, actor: UserId, admin: bool, now: Time)
    requires Attach(p, t, inst, id, actor, admin, now).1 == Ok
    ensures var t' := Attach(p, t, inst, id, actor, admin, now).0;
      && EquipmentTerminal(t', t'.equipment[id]) == t.installations[inst].terminal
      && EquipmentTerminal(t, t.equipment[id]) == None
      && forall o | o in t.equipment && o != id :: EquipmentTerminal(t', t'.equipment[o]) == EquipmentTerminal(t, t.equipment[o])
  {
  }

  /** Binding one warehouse row to `inst` and changing nothing else adds it to `inst` and takes it from the warehouse. */
  lemma Rebound(t: Table, t': Table, id: Id, inst: Id)
    requires t'.equipment.Keys == t.equipment.Keys
    requires forall o | o in t.equipment && o != id :: t'.equipment[o] == t.equipment[o]
    requires id in t.equipment && t.equipment[id].installation.None? && t'.equipment[id].installation == Some(inst)
    ensures BoundTo(t', inst) == BoundTo(t, inst) + {id} && id !in BoundTo(t, inst)
    ensures Warehouse(t') == Warehouse(t) - {id} && id in Warehouse(t)
    ensures EquipmentCount(t', inst) == EquipmentCount(t, inst) + 1
    ensures |Warehouse(t')| == |Warehouse(t)| - 1
  {
    assert BoundTo(t', inst) == BoundTo(t, inst) + {id};
    assert Warehouse(t') == Warehouse(t) - {id};
  }

  // ------------------------------------------------------------------ detach

  /** The row `detach_equipment` saves: back in the warehouse, stamped as the policy says. */
  function Detached(p: Policy, e: Equipment, actor: UserId, now: Time): Equipment {
    var e1 := e.(installation := None);
    var e2 := if p.attachSetsStatus then e1.(status := ReadyToDispatch, lastChangedBy := Some(actor), lastActionDate := Some(now)) else e1;
    if p.attachSetsOwner then e2.(owner := Some(actor)) else e2
  }

  /**
   * `detach_equipment`: the installation must exist and hold the equipment;
   * then the row goes back to the warehouse and is saved.
   */
  function Detach(p: Policy, t: Table, inst: Id, id: Id, actor: UserId, now: Time): (r: (Table, Reply))
    ensures r.1 != Ok ==> r.0 == t
    ensures r.1 == InstallationMissing <==> inst !in t.installations
    ensures r.1 == EquipmentMissing <==>
      inst in t.installations && (id !in t.equipment || t.equipment[id].installation != Some(inst))
    ensures r.1 != DuplicateType
    ensures r.1 == Ok ==>
      && id in t.equipment && t.equipment[id].installation == Some(inst)
      && r.0.installations == t.installations
      && r.0.equipment.Keys == t.equipment.Keys
      && (forall o | o in t.equipment && o != id :: r.0.equipment[o] == t.equipment[o])
      && var (e, e') := (t.equipment[id], r.0.equipment[id]);
      && e'.installation.None?
      && e'.lastActionDate == Some(now)
      && e'.status == (if p.attachSetsStatus then ReadyToDispatch else e.status)
      && e'.lastChangedBy == (if p.attachSetsStatus then Some(actor) else e.lastChangedBy)
      && e'.owner == (if p.attachSetsOwner then Some(actor) else e.owner)
      && e'.(installation := e.installation, status := e.status, lastChangedBy := e.lastChangedBy,
             owner := e.owner, lastActionDate := e.lastActionDate) == Normalize(e)
  {
    if inst !in t.installations then (t, InstallationMissing)
    else if id !in t.equipment || t.equipment[id].installation != Some(inst) then (t, EquipmentMissing)
    else
      var e := t.equipment[id];
      NormalizeStamped(e, Detached(p, e, actor, now));
      Save(p, t, id, Detached(p, e, actor, now), now)
  }

  /** On a valid state detaching bound equipment always succeeds. */
  lemma DetachSucceeds(p: Policy, t: Table, inst: Id, id: Id, actor: UserId, now: Time)
    requires TableValid(p, t)
    requires inst in t.installations && id in t.equipment && t.equipment[id].installation == Some(inst)
    ensures Detach(p, t, inst, id, actor, now).1 == Ok
  {
    assert EquipmentValid(p, t, id);
    var e' := Detached(p, t.equipment[id], actor, now);
    assert UniqueIn(p, t.equipment, id, e');
  }

  /** Detaching keeps every row valid. */
  lemma DetachPreservesValid(p: Policy, t: Table, inst: Id, id: Id, actor: UserId, now: Time)
    requires TableValid(p, t)
    ensures TableValid(p, Detach(p, t, inst, id, actor, now).0)
  {
    if inst in t.installations && id in t.equipment && t.equipment[id].installation == Some(inst) {
      SavePreservesValid(p, t, id, Detached(p, t.equipment[id], actor, now), now);
    }
  }

  /** A successful detach moves exactly one row from the installation back to the warehouse. */
  lemma DetachMovesOne(p: Policy, t: Table, inst: Id, id: Id, actor: UserId, now: Time)
    requires Detach(p, t, inst, id, actor, now).1 == Ok
    ensures var t' := Detach(p, t, inst, id, actor, now).0;
      && BoundTo(t', inst) == BoundTo(t, inst) - {id}
      && EquipmentCount(t', inst) == EquipmentCount(t, inst) - 1
      && Warehouse(t') == Warehouse(t) + {id}
      && |Warehouse(t')| == |Warehouse(t)| + 1
  {
    var t' := Detach(p, t, inst, id, actor, now).0;
    Rebound(t', t, id, inst);
  }

  /**
   * After a detach the row shows no terminal, where it showed its
   * installation's before; every other row shows what it showed before.
   */
  lemma DetachHidesTerminal(p: Policy, t: Table, inst: Id, id: Id, actor: UserId, now: Time)
    requires Detach(p, t, inst, id, actor, now).1 == Ok
    ensures var t' := Detach(p, t, inst, id, actor, now).0;
      && EquipmentTerminal(t', t'.equipment[id]) == None
      && EquipmentTerminal(t, t.equipment[id]) == t.installations[inst].terminal
      && forall o | o in t.equipment && o != id :: EquipmentTerminal(t', t'.equipment[o]) == EquipmentTerminal(t, t.equipment[o])
  {
  }

  /** Attaching and then detaching returns the row to the warehouse with everything but the stamps restored. */
  lemma AttachThenDetach(p: Policy, t: Table, inst: Id, id: Id, actor: UserId, admin: bool, now: Time, later: Time)
    requires Attach(p, t, inst, id, actor, admin, now).1 == Ok
    requires TableValid(p, t)
    ensures var t1 := Attach(p, t, inst, id, actor, admin, now).0;
      var (t2, reply) := Detach(p, t1, inst, id, actor, later);
      && reply == Ok
      && t2.equipment.Keys == t.equipment.Keys
      && (forall o | o in t.equipment && o != id :: t2.equipment[o] == t.equipment[o])
      && t2.equipment[id].installation.None?
      && t2.equipment[id].(status := t.equipment[id].status, lastChangedBy := t.equipment[id].lastChangedBy,
                           owner := t.equipment[id].owner, lastActionDate := t.equipment[id].lastActionDate)
         == t.equipment[id]
  {
    var t1 := Attach(p, t, inst, id, actor, admin, now).0;
    AttachPreservesValid(p, t, inst, id, actor, admin, now);
    DetachSucceeds(p, t1, inst, id, actor, later);
  }

  // ----------------------------------------------------------------- destroy

  /** `dependent: :nullify`: one `UPDATE ... SET installation_id = NULL`, no callbacks, no stamp. */
  function Nullify(eqs: map<Id, Equipment>, inst: Id): (r: map<Id, Equipment>)
    ensures r.Keys == eqs.Keys
    ensures forall id | id in eqs :: r[id].installation == (if eqs[id].installation == Some(inst) then None else eqs[id].installation)
    ensures forall id | id in eqs :: r[id].(installation := eqs[id].installation) == eqs[id]
  {
    map id | id in eqs :: if eqs[id].installation == Some(inst) then eqs[id].(installation := None) else eqs[id]
  }

  /**
   * `destroy`: `find` first (404), then the delete permission, then the
   * installation goes and its equipment returns to the warehouse.
   */
  function DestroyInstallation(t: Table, inst: Id, mayDelete: bool): (r: (Table, Reply))
    ensures r.1 != Ok ==> r.0 == t
    ensures r.1 == InstallationMissing <==> inst !in t.installations
    ensures r.1 == Forbidden <==> inst in t.installations && !mayDelete
    ensures r.1 == Ok ==> inst !in r.0.installations && r.0.installations == t.installations - {inst}
    ensures r.1 == Ok ==> r.0.equipment == Nullify(t.equipment, inst)
  {
    if inst !in t.installations then (t, InstallationMissing)
    else if !mayDelete then (t, Forbidden)
    else (Table(Nullify(t.equipment, inst), map i | i in t.installations && i != inst :: t.installations[i]), Ok)
  }

  /** Destroying an installation deletes no equipment and sends what it held to the warehouse. */
  lemma DestroyReturnsToWarehouse(t: Table, inst: Id, mayDelete: bool)
    requires DestroyInstallation(t, inst, mayDelete).1 == Ok
    ensures var t' := DestroyInstallation(t, inst, mayDelete).0;
      && t'.equipment.Keys == t.equipment.Keys
      && Warehouse(t') == Warehouse(t) + BoundTo(t, inst)
      && |Warehouse(t')| == |Warehouse(t)| + EquipmentCount(t, inst)
      && BoundTo(t', inst) == {}
  {
    var t' := DestroyInstallation(t, inst, mayDelete).0;
    assert Warehouse(t') == Warehouse(t) + BoundTo(t, inst);
    assert Warehouse(t) !! BoundTo(t, inst);
  }

  /**
   * After an installation is destroyed its rows show no terminal, and the
   * rows of every other installation still show their installation's.
   */
  lemma DestroyHidesTerminal(t: Table, inst: Id, mayDelete: bool)
    requires DestroyInstallation(t, inst, mayDelete).1 == Ok
    ensures var t' := DestroyInstallation(t, inst, mayDelete).0;
      && t'.equipment.Keys == t.equipment.Keys
      && forall id | id in t.equipment ::
           EquipmentTerminal(t', t'.equipment[id])
             == if t.equipment[id].installation == Some(inst) then None else EquipmentTerminal(t, t.equipment[id])
  {
  }

  /** Destroying an installation keeps every row valid: no row is left pointing at it. */
  lemma DestroyPreservesValid(p: Policy, t: Table, inst: Id, mayDelete: bool)
    requires TableValid(p, t)
    ensures TableValid(p, DestroyInstallation(t, inst, mayDelete).0)
  {
    var (t', reply) := DestroyInstallation(t, inst, mayDelete);
    if reply == Ok {
      forall id | id in t'.equipment
        ensures EquipmentValid(p, t', id)
      {
        assert EquipmentValid(p, t, id);
        var e := t.equipment[id];
        assert t'.equipment[id] == e.(installation := t'.equipment[id].installation);
        assert UniqueIn(p, t'.equipment, id, t'.equipment[id]) by {
          forall o | o in t'.equipment && o != id
            ensures t'.equipment[o].inventory == t.equipment[o].inventory
            ensures t'.equipment[o].serial == t.equipment[o].serial
          {
          }
        }
      }
      forall i | i in t'.installations
        ensures InstallationValid(p, t'.installations, i, t'.installations[i])
      {
        assert InstallationValid(p, t.installations, i, t.installations[i]);
      }
    }
  }
}

=== FILE: catalogs.dfy ===
/**
 * The two type catalogs: `equipment_types` and `installation_types`. Both
 * models and both admin controllers are the same code, so one model serves
 * both; the "referrers" are the equipment rows of the three systems (for the
 * equipment catalog) or their installation rows (for the installation
 * catalog), reduced to the column that points into the catalog.
 */
module Catalogs {
  import opened Text
  import opened Records

  /** One row of `equipment_types` (or `installation_types`). */
  datatype TypeRow = TypeRow(
    system: Option<string>,
    name: Option<string>,
    code: Option<string>,
    position: int,
    active: bool)

  /**
   * The attributes the admin form may set (`system`, `name`, `code`,
   * `active`). The outer `Option` says whether the field was submitted at
   * all; the inner value is what was submitted.
   */
  datatype TypeParams = TypeParams(
    system: Option<Option<string>>,
    name: Option<Option<string>>,
    code: Option<Option<string>>,
    active: Option<bool>)

  /** The column defaults of `position` and `active`. */
  const DefaultPosition: int := 0
  const DefaultActive: bool := true

  /** A new row before assignment: the text columns nil, the others at their defaults. */
  const BlankType := TypeRow(None, None, None, DefaultPosition, DefaultActive)

  /** Mass assignment: every submitted attribute replaces the current value; the position is never assigned. */
  function AssignType(t: TypeRow, p: TypeParams): TypeRow {
    TypeRow(Pick(p.system, t.system), Pick(p.name, t.name), Pick(p.code, t.code), t.position, Pick(p.active, t.active))
  }

  /**
   * An update that does not submit a code keeps the stored one, whatever the
   * new name parameterizes to; only a submitted blank code is regenerated.
   */
  lemma UpdateKeepsUnsubmittedCode(t: TypeRow, p: TypeParams, slug: string)
    requires p.code.None? && Present(t.code)
    ensures Prepare(AssignType(t, p), slug).code == t.code
    ensures Prepare(AssignType(t, p), slug).position == t.position
  {
  }

  /** A submitted blank code is regenerated from the name, when there is one. */
  lemma BlankCodeRegenerated(t: TypeRow, p: TypeParams, slug: string)
    requires p.code == Some(None) && Present(AssignType(t, p).name)
    ensures Prepare(AssignType(t, p), slug).code == Some(Underscore(slug))
  {
  }

  /** The systems a type may belong to. */
  predicate KnownSystem(s: Option<string>) {
    s == Some("cute") || s == Some("fids") || s == Some("zamar")
  }

  /**
   * The catalog reference column of each system's referring table:
   * referrer id to the catalog id it points at, or None.
   */
  datatype Referrers = Referrers(
    cute: map<Id, Option<Id>>,
    fids: map<Id, Option<Id>>,
    zamar: map<Id, Option<Id>>)

  // ------------------------------------------------------------- validation

  /**
   * `validates :system, presence, inclusion`, `validates :name, presence,
   * uniqueness: { scope: :system }` and the same for `code`.
   */
  predicate TypeValid(types: map<Id, TypeRow>, id: Id, t: TypeRow) {
    && KnownSystem(t.system)
    && Present(t.name)
    && Present(t.code)
    && (forall o | o in types && o != id && types[o].system == t.system ::
          types[o].name != t.name && types[o].code != t.code)
  }

  /** Validity does not depend on the position of any row. */
  lemma ValidIgnoresPosition(types: map<Id, TypeRow>, types': map<Id, TypeRow>, id: Id, t: TypeRow, p: int)
    requires types'.Keys == types.Keys
    requires forall o | o in types :: types'[o] == types[o].(position := types'[o].position)
    ensures TypeValid(types', id, t.(position := p)) <==> TypeValid(types, id, t)
  {
  }

  /** Changing only positions keeps every row valid. */
  lemma PositionsOnly(types: map<Id, TypeRow>, types': map<Id, TypeRow>)
    requires forall id | id in types :: TypeValid(types, id, types[id])
    requires types'.Keys == types.Keys
    requires forall o | o in types :: types'[o] == types[o].(position := types'[o].position)
    ensures forall id | id in types' :: TypeValid(types', id, types'[id])
  {
    forall id | id in types'
      ensures TypeValid(types', id, types'[id])
    {
      ValidIgnoresPosition(types, types', id, types[id], types'[id].position);
    }
  }

  // --------------------------------------------------------- code generation

  /** What `parameterize` produces: lower-case letters, digits, `-` and `_`. */
  predicate IsSlug(s: string) {
    forall i | 0 <= i < |s| :: 'a' <= s[i] <= 'z' || IsDigit(s[i]) || s[i] == '-' || s[i] == '_'
  }

  /** `underscore` on a parameterized name: each `-` becomes `_`. */
  function Underscore(s: string): (r: string)
    ensures |r| == |s|
    ensures forall i | 0 <= i < |s| :: r[i] == (if s[i] == '-' then '_' else s[i])
    ensures forall i | 0 <= i < |r| :: r[i] != '-'
  {
    seq(|s|, i requires 0 <= i < |s| => if s[i] == '-' then '_' else s[i])
  }

  /**
   * The `before_validation` callback: when the code is blank and the name is
   * present, the code becomes the underscored `name.parameterize` (`slug`).
   */
  function Prepare(t: TypeRow, slug: string): (r: TypeRow)
    ensures r.(code := t.code) == t
    ensures BlankOpt(t.code) && Present(t.name) ==> r.code == Some(Underscore(slug))
    ensures !BlankOpt(t.code) || !Present(t.name) ==> r == t
  {
    if BlankOpt(t.code) && Present(t.name) then t.(code := Some(Underscore(slug))) else t
  }

  /** A non-empty slug yields a present code made of slug characters and no `-`. */
  lemma SlugCode(slug: string)
    requires IsSlug(slug) && slug != []
    ensures Present(Some(Underscore(slug))) && IsSlug(Underscore(slug))
  {
    assert !IsUnicodeSpace(Underscore(slug)[0]);
  }

  /** A given code is never replaced, whatever the name parameterizes to. */
  lemma PrepareKeepsGivenCode(t: TypeRow, slug: string, slug': string)
    requires Present(t.code)
    ensures Prepare(t, slug) == Prepare(t, slug') == t
  {
  }

  /** Running the callback again changes nothing once it produced a code. */
  lemma PrepareIdempotent(t: TypeRow, slug: string, slug': string)
    requires IsSlug(slug) && slug != []
    ensures Prepare(Prepare(t, slug), slug') == Prepare(t, slug)
  {
    SlugCode(slug);
  }

  /**
   * A name that parameterizes to nothing (one written only in Cyrillic, say)
   * and no explicit code leave the code blank, so the row is refused.
   */
  lemma EmptySlugRefused(types: map<Id, TypeRow>, id: Id, t: TypeRow)
    requires BlankOpt(t.code)
    ensures !TypeValid(types, id, Prepare(t, ""))
  {
  }

  // ------------------------------------------------------------------ usage

  /** The number of referrers pointing at catalog row `id`. */
  function RefCount(col: map<Id, Option<Id>>, id: Id): (n: nat)
    ensures n == 0 <==> forall k | k in col :: col[k] != Some(id)
  {
    var s := set k | k in col && col[k] == Some(id);
    assert forall k | k in col && col[k] == Some(id) :: k in s;
    |s|
  }

  /**
   * `equipment_count` / `installation_count`: the referrers of the type's own
   * system; a type of any other system counts 0.
   */
  function UsageCount(t: TypeRow, id: Id, refs: Referrers): nat {
    if t.system == Some("cute") then RefCount(refs.cute, id)
    else if t.system == Some("fids") then RefCount(refs.fids, id)
    else if t.system == Some("zamar") then RefCount(refs.zamar, id)
    else 0
  }

  /** `can_destroy?`: the usage count is zero. */
  predicate CanDestroy(t: TypeRow, id: Id, refs: Referrers) {
    UsageCount(t, id, refs) == 0
  }

  /**
   * A type can be destroyed exactly when no referrer of its own system points
   * at it; references from the other systems are not looked at.
   */
  lemma CanDestroyIff(t: TypeRow, id: Id, refs: Referrers)
    ensures t.system == Some("cute") ==> (CanDestroy(t, id, refs) <==> forall k | k in refs.cute :: refs.cute[k] != Some(id))
    ensures t.system == Some("fids") ==> (CanDestroy(t, id, refs) <==> forall k | k in refs.fids :: refs.fids[k] != Some(id))
    ensures t.system == Some("zamar") ==> (CanDestroy(t, id, refs) <==> forall k | k in refs.zamar :: refs.zamar[k] != Some(id))
    ensures !KnownSystem(t.system) ==> CanDestroy(t, id, refs)
  {
  }

  /** `dependent: :nullify` on one table: references to `id` become None. */
  function Nullify(col: map<Id, Option<Id>>, id: Id): (r: map<Id, Option<Id>>)
    ensures r.Keys == col.Keys
    ensures forall k | k in r :: r[k] == (if col[k] == Some(id) then None else col[k])
  {
    map k | k in col :: if col[k] == Some(id) then None else col[k]
  }

  /** The three `has_many ... dependent: :nullify` associations. */
  function NullifyAll(refs: Referrers, id: Id): Referrers {
    Referrers(Nullify(refs.cute, id), Nullify(refs.fids, id), Nullify(refs.zamar, id))
  }

  /** After nullifying, nothing points at the type and every other reference is as before. */
  lemma NullifyClears(col: map<Id, Option<Id>>, id: Id)
    ensures RefCount(Nullify(col, id), id) == 0
    ensures forall k | k in col && col[k] != Some(id) :: Nullify(col, id)[k] == col[k]
  {
  }

  /** A row nobody points at is left alone: nullifying changes no column. */
  lemma NullifyUnused(col: map<Id, Option<Id>>, id: Id)
    requires RefCount(col, id) == 0
    ensures Nullify(col, id) == col
  {
  }

  // ---------------------------------------------------------------- reorder

  /** The index of the first listed id that is not in the catalog, or the list's length. */
  function FirstMissing(types: map<Id, TypeRow>, ids: seq<Id>): (k: nat)
    ensures k <= |ids|
    ensures forall i | 0 <= i < k :: ids[i] in types
    ensures k < |ids| ==> ids[k] !in types
  {
    if ids == [] || ids[0] !in types then 0 else 1 + FirstMissing(types, ids[1..])
  }

  /**
   * The catalog after the first `n` steps of `each_with_index { find(id)
   * .update(position: index) }`: the row of `ids[i]` gets position `i`.
   */
  function Repositioned(types: map<Id, TypeRow>, ids: seq<Id>, n: nat): (r: map<Id, TypeRow>)
    requires n <= |ids|
    ensures r.Keys == types.Keys
    ensures forall o | o in r :: r[o] == types[o].(position := r[o].position)
  {
    if n == 0 then types
    else
      var m := Repositioned(types, ids, n - 1);
      if ids[n - 1] in m then m[ids[n - 1] := m[ids[n - 1]].(position := n - 1)] else m
  }

  /** A type that is not among the first `n` listed ids keeps its row. */
  lemma {:induction false} RepositionedUnlisted(types: map<Id, TypeRow>, ids: seq<Id>, n: nat, id: Id)
    requires n <= |ids| && id in types && id !in ids[..n]
    ensures Repositioned(types, ids, n)[id] == types[id]
  {
    if n > 0 {
      assert ids[..n - 1] == ids[..n][..n - 1];
      RepositionedUnlisted(types, ids, n - 1, id);
    }
  }

  /** A listed type ends at the index of its last occurrence among the first `n` ids. */
  lemma {:induction false} RepositionedLast(types: map<Id, TypeRow>, ids: seq<Id>, n: nat, j: nat)
    requires j < n <= |ids| && ids[j] in types
    requires forall k | j < k < n :: ids[k] != ids[j]
    ensures Repositioned(types, ids, n)[ids[j]].position == j
  {
    if n - 1 > j {
      RepositionedLast(types, ids, n - 1, j);
    }
  }

  /** With distinct ids that all exist, the type listed `i`-th gets position `i`. */
  lemma RepositionedDistinct(types: map<Id, TypeRow>, ids: seq<Id>)
    requires forall i | 0 <= i < |ids| :: ids[i] in types
    requires forall i, j | 0 <= i < j < |ids| :: ids[i] != ids[j]
    ensures forall i | 0 <= i < |ids| :: Repositioned(types, ids, |ids|)[ids[i]].position == i
  {
    forall i | 0 <= i < |ids|
      ensures Repositioned(types, ids, |ids|)[ids[i]].position == i
    {
      RepositionedLast(types, ids, |ids|, i);
    }
  }

  // ------------------------------------------------------------------ index

  /** `params[:system] || "cute"`: any given value, the empty string included, wins. */
  function SystemParam(p: Option<string>): (s: string)
    ensures p.Some? ==> s == p.value
    ensures p.None? ==> s == "cute"
  {
    if p.Some? then p.value else "cute"
  }

  /** The `new` form: a blank type of the requested system, by default "cute". */
  function NewType(p: Option<string>): (r: TypeRow)
    ensures r.system == Some(SystemParam(p)) && r.name.None? && r.code.None?
  {
    BlankType.(system := Some(SystemParam(p)))
  }

  /** A form opened without a system belongs to CUTE and passes the inclusion check. */
  lemma NewTypeDefault()
    ensures KnownSystem(NewType(None).system)
    ensures NewType(None).system == Some("cute")
  {
  }

  /** `ORDER BY name` ascending, NULL last. */
  predicate NameLe(x: Option<string>, y: Option<string>) {
    y.None? || (x.Some? && LexLe(x.value, y.value))
  }

  /** `order(:position, :name)`: by position, ties by name. */
  predicate RowLe(a: TypeRow, b: TypeRow) {
    a.position < b.position || (a.position == b.position && NameLe(a.name, b.name))
  }

  lemma RowLeTotal(a: TypeRow, b: TypeRow)
    ensures RowLe(a, b) || RowLe(b, a)
  {
    if a.name.Some? && b.name.Some? {
      LexTrichotomy(a.name.value, b.name.value);
    }
  }

  lemma RowLeTransitive(a: TypeRow, b: TypeRow, c: TypeRow)
    requires RowLe(a, b) && RowLe(b, c)
    ensures RowLe(a, c)
  {
    if a.position == b.position == c.position && a.name.Some? && b.name.Some? && c.name.Some? {
      var x, y, z := a.name.value, b.name.value, c.name.value;
      if x != y && y != z {
        LexTransitive(x, y, z);
      }
    }
  }

  /** Every listed id is a catalog row. */
  predicate AllIn(types: map<Id, TypeRow>, xs: seq<Id>) {
    forall i | 0 <= i < |xs| :: xs[i] in types
  }

  /** The listed rows come in `order(:position, :name)`. */
  predicate SortedAsc(types: map<Id, TypeRow>, xs: seq<Id>)
    requires AllIn(types, xs)
  {
    forall i, j | 0 <= i < j < |xs| :: RowLe(types[xs[i]], types[xs[j]])
  }

  /** `x` inserted before the first listed row that does not sort before it. */
  function InsertAsc(types: map<Id, TypeRow>, xs: seq<Id>, x: Id): (r: seq<Id>)
    requires x in types && AllIn(types, xs) && SortedAsc(types, xs)
    ensures multiset(r) == multiset(xs) + multiset{x}
    ensures AllIn(types, r) && SortedAsc(types, r)
  {
    if xs == [] || RowLe(types[x], types[xs[0]]) then
      forall j | 0 <= j < |xs|
        ensures RowLe(types[x], types[xs[j]])
      {
        if j > 0 { RowLeTransitive(types[x], types[xs[0]], types[xs[j]]); }
      }
      [x] + xs
    else
      RowLeTotal(types[x], types[xs[0]]);
      assert xs == [xs[0]] + xs[1..];
      var rest := InsertAsc(types, xs[1..], x);
      forall j | 0 <= j < |rest|
        ensures RowLe(types[xs[0]], types[rest[j]])
      {
        assert rest[j] in multiset(rest);
        if rest[j] != x {
          assert rest[j] in multiset(xs[1..]);
          var k :| 0 <= k < |xs[1..]| && xs[1..][k] == rest[j];
          assert xs[k + 1] == rest[j];
        }
      }
      ConsSortedAsc(types, xs[0], rest);
      [xs[0]] + rest
  }

  /** A sorted list stays sorted behind a row that sorts no later than any of it. */
  lemma ConsSortedAsc(types: map<Id, TypeRow>, h: Id, rest: seq<Id>)
    requires h in types && AllIn(types, rest) && SortedAsc(types, rest)
    requires forall j | 0 <= j < |rest| :: RowLe(types[h], types[rest[j]])
    ensures AllIn(types, [h] + rest) && SortedAsc(types, [h] + rest)
  {
    var r := [h] + rest;
    assert forall j | 0 <= j < |rest| :: r[j + 1] == rest[j];
    forall i, j | 0 <= i < j < |r|
      ensures RowLe(types[r[i]], types[r[j]])
    {
      assert r[j] == rest[j - 1];
      if i > 0 {
        assert r[i] == rest[i - 1];
      }
    }
  }

  /** The rows of one system, as `where(system: ...)` selects them. */
  function OfSystem(types: map<Id, TypeRow>, s: string): set<Id> {
    set id | id in types && types[id].system == Some(s)
  }

  /** How a destroy request ends. */
  datatype DestroyOutcome =
    | NotFound                 // `find` raises: 404
    | Deleted                  // notice "... удалён"
    | InUse(count: nat)        // alert naming the usage count

  /** How an update request ends. */
  datatype UpdateOutcome =
    | Absent                   // `find` raises: 404
    | Saved                    // notice "... обновлён"
    | Refused                  // the form again: 422

  /** How a reorder request ends. */
  datatype ReorderOutcome =
    | Done                     // head :ok
    | Missing(at: nat)         // `find` raised on the id at this index: 404
    | NoList                   // no `*_type_ids` parameter: `nil.each_with_index` raises

  /** A type catalog together with the references into it. */
  class TypeCatalog {
    var types: map<Id, TypeRow>
    var refs: Referrers

    /** Every stored type passed its validations when it was saved. */
    ghost predicate Valid()
      reads this
    {
      forall id | id in types :: TypeValid(types, id, types[id])
    }

    constructor(refs0: Referrers)
      ensures types == map[] && refs == refs0 && Valid()
    {
      types := map[];
      refs := refs0;
    }

    /** `index`: one system's types (by default CUTE's), by position then name. */
    method Index(system: Option<string>) returns (list: seq<Id>)
      ensures forall id :: id in list <==> id in OfSystem(types, SystemParam(system))
      ensures |list| == |OfSystem(types, SystemParam(system))|
      ensures AllIn(types, list) && SortedAsc(types, list)
    {
      var s := OfSystem(types, SystemParam(system));
      var todo := s;
      list := [];
      while todo != {}
        invariant todo <= s
        invariant forall x :: x in multiset(list) <==> x in s - todo
        invariant forall x | x in multiset(list) :: multiset(list)[x] == 1
        invariant AllIn(types, list) && SortedAsc(types, list)
        decreases |todo|
      {
        var x :| x in todo;
        list := InsertAsc(types, list, x);
        todo := todo - {x};
      }
      forall x
        ensures x in list <==> x in s
      {
        assert x in list <==> x in multiset(list);
      }
      DistinctCount(list, s);
    }

    /** `create`: fill in the code, validate, and insert under a fresh id. */
    method Create(p: TypeParams, slug: string) returns (id: Option<Id>)
      requires Valid()
      modifies this
      ensures Valid() && refs == old(refs)
      ensures var t := Prepare(AssignType(BlankType, p), slug);
        var k := FreshKey(old(types).Keys);
        if TypeValid(old(types), k, t) then id == Some(k) && types == old(types)[k := t]
        else id.None? && types == old(types)
    {
      var t := Prepare(AssignType(BlankType, p), slug);
      var k := FreshKey(types.Keys);
      if TypeValid(types, k, t) {
        types := types[k := t];
        id := Some(k);
      } else {
        id := None;
      }
    }

    /**
     * `update`: find the row (404 when there is none), assign the submitted
     * attributes over it, fill in the code, validate.
     */
    method Update(id: Id, p: TypeParams, slug: string) returns (r: UpdateOutcome)
      requires Valid()
      modifies this
      ensures Valid() && refs == old(refs)
      ensures id !in old(types) ==> r == Absent && types == old(types)
      ensures id in old(types) ==>
        var t := Prepare(AssignType(old(types)[id], p), slug);
        (r == Saved <==> TypeValid(old(types), id, t))
        && r != Absent
        && types == (if r == Saved then old(types)[id := t] else old(types))
    {
      if id !in types {
        return Absent;
      }
      var t := Prepare(AssignType(types[id], p), slug);
      if TypeValid(types, id, t) {
        types := types[id := t];
        r := Saved;
      } else {
        r := Refused;
      }
    }

    /**
     * `destroy`: a type in use by its own system is kept and the alert names
     * the count; otherwise it is deleted and every reference to it, from any
     * system, is nullified.
     */
    method Destroy(id: Id) returns (r: DestroyOutcome)
      requires Valid()
      modifies this
      ensures Valid()
      ensures id !in old(types) ==> r == NotFound && types == old(types) && refs == old(refs)
      ensures id in old(types) && !CanDestroy(old(types)[id], id, old(refs)) ==>
        r == InUse(UsageCount(old(types)[id], id, old(refs))) && types == old(types) && refs == old(refs)
      ensures id in old(types) && CanDestroy(old(types)[id], id, old(refs)) ==>
        r == Deleted && types == old(types) - {id} && refs == NullifyAll(old(refs), id)
    {
      if id !in types {
        return NotFound;
      }
      var t := types[id];
      if !CanDestroy(t, id, refs) {
        return InUse(UsageCount(t, id, refs));
      }
      types := types - {id};
      refs := NullifyAll(refs, id);
      r := Deleted;
    }

    /**
     * `reorder`: give the `i`-th listed type position `i`, one `update` at a
     * time; an unknown id stops the loop with the earlier updates kept.
     */
    method Reorder(ids: Option<seq<Id>>) returns (r: ReorderOutcome)
      requires Valid()
      modifies this
      ensures Valid() && refs == old(refs)
      ensures ids.None? ==> r == NoList && types == old(types)
      ensures ids.Some? ==>
        var k := FirstMissing(old(types), ids.value);
        types == Repositioned(old(types), ids.value, k)
        && r == (if k == |ids.value| then Done else Missing(k))
    {
      if ids.None? {
        return NoList;
      }
      var done: nat;
      types, done := ApplyPositions(types, ids.value);
      PositionsOnly(old(types), types);
      r := if done == |ids.value| then Done else Missing(done);
    }
  }

  /**
   * The `each_with_index` loop of `reorder` over a copy of the catalog:
   * `done` steps succeed, and the step after them, if any, meets an unknown id.
   */
  method ApplyPositions(types: map<Id, TypeRow>, ids: seq<Id>) returns (types': map<Id, TypeRow>, done: nat)
    ensures done == FirstMissing(types, ids)
    ensures types' == Repositioned(types, ids, done)
  {
    ghost var k := FirstMissing(types, ids);
    types' := types;
    done := 0;
    while done < |ids|
      invariant done <= |ids| && done <= k
      invariant types' == Repositioned(types, ids, done)
    {
      if ids[done] !in types' {
        assert k == done;
        return;
      }
      assert done < k;
      types' := types'[ids[done] := types'[ids[done]].(position := done)];
      done := done + 1;
    }
    assert k == |ids|;
  }

  /** A list holding each member of a set exactly once is as long as the set. */
  lemma {:induction false} DistinctCount(xs: seq<Id>, s: set<Id>)
    requires forall x :: x in multiset(xs) <==> x in s
    requires forall x | x in multiset(xs) :: multiset(xs)[x] == 1
    ensures |xs| == |s|
  {
    assert multiset(xs) == multiset(s) by {
      forall x
        ensures multiset(xs)[x] == multiset(s)[x]
      {
        if x in s {
          assert multiset(s)[x] == 1;
        }
      }
    }
    assert |xs| == |multiset(xs)| == |multiset(s)| == |s|;
  }
}

=== FILE: dashboard.dfy ===
/**
 * The dashboard page: equipment and installation totals over the three
 * systems, the warehouse counts, the terminal letters that label the
 * per-terminal groups, and the five most recently added pieces of equipment.
 */
module Dashboard {
  import opened Text
  import opened Enums
  import opened Records
  import opened Ordering

  // --------------------------------------------------------- terminal letter

  /** A terminal value as it reaches `terminal_letter`: nil, an integer code or a key string. */
  datatype TerminalValue = NilValue | IntValue(code: int) | StrValue(text: string)

  /**
   * `terminal_letter` (and `terminal_key_to_letter`): "?" for a blank value;
   * for an integer, that element of A..F with Ruby's negative indices
   * counting from the end and "?" outside the list; for a string, the
   * upper-cased text after its last "_". None: `nil.upcase` raises, which
   * happens for a string made of underscores only.
   */
  function TerminalLetter(v: TerminalValue): (r: Option<string>)
    ensures v.NilValue? ==> r == Some("?")
    ensures v.IntValue? && !(-6 <= v.code < 6) ==> r == Some("?")
    ensures v.StrValue? && Blank(v.text) ==> r == Some("?")
    ensures r.None? <==> v.StrValue? && !Blank(v.text) && forall i | 0 <= i < |v.text| :: v.text[i] == '_'
  {
    match v
    case NilValue => Some("?")
    case IntValue(k) =>
      if 0 <= k < 6 then Some(TerminalLetters[k])
      else if -6 <= k < 0 then Some(TerminalLetters[k + 6])
      else Some("?")
    case StrValue(s) =>
      if Blank(s) then Some("?")
      else
        match SplitLast(s, '_')
        case None => None
        case Some(f) => Some(Upper(f))
  }

  /** The six letters differ from each other and from "?". */
  lemma LettersDistinct()
    ensures forall i, j | 0 <= i < j < 6 :: TerminalLetters[i] != TerminalLetters[j]
    ensures forall i | 0 <= i < 6 :: TerminalLetters[i] != "?"
  {
  }

  /** Code `k` and code `k - 6` name the same terminal. */
  lemma NegativeCodeWraps(k: int)
    requires 0 <= k < 6
    ensures TerminalLetter(IntValue(k - 6)) == TerminalLetter(IntValue(k)) == Some(TerminalLetters[k])
  {
  }

  /**
   * The enum key and its integer code get the same letter, and it is the
   * installation's `terminal_name`.
   */
  lemma KeyAndCodeAgree(inst: Installation)
    requires inst.terminal.Some? && 0 <= inst.terminal.value < 6
    ensures var k := inst.terminal.value;
      && TerminalLetter(StrValue(TerminalKeys[k])) == TerminalLetter(IntValue(k))
      && TerminalLetter(IntValue(k)) == TerminalName(inst)
  {
    TerminalNameIsLetter(inst);
    KeyCode(inst.terminal.value);
  }

  /** The `k`-th enum key gets the `k`-th letter. */
  lemma KeyCode(k: int)
    requires 0 <= k < 6
    ensures TerminalLetter(StrValue(TerminalKeys[k])) == Some(TerminalLetters[k])
  {
    if k == 0 { KeyLetterValue(TerminalKeys[0], 'a', 'A'); }
    else if k == 1 { KeyLetterValue(TerminalKeys[1], 'b', 'B'); }
    else if k == 2 { KeyLetterValue(TerminalKeys[2], 'c', 'C'); }
    else if k == 3 { KeyLetterValue(TerminalKeys[3], 'd', 'D'); }
    else if k == 4 { KeyLetterValue(TerminalKeys[4], 'e', 'E'); }
    else { KeyLetterValue(TerminalKeys[5], 'f', 'F'); }
  }

  /** The key `terminal_<c>` gets the letter `c` in upper case. */
  lemma KeyLetterValue(key: string, c: char, upper: char)
    requires key == "terminal_" + [c] && 'a' <= c <= 'z' && upper as int == c as int - 32
    ensures TerminalLetter(StrValue(key)) == Some([upper])
  {
    KeyLetter(key, c, upper);
    assert !IsUnicodeSpace(key[0]);
  }

  /**
   * A terminal a valid installation can hold (none, or codes 0..5) keeps
   * its own label: two such values with the same letter are the same, so
   * relabelling the per-terminal counts merges no two groups.
   */
  lemma LetterInjective(a: Option<int>, b: Option<int>)
    requires a.None? || 0 <= a.value < 6
    requires b.None? || 0 <= b.value < 6
    requires TerminalLetter(if a.None? then NilValue else IntValue(a.value))
          == TerminalLetter(if b.None? then NilValue else IntValue(b.value))
    ensures a == b
  {
    LettersDistinct();
  }

  // ----------------------------------------------------------------- totals

  /** A record of one system's table, tagged with its system. */
  function Tagged(s: System, ids: set<Id>): set<(System, Id)> {
    set id | id in ids :: (s, id)
  }

  lemma {:induction false} TaggedCard(s: System, ids: set<Id>)
    ensures |Tagged(s, ids)| == |ids|
    decreases |ids|
  {
    if ids != {} {
      var k :| k in ids;
      TaggedCard(s, ids - {k});
      assert Tagged(s, ids) == Tagged(s, ids - {k}) + {(s, k)};
    }
  }

  /** Three disjoint sets hold as many elements as their sizes add up to. */
  lemma UnionOfThree<T>(a: set<T>, b: set<T>, c: set<T>)
    requires a * b == {} && a * c == {} && b * c == {}
    ensures |a + b + c| == |a| + |b| + |c|
  {
    assert (a + b) * c == {};
  }

  /** `@total_equipment`: the three systems' equipment counts added up. */
  function TotalEquipment(cute: Table, fids: Table, zamar: Table): nat {
    |cute.equipment| + |fids.equipment| + |zamar.equipment|
  }

  /** `@total_installations_count`: the three systems' installation counts added up. */
  function TotalInstallations(cute: Table, fids: Table, zamar: Table): nat {
    |cute.installations| + |fids.installations| + |zamar.installations|
  }

  /** The total counts every piece of equipment of every system exactly once. */
  lemma TotalEquipmentCountsAll(cute: Table, fids: Table, zamar: Table)
    ensures TotalEquipment(cute, fids, zamar)
         == |Tagged(Cute, cute.equipment.Keys) + Tagged(Fids, fids.equipment.Keys) + Tagged(Zamar, zamar.equipment.Keys)|
  {
    TaggedCard(Cute, cute.equipment.Keys);
    TaggedCard(Fids, fids.equipment.Keys);
    TaggedCard(Zamar, zamar.equipment.Keys);
    UnionOfThree(Tagged(Cute, cute.equipment.Keys), Tagged(Fids, fids.equipment.Keys), Tagged(Zamar, zamar.equipment.Keys));
  }

  /** The total counts every installation of every system exactly once. */
  lemma TotalInstallationsCountsAll(cute: Table, fids: Table, zamar: Table)
    ensures TotalInstallations(cute, fids, zamar)
         == |Tagged(Cute, cute.installations.Keys) + Tagged(Fids, fids.installations.Keys) + Tagged(Zamar, zamar.installations.Keys)|
  {
    TaggedCard(Cute, cute.installations.Keys);
    TaggedCard(Fids, fids.installations.Keys);
    TaggedCard(Zamar, zamar.installations.Keys);
    UnionOfThree(Tagged(Cute, cute.installations.Keys), Tagged(Fids, fids.installations.Keys), Tagged(Zamar, zamar.installations.Keys));
  }

  // -------------------------------------------------------------- warehouse

  /** The equipment of one system with no installation (`where(..._installation_id: nil)`). */
  function InWarehouse(t: Table): set<Id> {
    set id | id in t.equipment && t.equipment[id].installation.None?
  }

  /** The equipment of one system that names an installation. */
  function Placed(t: Table): set<Id> {
    set id | id in t.equipment && t.equipment[id].installation.Some?
  }

  /** Every piece of equipment is either in the warehouse or placed, never both. */
  lemma WarehousePartition(t: Table)
    ensures |InWarehouse(t)| + |Placed(t)| == |t.equipment|
  {
    assert InWarehouse(t) + Placed(t) == t.equipment.Keys;
    assert InWarehouse(t) * Placed(t) == {};
  }

  /** `@total_warehouse`: the three warehouse counts added up. */
  function TotalWarehouse(cute: Table, fids: Table, zamar: Table): nat {
    |InWarehouse(cute)| + |InWarehouse(fids)| + |InWarehouse(zamar)|
  }

  /** No more equipment is in the warehouse than exists, and equality means nothing is placed. */
  lemma WarehouseBound(cute: Table, fids: Table, zamar: Table)
    ensures TotalWarehouse(cute, fids, zamar) <= TotalEquipment(cute, fids, zamar)
    ensures TotalWarehouse(cute, fids, zamar) == TotalEquipment(cute, fids, zamar) <==>
      Placed(cute) == {} && Placed(fids) == {} && Placed(zamar) == {}
  {
    WarehousePartition(cute);
    WarehousePartition(fids);
    WarehousePartition(zamar);
  }

  // ------------------------------------------------------------ recent five

  /** One line of "recently added": the system, the equipment and its `created_at`. */
  datatype Recent = Recent(system: System, id: Id, createdAt: Time)

  function CreatedAt(e: Recent): int {
    e.createdAt
  }

  /** All equipment of one system, as recent-list lines. */
  function Lines(s: System, t: Table): set<Recent> {
    set id | id in t.equipment :: Recent(s, id, t.equipment[id].createdAt)
  }

  /** All equipment of the three systems. */
  function AllLines(cute: Table, fids: Table, zamar: Table): set<Recent> {
    Lines(Cute, cute) + Lines(Fids, fids) + Lines(Zamar, zamar)
  }

  /**
   * `list` is the `n` newest of `lines`, as far as it goes: everything it
   * leaves out is no newer than anything it holds, and it holds `n` lines
   * whenever it leaves anything out.
   */
  predicate Newest(list: seq<Recent>, lines: set<Recent>, n: nat) {
    && |list| <= n
    && Distinct(list)
    && (forall x | x in list :: x in lines)
    && (forall e | e in lines && e !in list ::
          |list| == n && forall i | 0 <= i < |list| :: CreatedAt(e) <= CreatedAt(list[i]))
  }

  /** The first `n` lines of a list sorted newest first. */
  lemma TakeNewest(ys: seq<Recent>, lines: set<Recent>, n: nat)
    requires SortedDesc(ys, CreatedAt) && Distinct(ys)
    requires forall x :: x in ys <==> x in lines
    ensures Newest(ys[..if |ys| < n then |ys| else n], lines, n)
  {
    var m := if |ys| < n then |ys| else n;
    var top := ys[..m];
    DistinctPrefix(ys, m);
    assert forall x | x in top :: x in ys;
    forall e | e in lines && e !in top
      ensures |top| == n && forall i | 0 <= i < |top| :: CreatedAt(e) <= CreatedAt(top[i])
    {
      var p :| 0 <= p < |ys| && ys[p] == e;
      assert p >= m;
    }
  }

  /** A prefix of a sequence without repeats has none either. */
  lemma DistinctPrefix<T>(s: seq<T>, m: nat)
    requires Distinct(s) && m <= |s|
    ensures Distinct(s[..m])
  {
    assert s == s[..m] + s[m..];
    assert multiset(s) == multiset(s[..m]) + multiset(s[m..]);
    forall x | x in multiset(s[..m])
      ensures multiset(s[..m])[x] == 1
    {
      assert multiset(s)[x] == 1;
    }
  }

  /** `X.order(created_at: :desc).limit(5)` for one system. */
  method NewestOf(s: System, t: Table) returns (top: seq<Recent>)
    ensures Newest(top, Lines(s, t), 5)
  {
    var lines := Gather(Lines(s, t));
    var ys := SortDesc(lines, CreatedAt);
    assert forall x :: x in ys <==> x in multiset(ys);
    assert forall x :: x in lines <==> x in multiset(lines);
    TakeNewest(ys, Lines(s, t), 5);
    top := ys[..if |ys| < 5 then |ys| else 5];
  }

  /**
   * `@recent_equipments`: the three lists of five merged, sorted by
   * `created_at` newest first (`sort_by` then `reverse`) and cut to five.
   * The result is the five newest pieces of equipment of all systems.
   */
  method RecentEquipment(cute: Table, fids: Table, zamar: Table) returns (r: seq<Recent>)
    ensures SortedDesc(r, CreatedAt)
    ensures Newest(r, AllLines(cute, fids, zamar), 5)
  {
    var c := NewestOf(Cute, cute);
    var f := NewestOf(Fids, fids);
    var z := NewestOf(Zamar, zamar);
    var ys := SortDesc(c + f + z, CreatedAt);
    r := ys[..if |ys| < 5 then |ys| else 5];
    MergeIsNewest(c, f, z, ys, cute, fids, zamar);
  }

  /** Cutting the sorted merge of the three lists of five gives the five newest of all. */
  lemma MergeIsNewest(c: seq<Recent>, f: seq<Recent>, z: seq<Recent>, ys: seq<Recent>, cute: Table, fids: Table, zamar: Table)
    requires Newest(c, Lines(Cute, cute), 5)
    requires Newest(f, Lines(Fids, fids), 5)
    requires Newest(z, Lines(Zamar, zamar), 5)
    requires multiset(ys) == multiset(c + f + z) && SortedDesc(ys, CreatedAt)
    ensures SortedDesc(ys[..if |ys| < 5 then |ys| else 5], CreatedAt)
    ensures Newest(ys[..if |ys| < 5 then |ys| else 5], AllLines(cute, fids, zamar), 5)
  {
    var merged := c + f + z;
    var r := ys[..if |ys| < 5 then |ys| else 5];
    var all := AllLines(cute, fids, zamar);
    MergedDistinct(c, f, z, cute, fids, zamar);
    assert forall x :: x in ys <==> x in multiset(ys);
    assert forall x :: x in merged <==> x in multiset(merged);
    var inMerged := set x | x in merged;
    TakeNewest(ys, inMerged, 5);
    Prefix(ys, |r|);
    forall e | e in all && e !in r
      ensures |r| == 5 && forall i | 0 <= i < |r| :: CreatedAt(e) <= CreatedAt(r[i])
    {
      MergeLeavesOut(c, f, z, ys, cute, fids, zamar, e);
    }
    NewestWithin(r, inMerged, all, 5);
  }

  /** The newest of some lines are the newest of more lines when they outrank the extra ones too. */
  lemma NewestWithin(list: seq<Recent>, lines: set<Recent>, more: set<Recent>, n: nat)
    requires Newest(list, lines, n) && lines <= more
    requires forall e | e in more && e !in list ::
      |list| == n && forall i | 0 <= i < |list| :: CreatedAt(e) <= CreatedAt(list[i])
    ensures Newest(list, more, n)
  {
  }

  /** A line the cut merge leaves out is no newer than any line it keeps. */
  lemma MergeLeavesOut(c: seq<Recent>, f: seq<Recent>, z: seq<Recent>, ys: seq<Recent>, cute: Table, fids: Table, zamar: Table, e: Recent)
    requires Newest(c, Lines(Cute, cute), 5)
    requires Newest(f, Lines(Fids, fids), 5)
    requires Newest(z, Lines(Zamar, zamar), 5)
    requires multiset(ys) == multiset(c + f + z) && SortedDesc(ys, CreatedAt)
    requires Newest(ys[..if |ys| < 5 then |ys| else 5], set x | x in c + f + z, 5)
    requires e in AllLines(cute, fids, zamar) && e !in ys[..if |ys| < 5 then |ys| else 5]
    ensures |ys| >= 5 && forall i | 0 <= i < 5 :: CreatedAt(e) <= CreatedAt(ys[i])
  {
    var merged := c + f + z;
    assert forall x :: x in ys <==> x in multiset(ys);
    assert forall x :: x in merged <==> x in multiset(merged);
    if e in merged {
      assert e in (set x | x in merged);
    } else if e in Lines(Cute, cute) {
      Outranked(c, ys, e);
    } else if e in Lines(Fids, fids) {
      Outranked(f, ys, e);
    } else {
      Outranked(z, ys, e);
    }
  }

  /** A sorted list's prefix is sorted. */
  lemma Prefix(ys: seq<Recent>, m: nat)
    requires m <= |ys| && SortedDesc(ys, CreatedAt)
    ensures SortedDesc(ys[..m], CreatedAt)
  {
  }

  /** The lines of different systems never coincide, so the merged list has no repeats. */
  lemma MergedDistinct(c: seq<Recent>, f: seq<Recent>, z: seq<Recent>, cute: Table, fids: Table, zamar: Table)
    requires Newest(c, Lines(Cute, cute), 5)
    requires Newest(f, Lines(Fids, fids), 5)
    requires Newest(z, Lines(Zamar, zamar), 5)
    ensures Distinct(c + f + z)
    ensures forall x | x in c + f + z :: x in AllLines(cute, fids, zamar)
  {
    forall x | x in multiset(c + f + z)
      ensures multiset(c + f + z)[x] == 1
    {
      assert multiset(c + f + z) == multiset(c) + multiset(f) + multiset(z);
      if x.system == Cute {
        assert x !in f && x !in z;
      } else if x.system == Fids {
        assert x !in c && x !in z;
      } else {
        assert x !in c && x !in f;
      }
    }
  }

  /**
   * A line left out of its own system's five is no newer than any of the
   * first five of the merged list: those five cannot all be newer than the
   * fifth merged line without crowding into four places.
   */
  lemma Outranked(top: seq<Recent>, ys: seq<Recent>, e: Recent)
    requires |top| == 5 && Distinct(top)
    requires forall i | 0 <= i < 5 :: CreatedAt(e) <= CreatedAt(top[i])
    requires forall x | x in top :: x in ys
    requires SortedDesc(ys, CreatedAt)
    ensures |ys| >= 5
    ensures forall i | 0 <= i < 5 :: CreatedAt(e) <= CreatedAt(ys[i])
  {
    var tops := set x | x in top;
    DistinctCard(top);
    var ys' := set x | x in ys;
    SetOfSeqCard(ys);
    assert tops <= ys';
    SubsetCard(tops, ys');
    if CreatedAt(ys[4]) < CreatedAt(e) {
      var front := set x | x in ys[..4];
      forall x | x in tops
        ensures x in front
      {
        var q :| 0 <= q < |ys| && ys[q] == x;
        if q >= 4 {
          assert false;
        }
        assert ys[..4][q] == x;
      }
      SetOfSeqCard(ys[..4]);
      SubsetCard(tops, front);
      assert false;
    }
  }

  /** A sequence has no more distinct elements than positions. */
  lemma {:induction false} SetOfSeqCard<T>(s: seq<T>)
    ensures |set x | x in s| <= |s|
  {
    if s != [] {
      var s' := s[..|s| - 1];
      SetOfSeqCard(s');
      assert (set x | x in s) == (set x | x in s') + {s[|s| - 1]};
    }
  }

  /** A sequence without repeats has as many distinct elements as positions. */
  lemma {:induction false} DistinctCard<T>(s: seq<T>)
    requires Distinct(s)
    ensures |set x | x in s| == |s|
  {
    if s != [] {
      var s' := s[..|s| - 1];
      var last := s[|s| - 1];
      assert s == s' + [last];
      assert multiset(s) == multiset(s') + multiset{last};
      DistinctPrefix(s, |s| - 1);
      DistinctCard(s');
      assert multiset(s)[last] == 1;
      assert last !in s';
      assert (set x | x in s) == (set x | x in s') + {last};
    }
  }

  lemma SubsetCard<T>(a: set<T>, b: set<T>)
    requires a <= b
    ensures |a| <= |b|
  {
    assert b == a + (b - a);
  }
}

=== FILE: enums.dfy ===
/**
 * The enumerations the three equipment systems share: the equipment status
 * (stored as an integer), the system itself, the per-system equipment type
 * enums and the terminal enum of the installations.
 */
module Enums {
  import opened Text

  /** The `status` enum of every equipment table; the default is `Active`. */
  datatype Status = Active | Maintenance | WaitingRepair | ReadyToDispatch | Decommissioned | Transferred | WithNote

  const DefaultStatus: Status := Active

  /** The integer stored in the `status` column. */
  function StatusCode(s: Status): (n: nat)
    ensures n <= 6
  {
    match s
    case Active => 0
    case Maintenance => 1
    case WaitingRepair => 2
    case ReadyToDispatch => 3
    case Decommissioned => 4
    case Transferred => 5
    case WithNote => 6
  }

  /** Reading the column back; codes outside the enum have no status. */
  function StatusOfCode(n: int): (r: Option<Status>)
    ensures r.Some? <==> 0 <= n <= 6
    ensures r.Some? ==> StatusCode(r.value) == n
  {
    if n == 0 then Some(Active)
    else if n == 1 then Some(Maintenance)
    else if n == 2 then Some(WaitingRepair)
    else if n == 3 then Some(ReadyToDispatch)
    else if n == 4 then Some(Decommissioned)
    else if n == 5 then Some(Transferred)
    else if n == 6 then Some(WithNote)
    else None
  }

  /** The enum key of each status, as the model spells it. */
  function StatusKey(s: Status): string {
    match s
    case Active => "active"
    case Maintenance => "maintenance"
    case WaitingRepair => "waiting_repair"
    case ReadyToDispatch => "ready_to_dispatch"
    case Decommissioned => "decommissioned"
    case Transferred => "transferred"
    case WithNote => "with_note"
  }

  /** The status an enum key names, if any: what the enum setter accepts besides a blank value. */
  function StatusNamed(key: string): (r: Option<Status>)
    ensures r.Some? ==> StatusKey(r.value) == key
    ensures forall s: Status :: StatusKey(s) == key ==> r == Some(s)
  {
    match key
    case "active" => Some(Active)
    case "maintenance" => Some(Maintenance)
    case "waiting_repair" => Some(WaitingRepair)
    case "ready_to_dispatch" => Some(ReadyToDispatch)
    case "decommissioned" => Some(Decommissioned)
    case "transferred" => Some(Transferred)
    case "with_note" => Some(WithNote)
    case _ => None
  }

  /** Storing a status and reading it back gives the same status. */
  lemma StatusCodeRoundTrip(s: Status)
    ensures StatusOfCode(StatusCode(s)) == Some(s)
  {
  }

  /** The three parallel equipment systems. */
  datatype System = Cute | Fids | Zamar

  /** The class name stored in `RepairBatchItem#equipment_type`. */
  function ClassName(s: System): string {
    match s
    case Cute => "CuteEquipment"
    case Fids => "FidsEquipment"
    case Zamar => "ZamarEquipment"
  }

  /** `constantize` on a stored class name: only the three equipment classes resolve. */
  function SystemOfClassName(name: string): (r: Option<System>)
    ensures r.Some? ==> ClassName(r.value) == name
    ensures forall s: System :: ClassName(s) == name ==> r == Some(s)
  {
    if name == "CuteEquipment" then Some(Cute)
    else if name == "FidsEquipment" then Some(Fids)
    else if name == "ZamarEquipment" then Some(Zamar)
    else None
  }

  /**
   * The label a repair item carries, `CUTE`, `FIDS` or `Zamar`: what
   * `gsub("Equipment", "").upcase.gsub("ZAMAR", "Zamar")` makes of the class name.
   */
  function SystemLabel(s: System): string {
    match s
    case Cute => "CUTE"
    case Fids => "FIDS"
    case Zamar => "Zamar"
  }

  /** The value of the `system` column of the type catalogs and of the `system` filter. */
  function SystemKey(s: System): string {
    match s
    case Cute => "cute"
    case Fids => "fids"
    case Zamar => "zamar"
  }

  function SystemOfKey(k: string): (r: Option<System>)
    ensures r.Some? ==> SystemKey(r.value) == k
    ensures forall s: System :: SystemKey(s) == k ==> r == Some(s)
  {
    if k == "cute" then Some(Cute)
    else if k == "fids" then Some(Fids)
    else if k == "zamar" then Some(Zamar)
    else None
  }

  /** The `equipment_type` enum of CUTE equipment, as (key, stored integer) pairs. */
  const CuteTypes: seq<(string, nat)> := [
    ("boarding_pass_printer", 0), ("baggage_tag_printer", 1), ("keyboard", 2),
    ("scanner", 3), ("gate_reader", 4), ("flight_document_printer", 5),
    ("monitor", 6), ("computer", 7), ("other", 99)]

  /** The `equipment_type` enum of ZAMAR equipment. */
  const ZamarTypes: seq<(string, nat)> := [
    ("dsm", 0), ("dba", 1), ("sbdo", 2), ("gates", 3), ("other", 99)]

  function EnumKeys(e: seq<(string, nat)>): set<string> {
    set i | 0 <= i < |e| :: e[i].0
  }

  /** The integer an enum key is stored as. */
  function EnumCode(e: seq<(string, nat)>, key: string): (r: Option<nat>)
    ensures r.Some? <==> key in EnumKeys(e)
    ensures r.Some? ==> exists i | 0 <= i < |e| :: e[i] == (key, r.value)
  {
    if e == [] then None
    else if e[0].0 == key then Some(e[0].1)
    else
      var r := EnumCode(e[1..], key);
      assert EnumKeys(e) == {e[0].0} + EnumKeys(e[1..]) by {
        assert forall i | 1 <= i < |e| :: e[i] == e[1..][i - 1];
      }
      assert r.Some? ==> e[1..][0..|e| - 1] == e[1..];
      r
  }

  /** Keys and stored integers of an enum are both pairwise distinct. */
  predicate EnumWellFormed(e: seq<(string, nat)>) {
    forall i, j | 0 <= i < j < |e| :: e[i].0 != e[j].0 && e[i].1 != e[j].1
  }

  lemma TypeEnumsWellFormed()
    ensures EnumWellFormed(CuteTypes) && EnumWellFormed(ZamarTypes)
  {
  }

  /** The terminal enum of FIDS and ZAMAR installations: `terminal_a` .. `terminal_f` = 0 .. 5. */
  const TerminalKeys: seq<string> :=
    ["terminal_a", "terminal_b", "terminal_c", "terminal_d", "terminal_e", "terminal_f"]

  /** The six terminal letters, in enum order. */
  const TerminalLetters: seq<string> := ["A", "B", "C", "D", "E", "F"]
}

=== FILE: equipment_actions.dfy ===
/**
 * The equipment controller actions around the binding engine: creating and
 * updating a row with its provenance stamps, the terminal and warehouse
 * filters of the list, and the paginated change history.
 */
module EquipmentActions {
  import opened Text
  import opened Enums
  import opened Records

  /**
   * The permitted form parameters. The outer `Option` says whether the field
   * was submitted at all; the inner value is what was submitted (nil for an
   * empty field). The status is submitted as text and cast by the enum.
   */
  datatype EquipmentParams = EquipmentParams(
    etype: Option<Option<string>>,
    model: Option<Option<string>>,
    serial: Option<Option<string>>,
    inventory: Option<Option<string>>,
    status: Option<string>,
    note: Option<Option<string>>,
    installation: Option<Option<Id>>)

  /**
   * What the `status` enum setter makes of the submitted text: an enum key
   * names its status, a blank value casts to nil, and anything else raises
   * `ArgumentError`.
   */
  datatype StatusCast = Unsubmitted | Named(status: Status) | Nil | Raises

  function CastStatus(submitted: Option<string>): (r: StatusCast)
    ensures r.Unsubmitted? <==> submitted.None?
    ensures r.Named? <==> submitted.Some? && StatusNamed(submitted.value).Some?
    ensures r.Named? ==> StatusKey(r.status) == submitted.value
    ensures r.Nil? <==> submitted.Some? && Blank(submitted.value)
  {
    if submitted.None? then Unsubmitted
    else if StatusNamed(submitted.value).Some? then
      var s := StatusNamed(submitted.value).value;
      assert submitted.value[0] == StatusKey(s)[0] && 'a' <= StatusKey(s)[0] <= 'z';
      Named(s)
    else if Blank(submitted.value) then Nil
    else Raises
  }

  /** The submitted status leaves a status in the row: it was not submitted, or it is an enum key. */
  predicate StatusAssignable(submitted: Option<string>) {
    CastStatus(submitted).Unsubmitted? || CastStatus(submitted).Named?
  }

  /**
   * Mass assignment: every submitted field replaces the current value, the
   * rest stay. A status that casts to nil or raises is handled by the
   * actions, which never store it.
   */
  function Assign(e: Equipment, prm: EquipmentParams): Equipment {
    e.(etype := Pick(prm.etype, e.etype),
       model := Pick(prm.model, e.model),
       serial := Pick(prm.serial, e.serial),
       inventory := Pick(prm.inventory, e.inventory),
       status := if CastStatus(prm.status).Named? then CastStatus(prm.status).status else e.status,
       note := Pick(prm.note, e.note),
       installation := Pick(prm.installation, e.installation))
  }

  /** A new row before assignment: every column nil, `status` at its default. */
  function NewRow(now: Time): Equipment {
    Equipment(None, None, None, None, None, None, DefaultStatus, None, None, None, None, now)
  }

  /**
   * `create`: build from the parameters, make the acting user both owner and
   * last editor, and save under the next free id. A status outside the enum
   * raises while the row is built; a blank one passes the validations, which
   * do not look at it, and then fails the NOT NULL `status` column on insert.
   */
  function Create(p: Policy, t: Table, prm: EquipmentParams, actor: UserId, now: Time): (r: (Table, Reply, Id))
    ensures r.2 !in t.equipment
    ensures r.1 != Ok ==> r.0 == t
    ensures r.1 == Ok ==> StatusAssignable(prm.status)
    ensures CastStatus(prm.status).Raises? ==> r.1 == ServerError
    ensures CastStatus(prm.status).Nil? ==> r.1 == ServerError || r.1 == Invalid
    ensures r.1 == Ok ==>
      && r.0.installations == t.installations
      && r.0.equipment.Keys == t.equipment.Keys + {r.2}
      && (forall o | o in t.equipment :: r.0.equipment[o] == t.equipment[o])
      && var e := r.0.equipment[r.2];
      && e.owner == Some(actor) && e.lastChangedBy == Some(actor)
      && e.lastActionDate == Some(now) && e.createdAt == now
      && Some(e.status) == (if prm.status.Some? then StatusNamed(prm.status.value) else Some(Active))
      && e.etype == Tidy(Pick(prm.etype, None)) && e.model == Tidy(Pick(prm.model, None))
      && e.serial == Tidy(Pick(prm.serial, None)) && e.inventory == Tidy(Pick(prm.inventory, None))
      && e.note == Tidy(Pick(prm.note, None)) && e.installation == Pick(prm.installation, None)
  {
    var id := FreshKey(t.equipment.Keys);
    var e := Assign(NewRow(now), prm).(owner := Some(actor), lastChangedBy := Some(actor));
    var (t', reply) := Save(p, t, id, e, now);
    match CastStatus(prm.status)
    case Raises => (t, ServerError, id)
    case Nil => (t, if reply == Ok then ServerError else reply, id)
    case _ => (t', reply, id)
  }

  /**
   * `update`: `find` (404), make the acting user the last editor, assign the
   * parameters and save. The submitted status fails as in `create`: a nil
   * status is a change, so the write reaches the NOT NULL column.
   */
  function Update(p: Policy, t: Table, id: Id, prm: EquipmentParams, actor: UserId, now: Time): (r: (Table, Reply))
    ensures r.1 != Ok ==> r.0 == t
    ensures r.1 == EquipmentMissing <==> id !in t.equipment
    ensures r.1 == Ok ==> StatusAssignable(prm.status)
    ensures id in t.equipment && CastStatus(prm.status).Raises? ==> r.1 == ServerError
    ensures id in t.equipment && CastStatus(prm.status).Nil? ==> r.1 == ServerError || r.1 == Invalid
    ensures r.1 == Ok ==>
      && id in t.equipment
      && r.0.installations == t.installations
      && r.0.equipment.Keys == t.equipment.Keys
      && (forall o | o in t.equipment && o != id :: r.0.equipment[o] == t.equipment[o])
      && var (e, e') := (t.equipment[id], r.0.equipment[id]);
      && e'.lastChangedBy == Some(actor)
      && Some(e'.status) == (if prm.status.Some? then StatusNamed(prm.status.value) else Some(e.status))
      && e'.(lastChangedBy := e.lastChangedBy, lastActionDate := e.lastActionDate) == Normalize(Assign(e, prm))
      && (e'.lastActionDate == Some(now) || e' == e)
  {
    if id !in t.equipment then (t, EquipmentMissing)
    else
      var e := t.equipment[id];
      NormalizeStamped(Assign(e, prm), Assign(e.(lastChangedBy := Some(actor)), prm));
      var (t', reply) := Save(p, t, id, Assign(e.(lastChangedBy := Some(actor)), prm), now);
      match CastStatus(prm.status)
      case Raises => (t, ServerError)
      case Nil => (t, if reply == Ok then ServerError else reply)
      case _ => (t', reply)
  }

  /**
   * An update that changes nothing once stripped, by the row's last editor,
   * leaves `last_action_date` alone.
   */
  lemma UnchangedUpdateKeepsDate(p: Policy, t: Table, id: Id, prm: EquipmentParams, actor: UserId, now: Time)
    requires TableValid(p, t)
    requires id in t.equipment && t.equipment[id].lastChangedBy == Some(actor)
    requires TypeAssignable(p, Assign(t.equipment[id], prm).etype) && StatusAssignable(prm.status)
    requires Normalize(Assign(t.equipment[id], prm)) == t.equipment[id]
    ensures Update(p, t, id, prm, actor, now) == (t, Ok)
  {
    var e := t.equipment[id];
    var x := Assign(e.(lastChangedBy := Some(actor)), prm);
    assert EquipmentValid(p, t, id);
    NormalizeStamped(Assign(e, prm), x);
    assert e.(lastChangedBy := Some(actor)) == e;
    assert Normalize(x) == e;
    assert t.equipment[id := e] == t.equipment;
  }

  /**
   * Resubmitting the stored inventory number with blanks around it is no
   * change: `strip_attributes` removes them before the dirty check.
   */
  lemma PaddedResubmitKeepsDate(p: Policy, t: Table, id: Id, a: string, b: string, actor: UserId, now: Time)
    requires TableValid(p, t)
    requires id in t.equipment && t.equipment[id].lastChangedBy == Some(actor)
    requires t.equipment[id].inventory.Some?
    requires forall i | 0 <= i < |a| :: IsPadding(a[i])
    requires forall i | 0 <= i < |b| :: IsPadding(b[i])
    ensures var prm := EquipmentParams(None, None, None, Some(Some(a + t.equipment[id].inventory.value + b)), None, None, None);
      Update(p, t, id, prm, actor, now) == (t, Ok)
  {
    var e := t.equipment[id];
    var prm := EquipmentParams(None, None, None, Some(Some(a + e.inventory.value + b)), None, None, None);
    assert EquipmentValid(p, t, id);
    TidyPadded(a, e.inventory.value, b);
    assert Normalize(Assign(e, prm)) == e;
    UnchangedUpdateKeepsDate(p, t, id, prm, actor, now);
  }

  /**
   * A blank status on an update that would otherwise change nothing and
   * pass every validation is a server error: nil is a change, and the
   * column refuses it.
   */
  lemma BlankStatusIsServerError(p: Policy, t: Table, id: Id, prm: EquipmentParams, actor: UserId, now: Time)
    requires TableValid(p, t)
    requires id in t.equipment && t.equipment[id].lastChangedBy == Some(actor)
    requires TypeAssignable(p, Assign(t.equipment[id], prm).etype)
    requires Normalize(Assign(t.equipment[id], prm)) == t.equipment[id]
    requires prm.status.Some? && Blank(prm.status.value)
    ensures Update(p, t, id, prm, actor, now) == (t, ServerError)
  {
    var e := t.equipment[id];
    var x := Assign(e.(lastChangedBy := Some(actor)), prm);
    assert EquipmentValid(p, t, id);
    NormalizeStamped(Assign(e, prm), x);
    assert e.(lastChangedBy := Some(actor)) == e;
    assert Normalize(x) == e;
  }

  /** An update that changes a field, once stripped, stamps the time of the change. */
  lemma ChangingUpdateStampsDate(p: Policy, t: Table, id: Id, prm: EquipmentParams, actor: UserId, now: Time)
    requires Update(p, t, id, prm, actor, now).1 == Ok
    requires Normalize(Assign(t.equipment[id], prm)) != t.equipment[id]
    ensures Update(p, t, id, prm, actor, now).0.equipment[id].lastActionDate == Some(now)
  {
  }

  /** Creating and updating keep every stored row valid. */
  lemma CreateUpdatePreserveValid(p: Policy, t: Table, id: Id, prm: EquipmentParams, actor: UserId, now: Time)
    requires TableValid(p, t)
    ensures TableValid(p, Create(p, t, prm, actor, now).0)
    ensures TableValid(p, Update(p, t, id, prm, actor, now).0)
  {
    var nid := FreshKey(t.equipment.Keys);
    SavePreservesValid(p, t, nid, Assign(NewRow(now), prm).(owner := Some(actor), lastChangedBy := Some(actor)), now);
    if id in t.equipment {
      SavePreservesValid(p, t, id, Assign(t.equipment[id].(lastChangedBy := Some(actor)), prm), now);
    }
  }

  // ------------------------------------------------------------------- index

  /**
   * The list filters of `index`: `terminal` keeps equipment bound to an
   * installation with that terminal; `unassigned=true` keeps the warehouse.
   */
  function IndexFilter(t: Table, terminal: Option<int>, unassigned: Option<string>): (r: set<Id>)
    ensures r <= t.equipment.Keys
    ensures terminal.None? && unassigned != Some("true") ==> r == t.equipment.Keys
    ensures unassigned == Some("true") ==> r <= Warehouse(t)
    ensures terminal.Some? ==> forall id | id in r :: EquipmentTerminal(t, t.equipment[id]) == terminal
    ensures forall id | id in t.equipment ::
      id in r <==> (terminal.None? || EquipmentTerminal(t, t.equipment[id]) == terminal)
                   && (unassigned == Some("true") ==> t.equipment[id].installation.None?)
  {
    var byTerminal := if terminal.None? then t.equipment.Keys
      else set id | id in t.equipment && EquipmentTerminal(t, t.equipment[id]) == terminal;
    if unassigned == Some("true") then set id | id in byTerminal && t.equipment[id].installation.None?
    else byTerminal
  }

  /** Both filters together select nothing: warehouse equipment has no terminal. */
  lemma TerminalAndUnassignedExclusive(t: Table, terminal: int)
    ensures IndexFilter(t, Some(terminal), Some("true")) == {}
  {
  }

  // --------------------------------------------------------- change history

  const PerPage: nat := 30

  /** The answer of `audit_history`. */
  datatype HistoryPage<A> =
    | Page(entries: seq<A>, hasMore: bool, page: int)
    | NegativeOffset        // the database rejects `OFFSET` below zero: a 500

  /** The entries from `offset` on, at most `PerPage` of them (`offset(o).limit(30)`). */
  function Window<A>(history: seq<A>, offset: nat): (w: seq<A>)
    ensures |w| <= PerPage
    ensures |w| == if offset >= |history| then 0
                   else if offset + PerPage <= |history| then PerPage else |history| - offset
    ensures forall k | 0 <= k < |w| :: offset + k < |history| && w[k] == history[offset + k]
  {
    if offset >= |history| then []
    else if offset + PerPage <= |history| then history[offset..offset + PerPage]
    else history[offset..]
  }

  /**
   * `audit_history` over the audits of one row, newest first: the page number
   * is `(params[:page] || 1).to_i`, the offset `(page - 1) * 30`, and
   * `has_more` says whether rows remain past this page.
   */
  function History<A>(history: seq<A>, pageParam: Option<string>): (r: HistoryPage<A>)
    ensures r.NegativeOffset? <==> (pageParam.Some? && ToI(pageParam.value) < 1)
    ensures r.Page? ==> r.page >= 1 && r.entries == Window(history, (r.page - 1) * PerPage)
    ensures r.Page? ==> (r.hasMore <==> r.page * PerPage < |history|)
    ensures pageParam.None? ==> r.Page? && r.page == 1
  {
    var page := if pageParam.None? then 1 else ToI(pageParam.value);
    var offset := (page - 1) * PerPage;
    if offset < 0 then NegativeOffset
    else Page(Window(history, offset), offset + PerPage < |history|, page)
  }

  /** The first `n` pages, one after the other. */
  function FirstPages<A>(history: seq<A>, n: nat): seq<A> {
    if n == 0 then [] else FirstPages(history, n - 1) + Window(history, (n - 1) * PerPage)
  }

  /** Reading pages 1..n in turn yields the newest `30 n` audits in order: no gap, no repeat. */
  lemma {:induction false} PagesTileHistory<A>(history: seq<A>, n: nat)
    ensures FirstPages(history, n) == history[..if n * PerPage <= |history| then n * PerPage else |history|]
  {
    if n > 0 {
      PagesTileHistory(history, n - 1);
      var lo := (n - 1) * PerPage;
      assert n * PerPage == lo + PerPage;
      var prev := if lo <= |history| then lo else |history|;
      var hi := if lo + PerPage <= |history| then lo + PerPage else |history|;
      assert history[..prev] + history[prev..hi] == history[..hi];
      if lo < |history| {
        assert Window(history, lo) == history[lo..hi];
      } else {
        assert Window(history, lo) == [];
        assert prev == hi;
      }
    }
  }

  /** `has_more` is true exactly when the next page has something to show. */
  lemma HasMoreIffNextPage<A>(history: seq<A>, page: nat)
    requires page >= 1
    ensures History(history, Some(NatToString(page))).Page?
    ensures History(history, Some(NatToString(page))).hasMore <==> Window(history, page * PerPage) != []
  {
    ToIOfDigits(NatToString(page));
    var offset := page * PerPage;
    var w := Window(history, offset);
    assert w != [] <==> offset < |history| by {
      if offset < |history| {
        assert history[offset] == w[0];
      }
    }
  }
}

=== FILE: import.dfy ===
/**
 * The spreadsheet import of equipment: the choice of file format, the rules
 * that accept or skip each row, the counters and error list it reports, and
 * the text mappings of the status and terminal columns. Reading the file is
 * outside the model (the rows arrive as values), and so is the catalog side of
 * `find_or_create_*`: a queued row records which equipment type and which
 * installation it asks for.
 */
module Import {
  import opened Text
  import opened Enums

  /** The format `file_type` decides on. */
  datatype FileType = Csv | Xlsx | Unsupported

  /** `file_type`: only the name's suffix counts. */
  function FileTypeOf(name: Option<string>): (r: FileType)
    ensures r == Csv <==> name.Some? && EndsWith(name.value, ".csv")
    ensures r == Xlsx <==> name.Some? && !EndsWith(name.value, ".csv") && EndsWith(name.value, ".xlsx")
  {
    if name.Some? && EndsWith(name.value, ".csv") then Csv
    else if name.Some? && EndsWith(name.value, ".xlsx") then Xlsx
    else Unsupported
  }

  // ------------------------------------------------------------------ status

  /** The code `map_status` gives a status word, `active` (0) for any word it does not list. */
  function StatusOfWord(word: string): (code: nat)
    ensures code <= 6
  {
    match word
    case "в работе" => 0
    case "активное" => 0
    case "active" => 0
    case "активен" => 0
    case "на обслуживании" => 1
    case "обслуживание" => 1
    case "maintenance" => 1
    case "ожидает ремонта" => 2
    case "ремонт" => 2
    case "repair" => 2
    case "waiting_repair" => 2
    case "готово к отправке" => 3
    case "ready" => 3
    case "ready_to_dispatch" => 3
    case "списано" => 4
    case "decommissioned" => 4
    case "передано" => 5
    case "transferred" => 5
    case "с примечанием" => 6
    case "with_note" => 6
    case _ => 0
  }

  /** `map_status`: the status code of a spreadsheet status, `active` (0) when unrecognised or nil. */
  function MapStatus(text: Option<string>): (code: nat)
    ensures code <= 6
    ensures text.None? ==> code == 0
  {
    if text.None? then 0 else StatusOfWord(Strip(Lower(text.value)))
  }

  /** Each enum key names its own status. */
  lemma StatusOfKey(s: Status)
    ensures StatusOfWord(StatusKey(s)) == StatusCode(s)
  {
  }

  /** No enum key starts or ends with white space. */
  lemma StatusKeyEnds(s: Status)
    ensures var k := StatusKey(s); k != [] && !IsAsciiSpace(k[0]) && !IsAsciiSpace(k[|k| - 1])
  {
  }

  /** Every enum key, in any letter case, imports as its own status code. */
  lemma MapStatusReadsKeys(s: Status, written: string)
    requires Lower(written) == StatusKey(s)
    ensures MapStatus(Some(written)) == StatusCode(s)
  {
    StatusOfKey(s);
    StatusKeyEnds(s);
    StripEnds(StatusKey(s));
  }

  // ---------------------------------------------------------------- terminal

  /** `gsub(/\s+/, "_")`: each run of white space becomes one underscore. */
  function SquashSpaces(s: string): (r: string)
    ensures forall i | 0 <= i < |r| :: !IsAsciiSpace(r[i])
    ensures |r| <= |s|
    ensures (forall i | 0 <= i < |s| :: !IsAsciiSpace(s[i])) ==> r == s
    decreases |s|
  {
    if s == [] then []
    else if IsAsciiSpace(s[0]) then
      var rest := DropLeading(s, Spaces);
      ['_'] + SquashSpaces(rest)
    else [s[0]] + SquashSpaces(s[1..])
  }

  /**
   * The squashing, one run at a time: a word without white space is kept,
   * the whole run of white space after it becomes a single underscore, and
   * the rest of the text is squashed in turn.
   */
  lemma {:induction false} SquashSpacesRun(w: string, run: string, rest: string)
    requires forall i | 0 <= i < |w| :: !IsAsciiSpace(w[i])
    requires run != [] && forall i | 0 <= i < |run| :: IsAsciiSpace(run[i])
    requires rest == [] || !IsAsciiSpace(rest[0])
    ensures SquashSpaces(w + run + rest) == w + "_" + SquashSpaces(rest)
  {
    var s := w + run + rest;
    if w == [] {
      assert s == run + rest && IsAsciiSpace(s[0]);
      DropLeadingSeps(run, rest, Spaces);
      assert SquashSpaces(s) == ['_'] + SquashSpaces(rest);
      assert w + "_" + SquashSpaces(rest) == ['_'] + SquashSpaces(rest);
    } else {
      assert s[0] == w[0] && !IsAsciiSpace(s[0]);
      assert s[1..] == w[1..] + run + rest;
      SquashSpacesRun(w[1..], run, rest);
      assert SquashSpaces(s) == [w[0]] + SquashSpaces(s[1..]);
      assert w + "_" + SquashSpaces(rest) == [w[0]] + (w[1..] + "_" + SquashSpaces(rest));
    }
  }

  /** The terminal a spelling names, after `upcase.strip`. */
  function TerminalOfText(upper: string): (r: Option<nat>)
    ensures r.Some? ==> r.value < 6
  {
    if upper == "A" || upper == "ТЕРМИНАЛ A" then Some(0)
    else if upper == "B" || upper == "ТЕРМИНАЛ B" then Some(1)
    else if upper == "C" || upper == "ТЕРМИНАЛ C" then Some(2)
    else if upper == "D" || upper == "ТЕРМИНАЛ D" then Some(3)
    else if upper == "E" || upper == "ТЕРМИНАЛ E" then Some(4)
    else if upper == "F" || upper == "ТЕРМИНАЛ F" then Some(5)
    else None
  }

  /**
   * `map_terminal`: nil for a blank cell; a known terminal becomes its enum
   * key; any other text is lower-cased with its white-space runs turned into
   * underscores.
   */
  function MapTerminal(text: Option<string>): (r: Option<string>)
    ensures BlankOpt(text) <==> r.None?
    ensures r.Some? && TerminalOfText(Strip(Upper(text.value))).Some? ==> r.value in TerminalKeys
  {
    if BlankOpt(text) then None
    else
      var known := TerminalOfText(Strip(Upper(text.value)));
      if known.Some? then Some(TerminalKeys[known.value])
      else Some(SquashSpaces(Lower(text.value)))
  }

  /** A terminal's letter, as `terminal_name` shows it, imports as that terminal's enum key. */
  lemma MapTerminalReadsLetters(k: nat)
    requires k < 6
    ensures MapTerminal(Some(TerminalLetters[k])) == Some(TerminalKeys[k])
  {
    var letter := TerminalLetters[k];
    assert |letter| == 1 && Upper(letter) == letter;
    StripEnds(letter);
  }

  /** The long form "терминал x", in any letter case, imports as the same key. */
  lemma MapTerminalReadsLongForm(k: nat, written: string)
    requires k < 6 && Upper(written) == "ТЕРМИНАЛ " + TerminalLetters[k]
    ensures MapTerminal(Some(written)) == Some(TerminalKeys[k])
  {
    var u := "ТЕРМИНАЛ " + TerminalLetters[k];
    assert !Blank(written) by {
      assert Upper(written)[0] == UpperChar(written[0]);
    }
    assert !IsAsciiSpace(u[0]) && !IsAsciiSpace(u[|u| - 1]);
    StripEnds(u);
    LongFormOf(k);
  }

  /** Text that neither starts nor ends with white space is its own `strip`. */
  lemma StripEnds(s: string)
    requires s != [] && !IsAsciiSpace(s[0]) && !IsAsciiSpace(s[|s| - 1])
    ensures Strip(s) == s
  {
    assert DropLeading(s, Spaces) == s;
  }

  /** "ТЕРМИНАЛ x" names terminal x. */
  lemma LongFormOf(k: nat)
    requires k < 6
    ensures TerminalOfText("ТЕРМИНАЛ " + TerminalLetters[k]) == Some(k)
  {
    if k == 0 { assert "ТЕРМИНАЛ " + TerminalLetters[k] == "ТЕРМИНАЛ A"; }
    else if k == 1 { assert "ТЕРМИНАЛ " + TerminalLetters[k] == "ТЕРМИНАЛ B"; }
    else if k == 2 { assert "ТЕРМИНАЛ " + TerminalLetters[k] == "ТЕРМИНАЛ C"; }
    else if k == 3 { assert "ТЕРМИНАЛ " + TerminalLetters[k] == "ТЕРМИНАЛ D"; }
    else if k == 4 { assert "ТЕРМИНАЛ " + TerminalLetters[k] == "ТЕРМИНАЛ E"; }
    else { assert "ТЕРМИНАЛ " + TerminalLetters[k] == "ТЕРМИНАЛ F"; }
  }

  // -------------------------------------------------------------------- rows

  /** The cells of one row, keyed by the Russian column headers; a missing column is nil. */
  datatype ImportRow = ImportRow(
    typeName: Option<string>,          // "Тип оборудования"
    model: Option<string>,             // "Модель"
    inventory: Option<string>,         // "Инвентарный номер"
    serial: Option<string>,            // "Серийный номер"
    terminal: Option<string>,          // "Терминал"
    installationType: Option<string>,  // "Тип места установки"
    installationName: Option<string>,  // "Название места"
    status: Option<string>,            // "Статус"
    note: Option<string>)              // "Примечание"

  /**
   * The installation a row asks `find_or_create_installation` for: the mapped
   * terminal, the installation type named (if any) and the place name.
   */
  datatype PlaceRequest = PlaceRequest(terminal: string, typeName: Option<string>, name: string)

  /**
   * An equipment row queued for the final `insert_all`. The catalog rows it
   * refers to are recorded as the requests the import makes for them.
   */
  datatype NewEquipment = NewEquipment(
    typeName: Option<string>,      // find_or_create_equipment_type, nil when blank
    model: string,
    inventory: string,
    serial: string,
    status: nat,
    note: Option<string>,
    place: Option<PlaceRequest>)

  /** Why a row was skipped; the row number counts the header as row 1. */
  datatype RowError =
    | MissingFields(row: nat)                   // no model or no inventory number
    | DuplicateInventory(row: nat, inventory: string)

  /** What happens to one row. */
  datatype Fate = Accept(e: NewEquipment) | Skip(err: RowError) | Raise

  /**
   * The installation a row names: only when both terminal and place name are
   * present, and the terminal maps to something.
   */
  function PlaceOf(terminal: Option<string>, typeName: Option<string>, name: Option<string>): (r: Option<PlaceRequest>)
    ensures r.Some? <==> Present(terminal) && Present(name) && Present(MapTerminal(terminal))
    ensures r.Some? ==> && r.value.name == name.value && Some(r.value.terminal) == MapTerminal(terminal)
                        && (r.value.typeName.Some? <==> Present(typeName))
  {
    if Present(terminal) && Present(name) then
      var key := MapTerminal(terminal);
      if BlankOpt(key) then None
      else Some(PlaceRequest(key.value, if Present(typeName) then typeName else None, name.value))
    else None
  }

  /** The row queued for an accepted row, from its stripped cells. */
  function Queued(row: ImportRow, model: string, inventory: string): (e: NewEquipment)
    ensures e.model == model && e.inventory == inventory
    ensures e.serial == (if BlankOpt(StripOpt(row.serial)) then "N/A" else Strip(row.serial.value))
    ensures e.status == MapStatus(StripOpt(row.status)) && e.note == StripOpt(row.note)
    ensures e.typeName.Some? <==> Present(StripOpt(row.typeName))
  {
    var typeName := StripOpt(row.typeName);
    var serial := StripOpt(row.serial);
    NewEquipment(
      if BlankOpt(typeName) then None else typeName,
      model,
      inventory,
      if BlankOpt(serial) then "N/A" else serial.value,
      MapStatus(StripOpt(row.status)),
      StripOpt(row.note),
      PlaceOf(StripOpt(row.terminal), StripOpt(row.installationType), StripOpt(row.installationName)))
  }

  /** The row lacks a model or an inventory number, once stripped. */
  predicate MissingRequired(row: ImportRow) {
    BlankOpt(StripOpt(row.model)) || BlankOpt(StripOpt(row.inventory))
  }

  /**
   * One pass of `process_rows`: strip every cell, skip a row without model or
   * inventory number, then ask storage whether the inventory number exists
   * (an unknown system raises here), skip it if so, else queue the row.
   */
  function Classify(row: ImportRow, index: nat, system: Option<System>, existing: set<string>): (f: Fate)
    ensures f.Skip? ==> f.err.row == index + 2
    ensures f.Skip? && f.err.MissingFields? <==> MissingRequired(row)
    ensures f.Raise? <==> !MissingRequired(row) && system.None?
    ensures f.Skip? && f.err.DuplicateInventory? <==>
      !MissingRequired(row) && system.Some? && Strip(row.inventory.value) in existing
    ensures f.Accept? ==> && Present(Some(f.e.model)) && Present(Some(f.e.inventory))
                          && f.e.inventory == Strip(row.inventory.value) && f.e.inventory !in existing
  {
    if MissingRequired(row) then Skip(MissingFields(index + 2))
    else if system.None? then Raise
    else
      var inventory := Strip(row.inventory.value);
      if inventory in existing then Skip(DuplicateInventory(index + 2, inventory))
      else Accept(Queued(row, Strip(row.model.value), inventory))
  }

  /** The result of `process_rows`. */
  datatype Processed =
    | Counted(imported: nat, skipped: nat, errors: seq<RowError>, inserted: seq<NewEquipment>)
    | Raised

  /**
   * What `process_rows` has after meeting one more row. The source sets
   * `@imported` once, to the number of queued rows, after the loop; counting
   * each queued row as it comes gives the same number.
   */
  function Meet(p: Processed, f: Fate): (q: Processed)
    requires p.Counted?
  {
    match f
    case Raise => Raised
    case Skip(err) => p.(skipped := p.skipped + 1, errors := p.errors + [err])
    case Accept(e) => p.(imported := p.imported + 1, inserted := p.inserted + [e])
  }

  /**
   * The state of `process_rows` after the first `n` rows: the counters, the
   * skip messages and the queued rows, or the exception of a raising row.
   */
  function Process(rows: seq<ImportRow>, n: nat, system: Option<System>, existing: set<string>): (p: Processed)
    requires n <= |rows|
    ensures p.Counted? ==> p.imported == |p.inserted| && p.skipped == |p.errors| && p.imported + p.skipped == n
  {
    if n == 0 then Counted(0, 0, [], [])
    else
      var p := Process(rows, n - 1, system, existing);
      if p.Raised? then Raised else Meet(p, Classify(rows[n - 1], n - 1, system, existing))
  }

  /** `process_rows` as the loop runs it; an exception ends the loop. */
  method ProcessRows(rows: seq<ImportRow>, system: Option<System>, existing: set<string>)
    returns (r: Processed)
    ensures r == Process(rows, |rows|, system, existing)
  {
    r := Counted(0, 0, [], []);
    var i := 0;
    while i < |rows| && r.Counted?
      invariant 0 <= i <= |rows| && r == Process(rows, i, system, existing)
    {
      ProcessAdvance(rows, i, r, system, existing);
      r := Meet(r, Classify(rows[i], i, system, existing));
      i := i + 1;
    }
    if r.Raised? {
      RaisedStays(rows, i, |rows|, system, existing);
    }
  }

  /** One more row: the loop body runs unless an earlier row raised. */
  lemma ProcessStep(rows: seq<ImportRow>, n: nat, system: Option<System>, existing: set<string>)
    requires 0 < n <= |rows|
    ensures var p := Process(rows, n - 1, system, existing);
      Process(rows, n, system, existing) ==
        if p.Raised? then Raised else Meet(p, Classify(rows[n - 1], n - 1, system, existing))
    ensures Process(rows, n, system, existing).Counted? ==> Process(rows, n - 1, system, existing).Counted?
  {
  }

  /** The loop body takes the state after `i` rows to the state after `i + 1`. */
  lemma ProcessAdvance(rows: seq<ImportRow>, i: nat, r: Processed, system: Option<System>, existing: set<string>)
    requires i < |rows| && r.Counted? && r == Process(rows, i, system, existing)
    ensures Meet(r, Classify(rows[i], i, system, existing)) == Process(rows, i + 1, system, existing)
  {
    ProcessStep(rows, i + 1, system, existing);
  }

  /** Once a row raises, the rows after it are never looked at. */
  lemma {:induction false} RaisedStays(rows: seq<ImportRow>, m: nat, n: nat, system: Option<System>, existing: set<string>)
    requires m <= n <= |rows| && Process(rows, m, system, existing).Raised?
    ensures Process(rows, n, system, existing).Raised?
    decreases n - m
  {
    if m < n {
      ProcessStep(rows, m + 1, system, existing);
      RaisedStays(rows, m + 1, n, system, existing);
    }
  }

  /** With a known system no row raises. */
  lemma {:induction false} KnownSystemNeverRaises(rows: seq<ImportRow>, n: nat, system: System, existing: set<string>)
    requires n <= |rows|
    ensures Process(rows, n, Some(system), existing).Counted?
  {
    if n > 0 {
      KnownSystemNeverRaises(rows, n - 1, system, existing);
    }
  }

  /** With an unknown system, the first row that has a model and an inventory number raises. */
  lemma UnknownSystemRaises(rows: seq<ImportRow>, i: nat, n: nat, existing: set<string>)
    requires i < n <= |rows| && !MissingRequired(rows[i])
    ensures Process(rows, n, None, existing).Raised?
  {
    RaisedStays(rows, i + 1, n, None, existing);
  }

  /** With an unknown system, a file whose rows all lack a model or inventory number is only skipped. */
  lemma {:induction false} UnknownSystemSkipsBlankRows(rows: seq<ImportRow>, n: nat, existing: set<string>)
    requires n <= |rows| && forall i | 0 <= i < n :: MissingRequired(rows[i])
    ensures var p := Process(rows, n, None, existing); p.Counted? && p.imported == 0 && p.skipped == n
  {
    if n > 0 {
      UnknownSystemSkipsBlankRows(rows, n - 1, existing);
    }
  }

  /** A queued row has a model and an inventory number storage does not hold yet. */
  predicate NewRow(e: NewEquipment, existing: set<string>) {
    e.inventory !in existing && Present(Some(e.model)) && Present(Some(e.inventory))
  }

  /** Every queued row has a model and an inventory number storage does not hold yet. */
  lemma {:induction false} QueuedRowsAreNew(rows: seq<ImportRow>, n: nat, system: Option<System>, existing: set<string>)
    requires n <= |rows| && Process(rows, n, system, existing).Counted?
    ensures forall e | e in Process(rows, n, system, existing).inserted :: NewRow(e, existing)
  {
    if n > 0 {
      QueuedRowsAreNew(rows, n - 1, system, existing);
      StepQueued(rows, n, system, existing);
    }
  }

  /** Row `n` queues at most one row, and that one is new. */
  lemma StepQueued(rows: seq<ImportRow>, n: nat, system: Option<System>, existing: set<string>)
    requires 0 < n <= |rows| && Process(rows, n, system, existing).Counted?
    requires forall e | e in Process(rows, n - 1, system, existing).inserted :: NewRow(e, existing)
    ensures forall e | e in Process(rows, n, system, existing).inserted :: NewRow(e, existing)
  {
    ProcessStep(rows, n, system, existing);
    var f := Classify(rows[n - 1], n - 1, system, existing);
    assert f.Accept? ==> NewRow(f.e, existing);
    MeetQueued(Process(rows, n - 1, system, existing), f, existing);
  }

  lemma MeetQueued(p: Processed, f: Fate, existing: set<string>)
    requires p.Counted? && forall e | e in p.inserted :: NewRow(e, existing)
    requires f.Accept? ==> NewRow(f.e, existing)
    ensures Meet(p, f).Counted? ==> forall e | e in Meet(p, f).inserted :: NewRow(e, existing)
  {
  }

  /** Every skip message names a row number between 2 and `n + 1`. */
  lemma {:induction false} ErrorsNameRows(rows: seq<ImportRow>, n: nat, system: Option<System>, existing: set<string>)
    requires n <= |rows| && Process(rows, n, system, existing).Counted?
    ensures forall err | err in Process(rows, n, system, existing).errors :: 2 <= err.row <= n + 1
  {
    if n > 0 {
      ErrorsNameRows(rows, n - 1, system, existing);
      StepErrors(rows, n, system, existing);
    }
  }

  /** Row `n` adds at most one skip message, and that one names row `n + 1`. */
  lemma StepErrors(rows: seq<ImportRow>, n: nat, system: Option<System>, existing: set<string>)
    requires 0 < n <= |rows| && Process(rows, n, system, existing).Counted?
    requires forall err | err in Process(rows, n - 1, system, existing).errors :: 2 <= err.row <= n
    ensures forall err | err in Process(rows, n, system, existing).errors :: 2 <= err.row <= n + 1
  {
    ProcessStep(rows, n, system, existing);
    var f := Classify(rows[n - 1], n - 1, system, existing);
    assert f.Skip? ==> f.err.row == n + 1;
    MeetErrors(Process(rows, n - 1, system, existing), f, n);
  }

  lemma MeetErrors(p: Processed, f: Fate, last: nat)
    requires last >= 1 && p.Counted? && forall err | err in p.errors :: 2 <= err.row <= last
    requires f.Skip? ==> f.err.row == last + 1
    ensures Meet(p, f).Counted? ==> forall err | err in Meet(p, f).errors :: 2 <= err.row <= last + 1
  {
  }

  /**
   * Storage is consulted, never the rows queued so far: a file repeating a
   * new inventory number has both rows queued.
   */
  lemma RepeatsInFileAccepted(row: ImportRow, system: System, existing: set<string>)
    requires Classify(row, 0, Some(system), existing).Accept?
    ensures Classify(row, 1, Some(system), existing) == Classify(row, 0, Some(system), existing)
    ensures var p := Process([row, row], 2, Some(system), existing);
      p.Counted? && |p.inserted| == 2 && p.inserted[0].inventory == p.inserted[1].inventory
  {
    var rows := [row, row];
    var f := Classify(row, 0, Some(system), existing);
    assert Process(rows, 1, Some(system), existing) == Counted(1, 0, [], [f.e]);
  }

  // ------------------------------------------------------------- insert_all

  /** The columns `.compact` may drop from a queued row's attribute hash. */
  datatype Column = TypeRefColumn | NoteColumn | InstallationColumn

  /**
   * The droppable columns a queued row keeps: `equipment_type_ref_id` when a
   * type was named, `note` when the cell was not nil, the installation key
   * when a place was found.
   */
  function Columns(e: NewEquipment): set<Column> {
    (if e.typeName.Some? then {TypeRefColumn} else {})
      + (if e.note.Some? then {NoteColumn} else {})
      + (if e.place.Some? then {InstallationColumn} else {})
  }

  /** `insert_all` accepts the batch only when every hash has the same keys. */
  predicate SameColumns(rows: seq<NewEquipment>) {
    forall i | 0 <= i < |rows| :: Columns(rows[i]) == Columns(rows[0])
  }

  /**
   * Two accepted rows, one with a note and one whose note cell is nil (an
   * empty CSV field), queue hashes with different keys, so the final
   * `insert_all` raises.
   */
  lemma NoteInOneRowOnlyBreaksInsert(r1: ImportRow, r2: ImportRow, system: System, existing: set<string>)
    requires Classify(r1, 0, Some(system), existing).Accept? && Classify(r2, 1, Some(system), existing).Accept?
    requires r1.note.Some? && r2.note.None?
    ensures var p := Process([r1, r2], 2, Some(system), existing);
      p.Counted? && |p.inserted| == 2 && !SameColumns(p.inserted)
  {
    var rows := [r1, r2];
    var (f1, f2) := (Classify(r1, 0, Some(system), existing), Classify(r2, 1, Some(system), existing));
    assert Process(rows, 1, Some(system), existing) == Counted(1, 0, [], [f1.e]);
    var p := Process(rows, 2, Some(system), existing);
    assert p.inserted == [f1.e, f2.e];
    assert NoteColumn in Columns(p.inserted[0]) && NoteColumn !in Columns(p.inserted[1]);
  }

  /** Rows that agree on which of the three columns they fill insert together. */
  lemma UniformRowsInsert(rows: seq<NewEquipment>)
    requires forall i | 0 <= i < |rows| ::
      && (rows[i].typeName.Some? <==> rows[0].typeName.Some?)
      && (rows[i].note.Some? <==> rows[0].note.Some?)
      && (rows[i].place.Some? <==> rows[0].place.Some?)
    ensures SameColumns(rows)
  {
  }

  /**
   * Whether the table gives `equipment_type`, a NOT NULL column that the
   * queued hashes never carry, a default: only ZAMAR's table does (0). In
   * the CUTE and FIDS tables the column has no default.
   */
  predicate TypeColumnDefaulted(system: Option<System>) {
    system == Some(Zamar)
  }

  /**
   * Whether the final `insert_all` raises, as the service is written: it is
   * called only when rows were queued, refuses hashes with different keys,
   * and the database refuses a row without `equipment_type` unless the
   * column has a default.
   */
  predicate InsertRaises(system: Option<System>, rows: seq<NewEquipment>) {
    rows != [] && (!SameColumns(rows) || !TypeColumnDefaulted(system))
  }

  /**
   * Whether `insert_all` would raise if each hash also carried the row's
   * `equipment_type`: then only differing keys make it raise.
   */
  predicate InsertRaisesTyped(rows: seq<NewEquipment>) {
    rows != [] && !SameColumns(rows)
  }

  /**
   * As written, a CUTE or FIDS import that queues a single new row fails:
   * the hash has no `equipment_type` and the column has no default.
   */
  lemma NewRowFailsInsert(row: ImportRow, system: System, existing: set<string>)
    requires system == Cute || system == Fids
    requires Classify(row, 0, Some(system), existing).Accept?
    ensures var p := Process([row], 1, Some(system), existing);
      p.Counted? && |p.inserted| == 1 && InsertRaises(Some(system), p.inserted)
  {
    var f := Classify(row, 0, Some(system), existing);
    assert Process([row], 1, Some(system), existing) == Counted(1, 0, [], [f.e]);
  }

  /**
   * With the type in every hash, a single new row of any system is
   * inserted, and ZAMAR's import behaves exactly as before.
   */
  lemma TypedInsertTakesNewRow(row: ImportRow, system: System, existing: set<string>)
    requires Classify(row, 0, Some(system), existing).Accept?
    ensures var p := Process([row], 1, Some(system), existing);
      p.Counted? && |p.inserted| == 1 && !InsertRaisesTyped(p.inserted)
    ensures forall rows :: InsertRaises(Some(Zamar), rows) == InsertRaisesTyped(rows)
  {
    var f := Classify(row, 0, Some(system), existing);
    assert Process([row], 1, Some(system), existing) == Counted(1, 0, [], [f.e]);
  }

  // ------------------------------------------------------------------ import

  /** What `import` returns. */
  datatype Outcome =
    | Imported(imported: nat, skipped: nat, errors: seq<RowError>)
    | UnsupportedFormat    // "Неподдерживаемый формат файла"
    | Failed               // an exception: "Ошибка при импорте"

  /** `import`: dispatch on the format, run the rows, keep the first ten errors. */
  method Import(fileName: Option<string>, rows: seq<ImportRow>, system: Option<System>, existing: set<string>)
    returns (r: Outcome)
    ensures FileTypeOf(fileName) == Unsupported <==> r == UnsupportedFormat
    ensures r == Failed <==>
      && FileTypeOf(fileName) != Unsupported
      && var p := Process(rows, |rows|, system, existing);
      && (p.Raised? || InsertRaises(system, p.inserted))
    ensures r.Imported? ==> |r.errors| <= 10 && r.imported + r.skipped == |rows|
    ensures r.Imported? ==>
      && var p := Process(rows, |rows|, system, existing);
      && p.Counted? && !InsertRaises(system, p.inserted)
      && r.imported == p.imported && r.skipped == p.skipped
      && |r.errors| <= |p.errors| && r.errors == p.errors[..|r.errors|]
      && (|p.errors| <= 10 ==> r.errors == p.errors)
  {
    if FileTypeOf(fileName) == Unsupported {
      return UnsupportedFormat;
    }
    var p := ProcessRows(rows, system, existing);
    if p.Raised? || InsertRaises(system, p.inserted) {
      return Failed;
    }
    var shown := if |p.errors| <= 10 then p.errors else p.errors[..10];
    return Imported(p.imported, p.skipped, shown);
  }
}

=== FILE: ordering.dfy ===
/**
 * Listing helpers shared by the query actions: turning a set of rows into a
 * list, and sorting a list newest first by an integer key (`sort_by` followed
 * by `reverse!`, or `ORDER BY ... DESC`). Rows with equal keys may come in any
 * order, as they may in the source.
 */
module Ordering {

  /** Each row's key is no smaller than the key of every row after it. */
  predicate SortedDesc<T>(xs: seq<T>, key: T -> int) {
    forall i, j | 0 <= i < j < |xs| :: key(xs[i]) >= key(xs[j])
  }

  /** `x` inserted before the first row with a smaller-or-equal key. */
  function InsertDesc<T>(xs: seq<T>, x: T, key: T -> int): (r: seq<T>)
    requires SortedDesc(xs, key)
    ensures multiset(r) == multiset(xs) + multiset{x}
    ensures SortedDesc(r, key)
    ensures r[0] == x || (xs != [] && r[0] == xs[0])
  {
    if xs == [] || key(x) >= key(xs[0]) then [x] + xs
    else
      var rest := InsertDesc(xs[1..], x, key);
      assert xs == [xs[0]] + xs[1..];
      forall j | 0 <= j < |rest|
        ensures key(xs[0]) >= key(rest[j])
      {
        assert rest[j] in multiset(rest);
        if rest[j] != x {
          assert rest[j] in multiset(xs[1..]);
          var k :| 0 <= k < |xs[1..]| && xs[1..][k] == rest[j];
          assert xs[k + 1] == rest[j];
        }
      }
      ConsSortedDesc(xs[0], rest, key);
      [xs[0]] + rest
  }

  /** A sorted list stays sorted behind a row at least as new as all of it. */
  lemma ConsSortedDesc<T>(h: T, rest: seq<T>, key: T -> int)
    requires SortedDesc(rest, key) && forall j | 0 <= j < |rest| :: key(h) >= key(rest[j])
    ensures SortedDesc([h] + rest, key)
  {
    var r := [h] + rest;
    forall i, j | 0 <= i < j < |r|
      ensures key(r[i]) >= key(r[j])
    {
      assert r[j] == rest[j - 1];
      if i > 0 {
        assert r[i] == rest[i - 1];
      }
    }
  }

  /** Insertion sort, newest (largest key) first. */
  method SortDesc<T>(xs: seq<T>, key: T -> int) returns (ys: seq<T>)
    ensures multiset(ys) == multiset(xs)
    ensures SortedDesc(ys, key)
  {
    ys := [];
    var i := 0;
    while i < |xs|
      invariant 0 <= i <= |xs|
      invariant multiset(ys) == multiset(xs[..i])
      invariant SortedDesc(ys, key)
    {
      ys := InsertDesc(ys, xs[i], key);
      assert xs[..i + 1] == xs[..i] + [xs[i]];
      i := i + 1;
    }
    assert xs[..|xs|] == xs;
  }

  /** No row occurs twice. */
  predicate Distinct<T(==)>(xs: seq<T>) {
    forall x | x in multiset(xs) :: multiset(xs)[x] == 1
  }

  /** The rows of a set, each once, in some order (`find_each` appending to a list). */
  method Gather<T(==)>(s: set<T>) returns (xs: seq<T>)
    ensures |xs| == |s|
    ensures forall x :: x in xs <==> x in s
    ensures Distinct(xs)
  {
    xs := [];
    var todo := s;
    while todo != {}
      invariant todo <= s
      invariant forall x :: x in xs <==> x in s - todo
      invariant |xs| == |s - todo|
      invariant Distinct(xs)
      decreases |todo|
    {
      var x :| x in todo;
      assert s - (todo - {x}) == (s - todo) + {x};
      xs := xs + [x];
      todo := todo - {x};
    }
  }

  /** A list that holds each row of a set once still does so after sorting. */
  lemma SortKeepsRows<T>(xs: seq<T>, ys: seq<T>, s: set<T>)
    requires multiset(ys) == multiset(xs)
    requires |xs| == |s| && forall x :: x in xs <==> x in s
    ensures |ys| == |s| && forall x :: x in ys <==> x in s
  {
    assert |ys| == |multiset(ys)| == |multiset(xs)| == |xs|;
    forall x
      ensures x in ys <==> x in s
    {
      assert x in ys <==> x in multiset(ys);
      assert x in xs <==> x in multiset(xs);
    }
  }

  /** A non-empty list is its front followed by its last element. */
  lemma SnocSplit<T>(xs: seq<T>)
    requires xs != []
    ensures xs == xs[..|xs| - 1] + [xs[|xs| - 1]]
  {
  }
}

=== FILE: password.dfy ===
/**
 * The strong-password rules every user password is checked against: a
 * minimum length, an upper-case letter, a lower-case letter and a digit,
 * no three equal characters in a row, none of the well-known sequences, not
 * a common password, and not the local part of the user's email. A failed
 * rule adds one message; the messages come in the order the rules are listed.
 */
module Password {
  import opened Text

  /** The rule a password breaks, in the order the validator checks them. */
  datatype PasswordError =
    | TooShort | NoUppercase | NoLowercase | NoNumber
    | HasRepeating | HasSequential | TooCommon | ContainsEmail

  function Rank(e: PasswordError): nat {
    match e
    case TooShort => 0
    case NoUppercase => 1
    case NoLowercase => 2
    case NoNumber => 3
    case HasRepeating => 4
    case HasSequential => 5
    case TooCommon => 6
    case ContainsEmail => 7
  }

  const MinLength: nat := 6

  // ------------------------------------------------------------------ rules

  /** `[A-ZА-ЯЁ]`. */
  predicate IsUpperLetter(c: char) {
    'A' <= c <= 'Z' || '\U{410}' <= c <= '\U{42F}' || c == '\U{401}'
  }

  /** `[a-zа-яё]`. */
  predicate IsLowerLetter(c: char) {
    'a' <= c <= 'z' || '\U{430}' <= c <= '\U{44F}' || c == '\U{451}'
  }

  predicate HasUpper(s: string) {
    exists i | 0 <= i < |s| :: IsUpperLetter(s[i])
  }

  predicate HasLower(s: string) {
    exists i | 0 <= i < |s| :: IsLowerLetter(s[i])
  }

  /** `\d`, which in Ruby matches the ASCII digits only. */
  predicate HasDigit(s: string) {
    exists i | 0 <= i < |s| :: IsDigit(s[i])
  }

  /** Three equal characters start at `i`; `.` does not match a line break. */
  predicate RunAt(s: string, i: int) {
    0 <= i && i + 2 < |s| && s[i] != '\n' && s[i + 1] == s[i] && s[i + 2] == s[i]
  }

  /** `/(.)\1{2,}/`. */
  predicate HasRun(s: string) {
    exists i | 0 <= i < |s| :: RunAt(s, i)
  }

  /** The three-character runs the validator rejects, grouped as in the source. */
  const DigitRuns: seq<string> := ["012", "123", "234", "345", "456", "567", "678", "789", "890"]
  const LatinRuns: seq<string> := [
    "abc", "bcd", "cde", "def", "efg", "fgh", "ghi", "hij", "ijk", "jkl", "klm", "lmn",
    "mno", "nop", "opq", "pqr", "qrs", "rst", "stu", "tuv", "uvw", "vwx", "wxy", "xyz"]
  const CyrillicRuns: seq<string> := [
    "абв", "бвг", "вгд", "где", "деж", "ежз", "жзи", "зий", "ийк", "йкл", "клм", "лмн",
    "мно", "ноп", "опр", "прс", "рст", "сту", "туф", "уфх", "фхц", "хцч", "цчш", "чшщ"]
  const KeyboardRuns: seq<string> := [
    "qwe", "wer", "ert", "rty", "tyu", "yui", "uio", "iop", "asd", "sdf", "dfg", "fgh",
    "ghj", "hjk", "jkl", "zxc", "xcv", "cvb", "vbn", "bnm"]

  const SequentialPatterns: seq<string> := DigitRuns + LatinRuns + CyrillicRuns + KeyboardRuns

  /** `contains_sequential?`: the lower-cased password contains one of the patterns. */
  predicate HasSequence(s: string) {
    exists p | p in SequentialPatterns :: Contains(Lower(s), p)
  }

  /** The list used when there is no list file, or it is not valid JSON. */
  const DefaultCommon: set<string> := {
    "password", "password1", "password123", "qwerty", "qwerty123",
    "123456", "1234567", "12345678", "123456789", "000000", "111111",
    "admin", "admin123", "letmein", "welcome", "monkey"
  }

  /**
   * The list file as the loader finds it: absent, not valid JSON, or parsed,
   * with the example passwords of every category and every invalid-password
   * group collected in file order (none when those keys are missing).
   */
  datatype WeakFile = NoFile | Unparsable | Parsed(examples: seq<string>)

  /** `load_common_passwords`: the file's examples lower-cased, or the defaults. */
  function LoadCommon(f: WeakFile): (r: set<string>)
    ensures !f.Parsed? ==> r == DefaultCommon
    ensures f.Parsed? ==> forall p | p in f.examples :: Lower(p) in r
    ensures f.Parsed? ==> forall w | w in r :: exists p | p in f.examples :: Lower(p) == w
  {
    if f.Parsed? then set p | p in f.examples :: Lower(p) else DefaultCommon
  }

  /** `common_password?`: the lower-cased password is on the list. */
  predicate IsCommon(s: string, common: set<string>) {
    Lower(s) in common
  }

  /**
   * `record.email.split('@').first`: the text before the first '@'. An email
   * made of '@' only splits into nothing, and `nil.downcase` then raises.
   */
  predicate EmailUnreadable(email: Option<string>) {
    Present(email) && SplitFirst(email.value, '@').None?
  }

  /** The password contains the lower-cased local part of the email, when that is longer than two. */
  predicate ContainsEmailName(s: string, email: Option<string>) {
    Present(email) &&
    var name := SplitFirst(email.value, '@');
    name.Some? && |name.value| > 2 && Contains(Lower(s), Lower(name.value))
  }

  /** Whether a non-blank password breaks rule `e`. */
  predicate Fails(e: PasswordError, s: string, email: Option<string>, common: set<string>) {
    match e
    case TooShort => |s| < MinLength
    case NoUppercase => !HasUpper(s)
    case NoLowercase => !HasLower(s)
    case NoNumber => !HasDigit(s)
    case HasRepeating => HasRun(s)
    case HasSequential => HasSequence(s)
    case TooCommon => IsCommon(s, common)
    case ContainsEmail => ContainsEmailName(s, email)
  }

  /** Errors listed strictly in rule order: no rule twice, none out of turn. */
  predicate Ordered(errors: seq<PasswordError>) {
    forall i, j | 0 <= i < j < |errors| :: Rank(errors[i]) < Rank(errors[j])
  }

  // ------------------------------------------------------------- validation

  datatype Checked =
    | Errors(errors: seq<PasswordError>)
    | Raises        // `nil.downcase` on an email made of '@' only

  /** The one-element list `[e]` when the rule is broken, otherwise nothing. */
  function IfBroken(broken: bool, e: PasswordError): seq<PasswordError> {
    if broken then [e] else []
  }

  /**
   * The errors of a non-blank password, the broken rules in rule order; the
   * email rule needs a readable email.
   */
  function Broken(s: string, email: Option<string>, common: set<string>): seq<PasswordError> {
    IfBroken(Fails(TooShort, s, email, common), TooShort)
    + IfBroken(Fails(NoUppercase, s, email, common), NoUppercase)
    + IfBroken(Fails(NoLowercase, s, email, common), NoLowercase)
    + IfBroken(Fails(NoNumber, s, email, common), NoNumber)
    + IfBroken(Fails(HasRepeating, s, email, common), HasRepeating)
    + IfBroken(Fails(HasSequential, s, email, common), HasSequential)
    + IfBroken(Fails(TooCommon, s, email, common), TooCommon)
    + IfBroken(Fails(ContainsEmail, s, email, common), ContainsEmail)
  }

  /** `errors << e if broken`. */
  method PushIf(errors: seq<PasswordError>, broken: bool, e: PasswordError) returns (r: seq<PasswordError>)
    ensures r == errors + IfBroken(broken, e)
  {
    r := errors;
    if broken {
      r := r + [e];
    }
  }

  /**
   * `validate_each` once the common list is known: nothing for a blank
   * password, otherwise every broken rule, in rule order.
   */
  method Collect(value: Option<string>, email: Option<string>, common: set<string>) returns (r: Checked)
    ensures BlankOpt(value) ==> r == Errors([])
    ensures r.Raises? <==> !BlankOpt(value) && EmailUnreadable(email)
    ensures r.Errors? && !BlankOpt(value) ==> r.errors == Broken(value.value, email, common)
  {
    if BlankOpt(value) {
      return Errors([]);
    }
    var s := value.value;
    var errors: seq<PasswordError> := [];
    errors := PushIf(errors, Fails(TooShort, s, email, common), TooShort);
    assert errors == IfBroken(Fails(TooShort, s, email, common), TooShort);
    errors := PushIf(errors, Fails(NoUppercase, s, email, common), NoUppercase);
    errors := PushIf(errors, Fails(NoLowercase, s, email, common), NoLowercase);
    errors := PushIf(errors, Fails(NoNumber, s, email, common), NoNumber);
    errors := PushIf(errors, Fails(HasRepeating, s, email, common), HasRepeating);
    errors := PushIf(errors, Fails(HasSequential, s, email, common), HasSequential);
    errors := PushIf(errors, Fails(TooCommon, s, email, common), TooCommon);
    if Present(email) {
      var name := SplitFirst(email.value, '@');
      if name.None? {
        return Raises;
      }
      errors := PushIf(errors, Fails(ContainsEmail, s, email, common), ContainsEmail);
    } else {
      errors := PushIf(errors, false, ContainsEmail);
    }
    r := Errors(errors);
  }

  lemma InIfBroken(broken: bool, x: PasswordError, e: PasswordError)
    ensures e in IfBroken(broken, x) <==> broken && e == x
  {
  }

  /** Every error of the list ranks below `k`. */
  predicate Below(errors: seq<PasswordError>, k: nat) {
    forall e | e in errors :: Rank(e) < k
  }

  /** Appending the next rule's error, if any, keeps the list in rule order. */
  lemma Extend(errors: seq<PasswordError>, broken: bool, x: PasswordError)
    requires Ordered(errors) && Below(errors, Rank(x))
    ensures Ordered(errors + IfBroken(broken, x)) && Below(errors + IfBroken(broken, x), Rank(x) + 1)
  {
    if broken {
      var r := errors + [x];
      forall i, j | 0 <= i < j < |r|
        ensures Rank(r[i]) < Rank(r[j])
      {
        if j == |errors| {
          assert r[i] in errors;
        }
      }
    } else {
      assert errors + [] == errors;
    }
  }

  /** Whatever rules are broken, an error is listed exactly when its own rule is. */
  lemma PicksMembers(b0: bool, b1: bool, b2: bool, b3: bool, b4: bool, b5: bool, b6: bool, b7: bool, e: PasswordError)
    ensures e in IfBroken(b0, TooShort) + IfBroken(b1, NoUppercase) + IfBroken(b2, NoLowercase) + IfBroken(b3, NoNumber)
      + IfBroken(b4, HasRepeating) + IfBroken(b5, HasSequential) + IfBroken(b6, TooCommon) + IfBroken(b7, ContainsEmail)
      <==> match e
           case TooShort => b0
           case NoUppercase => b1
           case NoLowercase => b2
           case NoNumber => b3
           case HasRepeating => b4
           case HasSequential => b5
           case TooCommon => b6
           case ContainsEmail => b7
  {
    InIfBroken(b0, TooShort, e);
    InIfBroken(b1, NoUppercase, e);
    InIfBroken(b2, NoLowercase, e);
    InIfBroken(b3, NoNumber, e);
    InIfBroken(b4, HasRepeating, e);
    InIfBroken(b5, HasSequential, e);
    InIfBroken(b6, TooCommon, e);
    InIfBroken(b7, ContainsEmail, e);
  }

  /** The error list names exactly the broken rules. */
  lemma BrokenMembers(s: string, email: Option<string>, common: set<string>)
    ensures forall e :: e in Broken(s, email, common) <==> Fails(e, s, email, common)
  {
    forall e
      ensures e in Broken(s, email, common) <==> Fails(e, s, email, common)
    {
      PicksMembers(Fails(TooShort, s, email, common), Fails(NoUppercase, s, email, common),
        Fails(NoLowercase, s, email, common), Fails(NoNumber, s, email, common),
        Fails(HasRepeating, s, email, common), Fails(HasSequential, s, email, common),
        Fails(TooCommon, s, email, common), Fails(ContainsEmail, s, email, common), e);
    }
  }

  /** Whatever rules are broken, their errors come out in rule order. */
  lemma PicksOrdered(b0: bool, b1: bool, b2: bool, b3: bool, b4: bool, b5: bool, b6: bool, b7: bool)
    ensures Ordered(IfBroken(b0, TooShort) + IfBroken(b1, NoUppercase) + IfBroken(b2, NoLowercase) + IfBroken(b3, NoNumber)
      + IfBroken(b4, HasRepeating) + IfBroken(b5, HasSequential) + IfBroken(b6, TooCommon) + IfBroken(b7, ContainsEmail))
  {
    var a := IfBroken(b0, TooShort);
    Extend([], b0, TooShort);
    assert [] + a == a;
    Extend(a, b1, NoUppercase);
    a := a + IfBroken(b1, NoUppercase);
    Extend(a, b2, NoLowercase);
    a := a + IfBroken(b2, NoLowercase);
    Extend(a, b3, NoNumber);
    a := a + IfBroken(b3, NoNumber);
    Extend(a, b4, HasRepeating);
    a := a + IfBroken(b4, HasRepeating);
    Extend(a, b5, HasSequential);
    a := a + IfBroken(b5, HasSequential);
    Extend(a, b6, TooCommon);
    a := a + IfBroken(b6, TooCommon);
    Extend(a, b7, ContainsEmail);
  }

  /** The error list is in rule order, so no rule is reported twice. */
  lemma BrokenOrdered(s: string, email: Option<string>, common: set<string>)
    ensures Ordered(Broken(s, email, common))
  {
    PicksOrdered(Fails(TooShort, s, email, common), Fails(NoUppercase, s, email, common),
      Fails(NoLowercase, s, email, common), Fails(NoNumber, s, email, common),
      Fails(HasRepeating, s, email, common), Fails(HasSequential, s, email, common),
      Fails(TooCommon, s, email, common), Fails(ContainsEmail, s, email, common));
  }

  /** A validator instance, which reads the common list once and keeps it. */
  class StrongPasswordValidator {
    var commonPasswords: Option<set<string>>

    constructor()
      ensures commonPasswords.None?
    {
      commonPasswords := None;
    }

    /** `@common_passwords ||= load_common_passwords`. */
    method CommonPasswords(file: WeakFile) returns (list: set<string>)
      modifies this
      ensures old(commonPasswords).Some? ==> list == old(commonPasswords).value
      ensures old(commonPasswords).None? ==> list == LoadCommon(file)
      ensures commonPasswords == Some(list)
    {
      if commonPasswords.None? {
        commonPasswords := Some(LoadCommon(file));
      }
      list := commonPasswords.value;
    }

    /**
     * `validate_each`: the list is loaded on the first non-blank password and
     * reused afterwards, whatever the file holds by then.
     */
    method ValidateEach(value: Option<string>, email: Option<string>, file: WeakFile) returns (r: Checked)
      modifies this
      ensures BlankOpt(value) ==> r == Errors([]) && commonPasswords == old(commonPasswords)
      ensures !BlankOpt(value) ==>
        && commonPasswords.Some?
        && (old(commonPasswords).Some? ==> commonPasswords == old(commonPasswords))
        && (old(commonPasswords).None? ==> commonPasswords == Some(LoadCommon(file)))
      ensures r.Raises? <==> !BlankOpt(value) && EmailUnreadable(email)
      ensures r.Errors? && !BlankOpt(value) ==> r.errors == Broken(value.value, email, commonPasswords.value)
    {
      if BlankOpt(value) {
        return Errors([]);
      }
      var common := CommonPasswords(file);
      r := Collect(value, email, common);
    }
  }

  /** `error_message`: the Russian text added to the record for each error. */
  function Message(e: PasswordError): string {
    match e
    case TooShort => "слишком короткий (минимум 6 символов)"
    case NoUppercase => "должен содержать хотя бы одну заглавную букву"
    case NoLowercase => "должен содержать хотя бы одну строчную букву"
    case NoNumber => "должен содержать хотя бы одну цифру"
    case HasRepeating => "не должен содержать три одинаковых символа подряд"
    case HasSequential => "не должен содержать последовательные символы (123, abc, qwe)"
    case TooCommon => "слишком простой или часто используемый"
    case ContainsEmail => "не должен содержать ваш email"
  }

  /** The messages of a list of errors, one each, in the same order. */
  function Messages(errors: seq<PasswordError>): (m: seq<string>)
    ensures |m| == |errors|
    ensures forall i | 0 <= i < |errors| :: m[i] == Message(errors[i])
  {
    if errors == [] then [] else Messages(errors[..|errors| - 1]) + [Message(errors[|errors| - 1])]
  }

  /** `errors.each { |error| record.errors.add(attribute, error_message(error)) }`. */
  method AddMessages(recordErrors: seq<string>, errors: seq<PasswordError>) returns (out: seq<string>)
    ensures out == recordErrors + Messages(errors)
  {
    out := recordErrors;
    var i := 0;
    while i < |errors|
      invariant 0 <= i <= |errors|
      invariant out == recordErrors + Messages(errors[..i])
    {
      assert errors[..i + 1][..i] == errors[..i];
      out := out + [Message(errors[i])];
      i := i + 1;
    }
    assert errors[..|errors|] == errors;
  }

  // ---------------------------------------------------------------- lemmas

  /** Rule order is a total order: two errors of the same rank are the same error. */
  lemma RankInjective(a: PasswordError, b: PasswordError)
    ensures Rank(a) == Rank(b) ==> a == b
  {
  }

  /** Two lists with the same members are both empty or both not. */
  lemma SameMembersEmpty(a: seq<PasswordError>, b: seq<PasswordError>)
    requires forall e :: e in a <==> e in b
    ensures a == [] <==> b == []
  {
    if a != [] {
      assert a[0] in a;
    }
    if b != [] {
      assert b[0] in b;
    }
  }

  /** In an ordered list the head ranks lowest and the tail holds every other member. */
  lemma OrderedHead(a: seq<PasswordError>, e: PasswordError)
    requires Ordered(a) && a != []
    ensures e in a ==> Rank(a[0]) <= Rank(e)
    ensures e in a[1..] <==> e in a && e != a[0]
  {
    if e in a {
      var k :| 0 <= k < |a| && a[k] == e;
      if k > 0 {
        assert Rank(a[0]) < Rank(a[k]);
        assert a[k] == a[1..][k - 1];
      }
    }
    if e in a[1..] {
      var k :| 0 <= k < |a[1..]| && a[1..][k] == e;
      assert Rank(a[0]) < Rank(a[k + 1]);
    }
  }

  /**
   * The error list is determined by the set of broken rules: two ordered
   * lists with the same members are equal.
   */
  lemma {:induction false} OrderedUnique(a: seq<PasswordError>, b: seq<PasswordError>)
    requires Ordered(a) && Ordered(b)
    requires forall e :: e in a <==> e in b
    ensures a == b
  {
    SameMembersEmpty(a, b);
    if a != [] {
      OrderedHead(a, b[0]);
      OrderedHead(b, a[0]);
      RankInjective(a[0], b[0]);
      forall e
        ensures e in a[1..] <==> e in b[1..]
      {
        OrderedHead(a, e);
        OrderedHead(b, e);
      }
      OrderedUnique(a[1..], b[1..]);
      assert a == [a[0]] + a[1..] && b == [b[0]] + b[1..];
    }
  }

  /**
   * The errors of a non-blank password are characterised by the rules alone:
   * a list is `Broken` exactly when it names every broken rule and nothing
   * else, in rule order.
   */
  lemma BrokenCharacterised(s: string, email: Option<string>, common: set<string>, errors: seq<PasswordError>)
    ensures errors == Broken(s, email, common) <==>
      Ordered(errors) && forall e :: e in errors <==> Fails(e, s, email, common)
  {
    BrokenMembers(s, email, common);
    BrokenOrdered(s, email, common);
    if Ordered(errors) && forall e :: e in errors <==> Fails(e, s, email, common) {
      OrderedUnique(errors, Broken(s, email, common));
    }
  }

  /** A run of three line breaks is not a repetition: `.` does not match them. */
  lemma LineBreaksNotARun(s: string)
    requires forall i | 0 <= i < |s| :: s[i] == '\n'
    ensures !HasRun(s)
  {
  }

  /** Any character other than a line break, written three times anywhere, is a run. */
  lemma RunAnywhere(p: string, c: char, q: string)
    requires c != '\n'
    ensures HasRun(p + [c, c, c] + q)
  {
    assert RunAt(p + [c, c, c] + q, |p|);
  }

  /** A repetition survives anything written around it. */
  lemma {:induction false} RunSurvivesExtension(p: string, s: string, q: string)
    requires HasRun(s)
    ensures HasRun(p + s + q)
  {
    var i :| 0 <= i < |s| && RunAt(s, i);
    var t := p + s + q;
    assert t[|p| + i] == s[i] && t[|p| + i + 1] == s[i + 1] && t[|p| + i + 2] == s[i + 2];
    assert RunAt(t, |p| + i);
  }

  /** A lower-case letter goes back to itself through `upcase` then `downcase`. */
  lemma LowerUpperChar(c: char)
    requires LowerChar(c) == c
    ensures LowerChar(UpperChar(c)) == c
  {
  }

  /** `capitalize` on a lower-case word. */
  function Capitalize(w: string): (r: string)
    ensures |r| == |w|
  {
    if w == [] then [] else [UpperChar(w[0])] + w[1..]
  }

  /** A common password written with a capital first letter is still rejected as common. */
  lemma CapitalisedCommonRejected(w: string, common: set<string>)
    requires w in common && Lower(w) == w
    ensures IsCommon(Capitalize(w), common)
  {
    var c := Capitalize(w);
    if w != [] {
      assert LowerChar(w[0]) == Lower(w)[0] == w[0];
      LowerUpperChar(w[0]);
      assert forall i | 0 <= i < |w| :: LowerChar(w[i]) == w[i] by {
        forall i | 0 <= i < |w| ensures LowerChar(w[i]) == w[i] {
          assert Lower(w)[i] == LowerChar(w[i]);
        }
      }
      assert Lower(c) == w;
    }
  }

  /** `downcase` leaves a lower-case Latin word with digits unchanged. */
  lemma LowerOfLowerAscii(w: string)
    requires forall i | 0 <= i < |w| :: 'a' <= w[i] <= 'z' || IsDigit(w[i])
    ensures Lower(w) == w
  {
  }

  /** Every default entry is already lower case, so its capitalised form is rejected too. */
  lemma DefaultsLowerCase(w: string)
    requires w in DefaultCommon
    ensures Lower(w) == w
    ensures IsCommon(Capitalize(w), DefaultCommon)
  {
    assert forall i | 0 <= i < |w| :: 'a' <= w[i] <= 'z' || IsDigit(w[i]);
    LowerOfLowerAscii(w);
    CapitalisedCommonRejected(w, DefaultCommon);
  }

  /** `split('@').first` of an email whose local part `name` is free of '@'. */
  lemma LocalPart(name: string, domain: string)
    requires name != [] && '@' !in name
    ensures SplitFirst(name + "@" + domain, '@') == Some(name)
  {
    var e := name + "@" + domain;
    assert e[0] == name[0] != '@';
    var n := SplitFirst(e, '@').value;
    assert e[|name|] == '@';
    assert forall i | 0 <= i < |name| :: e[i] == name[i];
    assert |n| == |name|;
    assert n == e[..|name|] == name;
  }

  /**
   * For an email `name@domain`, the password is rejected exactly when the
   * local part is longer than two characters and appears in it, case
   * ignored.
   */
  lemma EmailRule(s: string, name: string, domain: string)
    requires name != [] && '@' !in name
    ensures !EmailUnreadable(Some(name + "@" + domain))
    ensures ContainsEmailName(s, Some(name + "@" + domain)) <==> |name| > 2 && Contains(Lower(s), Lower(name))
  {
    var e := name + "@" + domain;
    LocalPart(name, domain);
    assert !Blank(e) by {
      assert e[|name|] == '@' && !IsUnicodeSpace('@');
    }
  }

  /** The validator raises exactly on an email made of '@' signs only. */
  lemma UnreadableIff(e: string)
    ensures EmailUnreadable(Some(e)) <==> e != [] && forall i | 0 <= i < |e| :: e[i] == '@'
  {
    if e != [] && forall i | 0 <= i < |e| :: e[i] == '@' {
      assert !Blank(e) by {
        assert e[0] == '@' && !IsUnicodeSpace('@');
      }
    }
  }

  /** A pattern anywhere in the password, in any case, is a sequence. */
  lemma PatternAt(s: string, i: nat, p: string)
    requires p in SequentialPatterns && i + |p| <= |s|
    requires Lower(s)[i..i + |p|] == p
    ensures HasSequence(s)
  {
    assert OccursAt(Lower(s), p, i);
  }

  /**
   * A word whose lower-case form is a listed sequence (a digit run, an
   * alphabet run, a keyboard run) makes any password that contains it, in
   * any case and at any place, a sequence.
   */
  lemma SequenceAnywhereAnyCase(a: string, w: string, b: string)
    requires Lower(w) in SequentialPatterns
    ensures HasSequence(a + w + b)
  {
    LowerAppend(a, w);
    LowerAppend(a + w, b);
    var l := Lower(a) + Lower(w) + Lower(b);
    assert l[|a|..|a| + |w|] == Lower(w);
    PatternAt(a + w + b, |a|, Lower(w));
  }

  /** `downcase` works character by character, so it distributes over concatenation. */
  lemma LowerAppend(x: string, y: string)
    ensures Lower(x + y) == Lower(x) + Lower(y)
  {
    assert forall k | 0 <= k < |x| + |y| :: (x + y)[k] == if k < |x| then x[k] else y[k - |x|];
  }
}

=== FILE: records.dfy ===
/**
 * The equipment and installation records of one system, the rules the
 * models validate before a save, the `before_save` stamp of
 * `last_action_date`, and the per-system differences gathered in a `Policy`.
 */
module Records {
  import opened Text
  import opened Enums

  type Id = nat
  type UserId = nat

  /** A point in time (`Time.current`); `Time.at(0)` is 0. */
  type Time = int

  /** One row of `cute_equipments`, `fids_equipments` or `zamar_equipments`. */
  datatype Equipment = Equipment(
    etype: Option<string>,           // equipment_type: an enum key, or free text for FIDS
    typeRef: Option<Id>,             // equipment_type_ref_id, into the type catalog
    model: Option<string>,           // equipment_model
    serial: Option<string>,          // serial_number
    inventory: Option<string>,       // inventory_number
    note: Option<string>,
    status: Status,
    installation: Option<Id>,        // the installation it is bound to; None = in the warehouse
    owner: Option<UserId>,           // user_id
    lastChangedBy: Option<UserId>,   // last_changed_by_id
    lastActionDate: Option<Time>,
    createdAt: Time)

  /** One row of `cute_installations`, `fids_installations` or `zamar_installations`. */
  datatype Installation = Installation(
    name: Option<string>,
    installationType: Option<string>,
    typeRef: Option<Id>,             // installation_type_ref_id
    identifier: Option<string>,
    terminal: Option<int>,           // the integer column behind the terminal enum
    owner: Option<UserId>)

  /** The two tables of one system. */
  datatype Table = Table(equipment: map<Id, Equipment>, installations: map<Id, Installation>)

  /** What one system's models and binding controller do differently from the others. */
  datatype Policy = Policy(
    system: System,
    typeEnum: Option<seq<(string, nat)>>, // None: equipment_type is free text of at most 100 characters
    serialRequired: bool,
    serialUnique: bool,
    inventoryUnique: bool,
    identifierPerOwner: bool,             // installation identifier unique per user rather than globally
    installationOwned: bool,              // installations `belongs_to :user` without `optional`
    terminalEnum: bool,                   // installations map `terminal` through the enum and have `terminal_name`
    duplicateTypeCheck: bool,             // attach refuses a second equipment of the same type (non-admins)
    attachSetsStatus: bool,               // attach/detach set status, last_changed_by and last_action_date
    attachSetsOwner: bool)                // attach/detach overwrite user with the acting user

  function PolicyOf(s: System): Policy {
    match s
    case Cute => Policy(Cute, Some(CuteTypes), false, false, true, true, true, false, true, true, false)
    case Fids => Policy(Fids, None, false, false, false, false, false, true, false, false, true)
    case Zamar => Policy(Zamar, Some(ZamarTypes), true, true, true, false, false, true, false, false, true)
  }

  /** How a controller action ends, and the HTTP status it answers with. */
  datatype Reply =
    | Ok
    | BadRequest            // 400: no serial number / nothing selected
    | Forbidden             // redirect back: the role may not delete
    | InstallationMissing   // 404 from `find`
    | EquipmentMissing      // 404: no such equipment, or not in the required binding state
    | DuplicateType         // 422: the installation already has equipment of that type
    | Invalid               // 422: a validation failed
    | ServerError           // 500: an exception the action does not rescue

  function HttpStatus(r: Reply): (code: nat)
    ensures code == 200 <==> r.Ok?
    ensures code == 422 <==> r.DuplicateType? || r.Invalid?
  {
    match r
    case Ok => 200
    case BadRequest => 400
    case Forbidden => 302
    case InstallationMissing => 404
    case EquipmentMissing => 404
    case DuplicateType => 422
    case Invalid => 422
    case ServerError => 500
  }

  // ------------------------------------------------------------ validations

  /**
   * An enum attribute accepts its own keys and blank values (which it reads
   * as nil); assigning anything else raises.
   */
  predicate TypeAssignable(p: Policy, etype: Option<string>) {
    etype.None? || p.typeEnum.None? || Blank(etype.value) || etype.value in EnumKeys(p.typeEnum.value)
  }

  /** The presence and length validations of an equipment model. */
  predicate FieldsValid(p: Policy, e: Equipment) {
    && Present(e.etype)
    && (p.typeEnum.None? ==> MaxLen(e.etype, 100))
    && MaxLen(e.model, 255)
    && Present(e.inventory) && MaxLen(e.inventory, 100)
    && (p.serialRequired ==> Present(e.serial))
    && MaxLen(e.serial, 100)
    && MaxLen(e.note, 2000)
  }

  /** The uniqueness validations: no other row holds the same inventory (or serial) number. */
  predicate UniqueIn(p: Policy, eqs: map<Id, Equipment>, id: Id, e: Equipment) {
    && (p.inventoryUnique ==> forall o | o in eqs && o != id :: eqs[o].inventory != e.inventory)
    && (p.serialUnique ==> forall o | o in eqs && o != id :: eqs[o].serial != e.serial)
  }

  /** The presence, length and uniqueness validations of an installation model, and its required owner. */
  predicate InstallationValid(p: Policy, insts: map<Id, Installation>, id: Id, inst: Installation) {
    && (p.installationOwned ==> inst.owner.Some?)
    && Present(inst.name) && MaxLen(inst.name, 255)
    && Present(inst.installationType) && MaxLen(inst.installationType, 100)
    && MaxLen(inst.identifier, 100)
    && (Present(inst.identifier) ==>
          forall o | o in insts && o != id ::
            !(insts[o].identifier == inst.identifier && (p.identifierPerOwner ==> insts[o].owner == inst.owner)))
  }

  /**
   * A stored equipment row satisfies its model's rules, went through
   * `strip_attributes` and `nilify_blanks`, and points at an existing
   * installation.
   */
  predicate EquipmentValid(p: Policy, t: Table, id: Id)
    requires id in t.equipment
  {
    var e := t.equipment[id];
    && Normalized(e)
    && TypeAssignable(p, e.etype)
    && FieldsValid(p, e)
    && UniqueIn(p, t.equipment, id, e)
    && (e.installation.Some? ==> e.installation.value in t.installations)
  }

  /** The enum keys are identifiers: `strip_attributes` leaves them as they are. */
  predicate KeysTidy(p: Policy) {
    p.typeEnum.Some? ==> forall i | 0 <= i < |p.typeEnum.value| :: Tidied(Some(p.typeEnum.value[i].0))
  }

  /** The three systems' equipment type enums have tidy keys. */
  lemma PolicyKeysTidy(s: System)
    ensures KeysTidy(PolicyOf(s))
  {
  }

  /** The invariant every saved state keeps, under a policy whose enum keys are tidy. */
  predicate TableValid(p: Policy, t: Table) {
    && KeysTidy(p)
    && (forall id | id in t.equipment :: EquipmentValid(p, t, id))
    && (forall id | id in t.installations :: InstallationValid(p, t.installations, id, t.installations[id]))
  }

  // ------------------------------------------------------------------ saving

  /** Every string column of the row is as `strip_attributes` and `nilify_blanks` leave it. */
  predicate Normalized(e: Equipment) {
    Tidied(e.etype) && Tidied(e.model) && Tidied(e.serial) && Tidied(e.inventory) && Tidied(e.note)
  }

  /**
   * The `before_validation` callback of `strip_attributes`, then
   * `nilify_blanks`: each string column loses its padding, and one left
   * empty becomes nil. The other columns are untouched.
   */
  function Normalize(e: Equipment): (r: Equipment)
    ensures Normalized(r)
    ensures Normalized(e) ==> r == e
    ensures r.etype == Tidy(e.etype) && r.model == Tidy(e.model) && r.serial == Tidy(e.serial)
    ensures r.inventory == Tidy(e.inventory) && r.note == Tidy(e.note)
    ensures r.(etype := e.etype, model := e.model, serial := e.serial, inventory := e.inventory, note := e.note) == e
  {
    e.(etype := Tidy(e.etype), model := Tidy(e.model), serial := Tidy(e.serial),
       inventory := Tidy(e.inventory), note := Tidy(e.note))
  }

  /**
   * `before_save :update_last_action_date`: when the row to be written differs
   * from the stored one (`changed?`), `last_action_date` becomes `now`.
   */
  function Touch(stored: Option<Equipment>, e: Equipment, now: Time): Equipment {
    if stored == Some(e) then e else e.(lastActionDate := Some(now))
  }

  function Stored(eqs: map<Id, Equipment>, id: Id): Option<Equipment> {
    if id in eqs then Some(eqs[id]) else None
  }

  /** A row that differs from `e` only outside the text columns normalises to `Normalize(e)` with those differences. */
  lemma NormalizeStamped(e: Equipment, x: Equipment)
    requires x.etype == e.etype && x.model == e.model && x.serial == e.serial
    requires x.inventory == e.inventory && x.note == e.note
    ensures Normalize(x) == Normalize(e).(status := x.status, installation := x.installation, owner := x.owner,
                                          lastChangedBy := x.lastChangedBy, lastActionDate := x.lastActionDate,
                                          typeRef := x.typeRef, createdAt := x.createdAt)
  {
  }

  /**
   * `save`: enum assignment, then `strip_attributes` and `nilify_blanks`,
   * then validations (false and 422) on the normalised row, then the foreign
   * key of the installation (an exception), then the write with the
   * `before_save` stamp, which compares the normalised row with the stored one.
   */
  function Save(p: Policy, t: Table, id: Id, e: Equipment, now: Time): (r: (Table, Reply))
    ensures r.1 in {Ok, Invalid, ServerError}
    ensures r.1 != Ok ==> r.0 == t
    ensures r.1 == Invalid <==>
      TypeAssignable(p, e.etype) && !(FieldsValid(p, Normalize(e)) && UniqueIn(p, t.equipment, id, Normalize(e)))
    ensures r.1 == Ok ==>
      && r.0.installations == t.installations
      && r.0.equipment.Keys == t.equipment.Keys + {id}
      && (forall o | o in t.equipment && o != id :: r.0.equipment[o] == t.equipment[o])
      && r.0.equipment[id].(lastActionDate := e.lastActionDate) == Normalize(e)
      && (r.0.equipment[id].lastActionDate == Some(now) || Stored(t.equipment, id) == Some(Normalize(e)))
  {
    if !TypeAssignable(p, e.etype) then (t, ServerError)
    else
      var n := Normalize(e);
      if !(FieldsValid(p, n) && UniqueIn(p, t.equipment, id, n)) then (t, Invalid)
      else if n.installation.Some? && n.installation.value !in t.installations then (t, ServerError)
      else (t.(equipment := t.equipment[id := Touch(Stored(t.equipment, id), n, now)]), Ok)
  }

  /**
   * The uniqueness check sees the stripped value: an inventory number that
   * differs from a stored one only by padding is refused.
   */
  lemma PaddedDuplicateRefused(p: Policy, t: Table, id: Id, e: Equipment, now: Time, o: Id, a: string, b: string)
    requires p.inventoryUnique && TypeAssignable(p, e.etype)
    requires o in t.equipment && o != id && t.equipment[o].inventory.Some? && Tidied(t.equipment[o].inventory)
    requires forall i | 0 <= i < |a| :: IsPadding(a[i])
    requires forall i | 0 <= i < |b| :: IsPadding(b[i])
    requires e.inventory == Some(a + t.equipment[o].inventory.value + b)
    ensures Save(p, t, id, e, now) == (t, Invalid)
  {
    TidyPadded(a, t.equipment[o].inventory.value, b);
    assert Normalize(e).inventory == t.equipment[o].inventory;
  }

  /** A successful save keeps every stored row valid. */
  lemma SavePreservesValid(p: Policy, t: Table, id: Id, e: Equipment, now: Time)
    requires TableValid(p, t)
    ensures TableValid(p, Save(p, t, id, e, now).0)
  {
    var (t', reply) := Save(p, t, id, e, now);
    if reply == Ok {
      forall o | o in t'.equipment
        ensures EquipmentValid(p, t', o)
      {
        SavedRowValid(p, t, id, e, now, o);
      }
    }
  }

  /** After a successful save, any one row of the new table is valid. */
  lemma SavedRowValid(p: Policy, t: Table, id: Id, e: Equipment, now: Time, o: Id)
    requires TableValid(p, t) && Save(p, t, id, e, now).1 == Ok
    requires o in Save(p, t, id, e, now).0.equipment
    ensures EquipmentValid(p, Save(p, t, id, e, now).0, o)
  {
    var t' := Save(p, t, id, e, now).0;
    if o == id {
      TidyKeyAssignable(p, e);
    } else {
      assert EquipmentValid(p, t, o);
      assert t'.equipment[o] == t.equipment[o];
    }
  }

  /** An enum key the type column accepts is still accepted once tidied: the keys are tidy. */
  lemma TidyKeyAssignable(p: Policy, e: Equipment)
    requires KeysTidy(p) && TypeAssignable(p, e.etype)
    ensures TypeAssignable(p, Normalize(e).etype)
  {
    if e.etype.Some? && p.typeEnum.Some? && !Blank(e.etype.value) {
      var keys := p.typeEnum.value;
      var i :| 0 <= i < |keys| && keys[i].0 == e.etype.value;
      assert Tidied(Some(keys[i].0));
    }
  }

  // ------------------------------------------------------------ derived data

  /** The equipment bound to an installation (`installation.cute_equipments`). */
  function BoundTo(t: Table, inst: Id): set<Id> {
    set id | id in t.equipment && t.equipment[id].installation == Some(inst)
  }

  /** `equipment_count`. */
  function EquipmentCount(t: Table, inst: Id): nat {
    |BoundTo(t, inst)|
  }

  /** The equipment bound to nothing: the warehouse. */
  function Warehouse(t: Table): set<Id> {
    set id | id in t.equipment && t.equipment[id].installation.None?
  }

  /** The equipment bound to some installation. */
  function Bound(t: Table): set<Id> {
    set id | id in t.equipment && t.equipment[id].installation.Some?
  }

  /** Every row is either in the warehouse or bound, never both. */
  lemma WarehousePartition(t: Table)
    ensures Warehouse(t) !! Bound(t)
    ensures Warehouse(t) + Bound(t) == t.equipment.Keys
    ensures |Warehouse(t)| + |Bound(t)| == |t.equipment|
  {
    assert Warehouse(t) + Bound(t) == t.equipment.Keys;
  }

  /** `not_decommissioned`. */
  predicate NotDecommissioned(e: Equipment) {
    e.status != Decommissioned
  }

  /**
   * `ordered`: `ORDER BY last_action_date DESC, created_at DESC`. PostgreSQL
   * sorts NULL above every date in a descending order, so rows never acted on
   * come first. `ListedNoLater(a, b)`: `a` may be listed before `b`.
   */
  predicate ListedNoLater(a: Equipment, b: Equipment) {
    if a.lastActionDate == b.lastActionDate then a.createdAt >= b.createdAt
    else a.lastActionDate.None? || (b.lastActionDate.Some? && a.lastActionDate.value > b.lastActionDate.value)
  }

  /** The listing order is total and transitive, so `ordered` is a well-defined sort. */
  lemma ListedOrderTotalPreorder(a: Equipment, b: Equipment, c: Equipment)
    ensures ListedNoLater(a, b) || ListedNoLater(b, a)
    ensures ListedNoLater(a, b) && ListedNoLater(b, c) ==> ListedNoLater(a, c)
  {
  }

  // --------------------------------------------------------------- terminals

  /** The enum key of a stored terminal integer, if it has one. */
  function TerminalKey(code: int): (r: Option<string>)
    ensures r.Some? <==> 0 <= code < 6
  {
    if 0 <= code < 6 then Some(TerminalKeys[code]) else None
  }

  /**
   * `terminal_name`: nil without a (known) terminal, otherwise the part of the
   * enum key after its last underscore, upper-cased.
   */
  function TerminalName(inst: Installation): (r: Option<string>)
    ensures r.Some? <==> inst.terminal.Some? && 0 <= inst.terminal.value < 6
  {
    if inst.terminal.None? then None
    else
      match TerminalKey(inst.terminal.value)
      case None => None
      case Some(key) =>
        var last := SplitLast(key, '_');
        if last.None? then None else Some(Upper(last.value))
  }

  /** `terminal_name` of the terminal stored as `k` is the k-th letter, `A` for `terminal_a`. */
  lemma TerminalNameIsLetter(inst: Installation)
    requires inst.terminal.Some? && 0 <= inst.terminal.value < 6
    ensures TerminalName(inst) == Some(TerminalLetters[inst.terminal.value])
  {
    var k := inst.terminal.value;
    if k == 0 { NameOfKey(inst, TerminalKeys[0], 'a', 'A'); }
    else if k == 1 { NameOfKey(inst, TerminalKeys[1], 'b', 'B'); }
    else if k == 2 { NameOfKey(inst, TerminalKeys[2], 'c', 'C'); }
    else if k == 3 { NameOfKey(inst, TerminalKeys[3], 'd', 'D'); }
    else if k == 4 { NameOfKey(inst, TerminalKeys[4], 'e', 'E'); }
    else { NameOfKey(inst, TerminalKeys[5], 'f', 'F'); }
  }

  /** An installation whose terminal key is `terminal_<c>` is named by `c` in upper case. */
  lemma NameOfKey(inst: Installation, key: string, c: char, upper: char)
    requires inst.terminal.Some? && TerminalKey(inst.terminal.value) == Some(key)
    requires key == "terminal_" + [c] && 'a' <= c <= 'z' && upper as int == c as int - 32
    ensures TerminalName(inst) == Some([upper])
  {
    KeyLetter(key, c, upper);
  }

  /** The last `_`-separated field of `terminal_<c>`, upper-cased. */
  lemma KeyLetter(key: string, c: char, upper: char)
    requires key == "terminal_" + [c] && 'a' <= c <= 'z' && upper as int == c as int - 32
    ensures SplitLast(key, '_') == Some([c])
    ensures Upper([c]) == [upper]
  {
    SplitLastSingle("terminal_", c, '_');
  }

  /** The terminal of the installation an equipment is bound to (`equipment.terminal`). */
  function EquipmentTerminal(t: Table, e: Equipment): (r: Option<int>)
    ensures r.Some? ==> e.installation.Some? && e.installation.value in t.installations
  {
    if e.installation.Some? && e.installation.value in t.installations
    then t.installations[e.installation.value].terminal
    else None
  }
}

=== FILE: repair_number.dfy ===
/**
 * The human-readable number of a repair batch, `REP-<year>-NNN`, generated
 * before the first validation of a new batch. Two generators live here: the
 * one `generate_repair_number` implements, which picks the previous number as
 * the greatest string and so stalls once a year reaches batch 1000, and a
 * corrected one that reads the previous number through its numeric suffix.
 */
module RepairNumber {
  import opened Text

  /** `"REP-#{year}-"`. */
  function Prefix(year: nat): (p: string)
    ensures |p| >= 6 && p[|p| - 1] == '-' && p[..4] == "REP-"
  {
    "REP-" + NatToString(year) + "-"
  }

  /** The numbers `LIKE 'REP-<year>-%'` matches. */
  function SameYear(numbers: set<string>, year: nat): set<string> {
    set n | n in numbers && StartsWith(n, Prefix(year))
  }

  /** `number.split("-").last.to_i`; `nil.to_i` is 0. */
  function Suffix(number: string): (k: nat) {
    var seg := SplitLast(number, '-');
    if seg.None? then 0
    else
      ToINonNegative(seg.value);
      ToI(seg.value)
  }

  /** Every number the generators produce: the prefix, then at least three digits. */
  function NumberFor(year: nat, k: nat): (r: string)
    ensures StartsWith(r, Prefix(year))
  {
    Prefix(year) + Format03(k)
  }

  /** Whatever follows the last separator, when it is non-empty and free of separators. */
  lemma SplitLastAfterSep(p: string, d: string, sep: char)
    requires p != [] && p[|p| - 1] == sep && d != [] && sep !in d
    ensures SplitLast(p + d, sep) == Some(d)
  {
    var s := p + d;
    assert s[|s| - 1] == d[|d| - 1];
    var v := SplitLast(s, sep).value;
    assert forall i | |s| - |v| <= i < |s| :: s[i] == v[i - (|s| - |v|)];
    assert s[|p| - 1] == sep;
    assert |v| <= |d|;
    assert forall i | |p| <= i < |s| :: s[i] == d[i - |p|];
    assert forall i | |p| <= i < |s| :: s[i] != sep;
    assert |v| == |d|;
    assert v == s[|p|..] == d;
  }

  /** The suffix of a generated number reads back as the counter it was generated from. */
  lemma SuffixOfNumberFor(year: nat, k: nat)
    ensures Suffix(NumberFor(year, k)) == k
  {
    var d := Format03(k);
    assert '-' !in d by {
      assert forall i | 0 <= i < |d| :: IsDigit(d[i]);
    }
    SplitLastAfterSep(Prefix(year), d, '-');
    Format03RoundTrip(k);
  }

  /** The numeric suffixes of a set of numbers. */
  function Suffixes(numbers: set<string>): (r: set<nat>)
    ensures forall n | n in numbers :: Suffix(n) in r
    ensures forall k | k in r :: exists n | n in numbers :: Suffix(n) == k
    ensures numbers != {} ==> r != {}
  {
    set n | n in numbers :: Suffix(n)
  }

  /**
   * The corrected generator: one past the largest numeric suffix among this
   * year's numbers, or 001 for the first batch of the year.
   */
  function NextNumber(numbers: set<string>, year: nat): (r: string)
    ensures StartsWith(r, Prefix(year))
  {
    var same := SameYear(numbers, year);
    if same == {} then NumberFor(year, 1)
    else NumberFor(year, MaxOf(Suffixes(same)) + 1)
  }

  /** The generated number is always free, so the uniqueness validation never rejects it. */
  lemma NextNumberFresh(numbers: set<string>, year: nat)
    ensures NextNumber(numbers, year) !in numbers
  {
    var same := SameYear(numbers, year);
    var r := NextNumber(numbers, year);
    if same != {} {
      var m := MaxOf(Suffixes(same));
      SuffixOfNumberFor(year, m + 1);
      assert r !in same;
    } else {
      assert r !in same;
    }
  }

  /** The batches of one year numbered 1 to m, as the generator hands them out. */
  function Sequential(year: nat, m: nat): set<string> {
    set k | 1 <= k <= m :: NumberFor(year, k)
  }

  /** Every number of the sequence belongs to its year. */
  lemma SequentialSameYear(year: nat, m: nat)
    ensures SameYear(Sequential(year, m), year) == Sequential(year, m)
  {
  }

  /** The suffixes of the numbers 001..m are 1..m. */
  lemma SequentialSuffixes(year: nat, m: nat)
    ensures forall n | n in Sequential(year, m) :: 1 <= Suffix(n) <= m
  {
    forall n | n in Sequential(year, m)
      ensures 1 <= Suffix(n) <= m
    {
      var k :| 1 <= k <= m && n == NumberFor(year, k);
      SuffixOfNumberFor(year, k);
    }
  }

  /** The largest suffix among 001..m is m. */
  lemma SequentialMaxSuffix(year: nat, m: nat)
    requires m >= 1
    ensures Sequential(year, m) != {} && MaxOf(Suffixes(Sequential(year, m))) == m
  {
    var numbers := Sequential(year, m);
    assert NumberFor(year, m) in numbers;
    SequentialSuffixes(year, m);
    SuffixOfNumberFor(year, m);
    var suffixes := Suffixes(numbers);
    var top := MaxOf(suffixes);
    assert m in suffixes;
    assert top <= m by {
      var n :| n in numbers && Suffix(n) == top;
    }
  }

  /** After numbers 001..m the next one is m + 1, for every m. */
  lemma NextNumberSequential(year: nat, m: nat)
    ensures NextNumber(Sequential(year, m), year) == NumberFor(year, m + 1)
  {
    SequentialSameYear(year, m);
    if m >= 1 {
      SequentialMaxSuffix(year, m);
    }
  }

  // -------------------------------------------------------------- as written

  /**
   * The generator as the source writes it: the previous number is the last
   * one in `ORDER BY repair_number`, that is the greatest string.
   */
  function NextNumberAsWritten(numbers: set<string>, year: nat): (r: string)
    ensures StartsWith(r, Prefix(year))
  {
    var same := SameYear(numbers, year);
    if same == {} then Prefix(year) + "001"
    else NumberFor(year, Suffix(GreatestString(same)) + 1)
  }

  /** Only the numbers of the year count. */
  lemma AsWrittenReadsYear(numbers: set<string>, year: nat)
    ensures NextNumberAsWritten(numbers, year) == NextNumberAsWritten(SameYear(numbers, year), year)
  {
    assert SameYear(SameYear(numbers, year), year) == SameYear(numbers, year);
  }

  /** The proposed number passes the presence validation; only uniqueness can refuse it. */
  lemma AsWrittenPresent(numbers: set<string>, year: nat)
    ensures !Blank(NextNumberAsWritten(numbers, year))
  {
    var r := NextNumberAsWritten(numbers, year);
    assert r[..4] == Prefix(year)[..4] == "REP-";
    assert r[0] == 'R' && !IsUnicodeSpace(r[0]);
  }

  lemma {:induction false} NatToStringBelow1000(n: nat)
    requires n < 1000
    ensures |NatToString(n)| <= 3
  {
    if n >= 10 {
      NatToStringBelow1000(n / 10);
      if n / 10 < 10 {
        assert |NatToString(n / 10)| == 1;
      } else {
        assert |NatToString(n / 10 / 10)| == 1;
      }
    }
  }

  /** The value of a three-digit string, digit by digit. */
  lemma ThreeDigitsValue(s: string)
    requires |s| == 3 && AllDigits(s)
    ensures DigitsValue(s) == 100 * (s[0] as int - '0' as int) + 10 * (s[1] as int - '0' as int) + (s[2] as int - '0' as int)
  {
    var (v0, v1, v2) := (s[0] as int - '0' as int, s[1] as int - '0' as int, s[2] as int - '0' as int);
    assert s[..1][..0] == [];
    assert DigitsValue(s[..1]) == v0;
    assert s[..2][..1] == s[..1];
    assert DigitsValue(s[..2]) == v0 * 10 + v1;
    assert s[..2] == s[..|s| - 1];
  }

  /** For three-digit strings the string order is the numeric order. */
  lemma ThreeDigitsOrdered(a: string, b: string)
    requires |a| == 3 && AllDigits(a) && |b| == 3 && AllDigits(b)
    requires DigitsValue(a) <= DigitsValue(b)
    ensures LexLe(a, b)
  {
    ThreeDigitsValue(a);
    ThreeDigitsValue(b);
    var (a0, a1, a2) := (a[0] as int - '0' as int, a[1] as int - '0' as int, a[2] as int - '0' as int);
    var (b0, b1, b2) := (b[0] as int - '0' as int, b[1] as int - '0' as int, b[2] as int - '0' as int);
    assert a[1..][1..] == [a[2]] && b[1..][1..] == [b[2]];
    if a0 == b0 {
      if a1 == b1 {
        if a2 != b2 {
          assert LexLess(a[1..][1..], b[1..][1..]);
        } else {
          assert a == [a[0], a[1], a[2]] == [b[0], b[1], b[2]] == b;
        }
      }
    }
  }

  /** Below 1000 the padded counter has exactly three digits and reads back as itself. */
  lemma Format03Below1000(k: nat)
    requires k < 1000
    ensures |Format03(k)| == 3 && DigitsValue(Format03(k)) == k
  {
    var d := NatToString(k);
    NatToStringBelow1000(k);
    if |d| < 3 {
      DigitsValueZeros(3 - |d|, d);
    }
  }

  /**
   * Up to batch 999 of a year the generator as written hands out the same
   * numbers as the corrected one: 001, 002, and so on.
   */
  lemma AsWrittenAgreesBelow1000(year: nat, m: nat)
    requires m < 1000
    ensures NextNumberAsWritten(Sequential(year, m), year) == NextNumber(Sequential(year, m), year) == NumberFor(year, m + 1)
  {
    var numbers := Sequential(year, m);
    NextNumberSequential(year, m);
    SequentialSameYear(year, m);
    if m == 0 {
      assert numbers == {};
      assert Format03(1) == "001" by {
        assert NatToString(1) == "1";
      }
    } else {
      var top := NumberFor(year, m);
      assert top in numbers;
      Format03Below1000(m);
      forall n | n in numbers
        ensures LexLe(n, top)
      {
        var k :| 1 <= k <= m && n == NumberFor(year, k);
        Format03Below1000(k);
        ThreeDigitsOrdered(Format03(k), Format03(m));
        LexCommonPrefix(Prefix(year), Format03(k), Format03(m));
      }
      LexAntisymmetric();
      assert GreatestString(numbers) == top;
      SuffixOfNumberFor(year, m);
    }
  }

  /** Every three-digit string sorts no later than "999". */
  lemma ThreeDigitsAtMostNines(d: string)
    requires |d| == 3 && AllDigits(d)
    ensures LexLe(d, "999")
  {
    var n := "999";
    assert IsDigit(d[0]) && IsDigit(d[1]) && IsDigit(d[2]);
    assert d[1..][1..] == [d[2]] && n[1..][1..] == "9";
    if d[0] != '9' {
      assert LexLess(d, n);
    } else if d[1] != '9' {
      assert LexLess(d[1..], n[1..]);
    } else if d[2] != '9' {
      assert LexLess(d[1..][1..], n[1..][1..]);
      assert LexLess(d[1..], n[1..]);
    } else {
      assert d == [d[0], d[1], d[2]] == n;
    }
  }

  /** `format("%03d", 1000)` is "1000": the padding never truncates. */
  lemma Format03Thousand()
    ensures Format03(1000) == "1000"
  {
    assert DigitChar(0) == '0' && DigitChar(1) == '1';
    assert NatToString(1) == "1";
    assert NatToString(10) == "10";
    assert NatToString(100) == "100";
    assert NatToString(1000) == "1000";
  }

  /**
   * Once a year has batches 001 to 1000, "REP-Y-999" is the greatest string
   * ("1000" sorts before "999"), so the source proposes "REP-Y-1000" again: a
   * number that already exists, which the uniqueness validation rejects, on
   * every later attempt of that year.
   */
  lemma AsWrittenRepeatsAfter999(year: nat)
    ensures NextNumberAsWritten(Sequential(year, 1000), year) == NumberFor(year, 1000)
    ensures NextNumberAsWritten(Sequential(year, 1000), year) in Sequential(year, 1000)
  {
    var numbers := Sequential(year, 1000);
    var same := SameYear(numbers, year);
    var p := Prefix(year);
    assert same == numbers;
    var top := NumberFor(year, 999);
    assert Format03(999) == "999";
    assert top in same;
    forall n | n in same
      ensures LexLe(n, top)
    {
      var k :| 1 <= k <= 1000 && n == NumberFor(year, k);
      if k <= 999 {
        NatToStringBelow1000(k);
        ThreeDigitsAtMostNines(Format03(k));
        LexCommonPrefix(p, Format03(k), "999");
      } else {
        assert k == 1000;
        Format03Thousand();
        assert LexLess("1000", "999");
        LexCommonPrefix(p, "1000", "999");
      }
    }
    LexAntisymmetric();
    assert GreatestString(same) == top;
    SuffixOfNumberFor(year, 999);
    assert NumberFor(year, 1000) in numbers;
  }
}

=== FILE: repairs.dfy ===
/**
 * The repair workflow: sending a selection of equipment from any of the three
 * systems to repair as one batch with a snapshot item per selection, the
 * batch and item models, the list of equipment awaiting repair, and the
 * repair history of a serial number.
 */
module Repairs {
  import opened Text
  import opened Enums
  import opened Records
  import opened RepairNumber
  import opened Ordering

  /** One row of `repair_batches`. */
  datatype RepairBatch = RepairBatch(
    repairNumber: string,
    creator: Option<UserId>,
    equipmentCount: nat,
    status: Option<string>,
    createdAt: Time)

  /** One row of `repair_batch_items`: a snapshot of an equipment taken when it was sent. */
  datatype RepairBatchItem = RepairBatchItem(
    batch: Id,
    equipmentType: string,          // the class name, `CuteEquipment` ..
    equipmentId: Id,
    system: string,                 // `CUTE`, `FIDS` or `Zamar`
    serial: Option<string>,
    model: Option<string>,
    inventory: Option<string>,
    terminal: Option<string>,
    installationName: Option<string>,
    note: Option<string>,
    createdAt: Time)

  /** Everything the repair workflow reads or writes. */
  datatype Ledger = Ledger(
    cute: Table, fids: Table, zamar: Table,
    batches: map<Id, RepairBatch>,
    items: map<Id, RepairBatchItem>)

  function TableOf(l: Ledger, s: System): Table {
    match s
    case Cute => l.cute
    case Fids => l.fids
    case Zamar => l.zamar
  }

  function WithTable(l: Ledger, s: System, t: Table): (r: Ledger)
    ensures TableOf(r, s) == t
    ensures forall o: System | o != s :: TableOf(r, o) == TableOf(l, o)
    ensures r.batches == l.batches && r.items == l.items
  {
    match s
    case Cute => l.(cute := t)
    case Fids => l.(fids := t)
    case Zamar => l.(zamar := t)
  }

  /** Every system's table keeps its model's rules. */
  predicate TablesValid(l: Ledger) {
    forall s: System :: TableValid(PolicyOf(s), TableOf(l, s))
  }

  // ------------------------------------------------------------ batch model

  /** How a batch status reads in the interface. */
  datatype StatusText =
    | Label(text: string)     // one of the four known statuses
    | Humanized(raw: string)  // any other status: its `humanize`d form
    | Raises                  // a nil status: `nil.humanize` raises

  /** `status_text`. */
  function BatchStatusText(status: Option<string>): (r: StatusText)
    ensures r.Label? <==> status.Some? && status.value in {"sent", "in_progress", "received", "closed"}
    ensures r.Humanized? ==> status == Some(r.raw)
    ensures r.Raises? <==> status.None?
  {
    if status.None? then Raises
    else match status.value
      case "sent" => Label("Отправлено в ремонт")
      case "in_progress" => Label("В ремонте")
      case "received" => Label("Получено из ремонта")
      case "closed" => Label("Закрыто")
      case _ => Humanized(status.value)
  }

  /** The four labels are distinct, so the label names the status. */
  lemma BatchStatusTextInjective(a: string, b: string)
    requires BatchStatusText(Some(a)).Label? && BatchStatusText(Some(a)) == BatchStatusText(Some(b))
    ensures a == b
  {
  }

  const NeutralColor := "bg-gray-100 text-gray-800"

  /** `status_color`: closed and every unknown status share the neutral colour. */
  function BatchStatusColor(status: Option<string>): (r: string)
    ensures r == NeutralColor <==> !(status.Some? && status.value in {"sent", "in_progress", "received"})
  {
    if status == Some("sent") then "bg-yellow-100 text-yellow-800"
    else if status == Some("in_progress") then "bg-blue-100 text-blue-800"
    else if status == Some("received") then "bg-green-100 text-green-800"
    else NeutralColor
  }

  /** The repair numbers already taken. */
  function Numbers(batches: map<Id, RepairBatch>): set<string> {
    set id | id in batches :: batches[id].repairNumber
  }

  /** `validates :repair_number, presence: true, uniqueness: true` for a new batch. */
  predicate NewBatchValid(batches: map<Id, RepairBatch>, number: string) {
    !Blank(number) && number !in Numbers(batches)
  }

  /** Numbers from the corrected generator always pass the batch validations. */
  lemma GeneratedNumberValid(batches: map<Id, RepairBatch>, year: nat)
    ensures NewBatchValid(batches, NextNumber(Numbers(batches), year))
  {
    var n := NextNumber(Numbers(batches), year);
    NextNumberFresh(Numbers(batches), year);
    assert n[0] == 'R';
  }

  /** `dependent: :destroy`: deleting a batch deletes its items and nothing else. */
  function DestroyBatch(l: Ledger, id: Id): (r: Ledger)
    ensures r.batches == l.batches - {id}
    ensures forall i | i in r.items :: r.items[i].batch != id
    ensures forall i | i in l.items :: (i in r.items <==> l.items[i].batch != id)
    ensures forall i | i in r.items :: i in l.items && r.items[i] == l.items[i]
    ensures r.cute == l.cute && r.fids == l.fids && r.zamar == l.zamar
  {
    l.(batches := l.batches - {id},
       items := map i | i in l.items && l.items[i].batch != id :: l.items[i])
  }

  // ------------------------------------------------------------- item model

  /** `validates :equipment_type, :equipment_id, :system, presence: true`. */
  predicate ItemValid(item: RepairBatchItem) {
    !Blank(item.equipmentType) && !Blank(item.system)
  }

  /** What `item.equipment` finds. */
  datatype Source =
    | Live(e: Equipment)
    | Gone        // `find_by` finds nothing: the row was deleted
    | BadClass    // not one of the three equipment classes: `constantize` raises, or names an unrelated model

  /** `equipment`: `find_by` on the recorded class: nil once the row is gone. */
  function ItemEquipment(l: Ledger, item: RepairBatchItem): (r: Source)
    ensures r.BadClass? <==> SystemOfClassName(item.equipmentType).None?
    ensures r.Live? ==> var s := SystemOfClassName(item.equipmentType).value;
      item.equipmentId in TableOf(l, s).equipment && r.e == TableOf(l, s).equipment[item.equipmentId]
    ensures r.Gone? <==> (SystemOfClassName(item.equipmentType).Some?
      && item.equipmentId !in TableOf(l, SystemOfClassName(item.equipmentType).value).equipment)
  {
    match SystemOfClassName(item.equipmentType)
    case None => BadClass
    case Some(s) =>
      var t := TableOf(l, s);
      if item.equipmentId in t.equipment then Live(t.equipment[item.equipmentId]) else Gone
  }

  /** Deleting an equipment row leaves every snapshot as it was, and its items find nothing. */
  lemma SnapshotOutlivesEquipment(l: Ledger, s: System, id: Id, i: Id)
    requires i in l.items && l.items[i].equipmentType == ClassName(s) && l.items[i].equipmentId == id
    ensures var t := TableOf(l, s);
      var l' := WithTable(l, s, t.(equipment := t.equipment - {id}));
      && l'.items == l.items
      && ItemEquipment(l', l'.items[i]) == Gone
  {
  }

  /** `by_system`: a blank argument applies no filter. */
  function ItemsBySystem(items: map<Id, RepairBatchItem>, system: Option<string>): (r: set<Id>)
    ensures BlankOpt(system) ==> r == items.Keys
    ensures !BlankOpt(system) ==> forall i | i in items :: i in r <==> Some(items[i].system) == system
  {
    if BlankOpt(system) then items.Keys else set i | i in items && Some(items[i].system) == system
  }

  /** `by_serial`: a blank argument applies no filter. */
  function ItemsBySerial(items: map<Id, RepairBatchItem>, serial: Option<string>): (r: set<Id>)
    ensures BlankOpt(serial) ==> r == items.Keys
    ensures !BlankOpt(serial) ==> forall i | i in items :: i in r <==> items[i].serial == serial
  {
    if BlankOpt(serial) then items.Keys else set i | i in items && items[i].serial == serial
  }

  // ------------------------------------------------------------ create_batch

  /** One element of `params[:equipment_ids]`: a class name and a row id. */
  datatype Selection = Selection(kind: Option<string>, id: Id)

  /** The system a selection names, if its class name is one of the three. */
  function SystemOf(sel: Selection): (r: Option<System>)
    ensures r.Some? ==> sel.kind == Some(ClassName(r.value))
    ensures forall s: System :: sel.kind == Some(ClassName(s)) ==> r == Some(s)
  {
    if sel.kind.None? then None else SystemOfClassName(sel.kind.value)
  }

  /** The selection names a row that exists. */
  predicate Resolves(l: Ledger, sel: Selection) {
    SystemOf(sel).Some? && sel.id in TableOf(l, SystemOf(sel).value).equipment
  }

  /** The installation an equipment belongs to, if it still exists. */
  function InstallationOf(t: Table, e: Equipment): Option<Installation> {
    if e.installation.Some? && e.installation.value in t.installations
    then Some(t.installations[e.installation.value])
    else None
  }

  /**
   * The terminal written into an item: `terminal_name` of the installation.
   * FIDS and ZAMAR installations derive it from their terminal enum; a CUTE
   * installation defines no such method, so `cuteTerminal` stands for it.
   */
  function SnapshotTerminal(s: System, inst: Installation, cuteTerminal: Installation -> Option<string>): Option<string> {
    if PolicyOf(s).terminalEnum then TerminalName(inst) else cuteTerminal(inst)
  }

  /** The item recorded for equipment `e` of system `s`. */
  function Snapshot(t: Table, s: System, id: Id, e: Equipment, batch: Id, now: Time,
                    cuteTerminal: Installation -> Option<string>): (item: RepairBatchItem)
    ensures ItemValid(item)
    ensures item.equipmentType == ClassName(s) && item.system == SystemLabel(s)
    ensures item.serial == e.serial && item.model == e.model && item.inventory == e.inventory && item.note == e.note
  {
    var inst := InstallationOf(t, e);
    assert ClassName(s)[0] != ' ' && SystemLabel(s)[0] != ' ';
    RepairBatchItem(batch, ClassName(s), id, SystemLabel(s),
      e.serial, e.model, e.inventory,
      if inst.None? then None else SnapshotTerminal(s, inst.value, cuteTerminal),
      if inst.None? then None else inst.value.name,
      e.note, now)
  }

  /** What `update!(status: :waiting_repair, last_changed_by:, last_action_date:)` assigns. */
  function SentToRepair(e: Equipment, actor: UserId, now: Time): Equipment {
    e.(status := WaitingRepair, lastChangedBy := Some(actor), lastActionDate := Some(now))
  }

  /** The row `update!` leaves behind: the assignment, then `strip_attributes` on save. */
  function Sent(e: Equipment, actor: UserId, now: Time): Equipment {
    Normalize(SentToRepair(e, actor, now))
  }

  /** How far the loop over the selections got. */
  datatype Outcome =
    | Done(ledger: Ledger, created: seq<Id>)   // the new ledger and the ids of the new items
    | Failed(reply: Reply)

  /**
   * One pass of the loop: `constantize.find` (a missing class or row raises:
   * 500), the item, then `update!` (a failed validation: 422).
   */
  function Step(l: Ledger, batch: Id, sel: Selection, actor: UserId, now: Time,
                cuteTerminal: Installation -> Option<string>): (r: Outcome)
    ensures r.Failed? ==> r.reply in {ServerError, Invalid}
    ensures !Resolves(l, sel) ==> r == Failed(ServerError)
    ensures r.Done? ==> r.ledger.batches == l.batches
  {
    var sys := SystemOf(sel);
    if sys.None? then Failed(ServerError)
    else
      var s := sys.value;
      var t := TableOf(l, s);
      if sel.id !in t.equipment then Failed(ServerError)
      else
        var e := t.equipment[sel.id];
        var itemId := FreshKey(l.items.Keys);
        var item := Snapshot(t, s, sel.id, e, batch, now, cuteTerminal);
        var (t', reply) := Save(PolicyOf(s), t, sel.id, SentToRepair(e, actor, now), now);
        if reply != Ok then Failed(reply)
        else Done(WithTable(l, s, t').(items := l.items[itemId := item]), [itemId])
  }

  /** The loop over the selections, in order, stopping at the first failure. */
  function Run(l: Ledger, batch: Id, sels: seq<Selection>, actor: UserId, now: Time,
               cuteTerminal: Installation -> Option<string>): (r: Outcome)
    ensures r.Failed? ==> r.reply in {ServerError, Invalid}
    ensures r.Done? ==> r.ledger.batches == l.batches
    decreases |sels|
  {
    if sels == [] then Done(l, [])
    else
      match Run(l, batch, sels[..|sels| - 1], actor, now, cuteTerminal)
      case Failed(reply) => Failed(reply)
      case Done(l1, c1) =>
        match Step(l1, batch, sels[|sels| - 1], actor, now, cuteTerminal)
        case Failed(reply) => Failed(reply)
        case Done(l2, c2) => Done(l2, c1 + c2)
  }

  /** The batch `create_batch` opens. */
  function NewBatch(l: Ledger, sels: seq<Selection>, actor: UserId, year: nat, now: Time): RepairBatch {
    RepairBatch(NextNumberAsWritten(Numbers(l.batches), year), Some(actor), |sels|, Some("sent"), now)
  }

  /** The ledger once the new batch row is written, before the loop. */
  function BatchStart(l: Ledger, sels: seq<Selection>, actor: UserId, year: nat, now: Time): (r: Ledger)
    ensures forall s: System :: TableOf(r, s) == TableOf(l, s)
    ensures r.items == l.items
  {
    l.(batches := l.batches[FreshKey(l.batches.Keys) := NewBatch(l, sels, actor, year, now)])
  }

  /**
   * `create_batch`: 400 for an empty selection; otherwise, in one
   * transaction, the batch, then the loop; any failure rolls everything back.
   */
  function CreateBatchSpec(l: Ledger, sels: seq<Selection>, actor: UserId, year: nat, now: Time,
                           cuteTerminal: Installation -> Option<string>): (r: (Ledger, Reply))
    ensures r.1 in {Ok, BadRequest, Invalid, ServerError}
    ensures r.1 == BadRequest <==> sels == []
    ensures r.1 != Ok ==> r.0 == l
    ensures r.1 == Ok ==> r.0.batches == l.batches[FreshKey(l.batches.Keys) := NewBatch(l, sels, actor, year, now)]
    ensures sels != [] && NextNumberAsWritten(Numbers(l.batches), year) in Numbers(l.batches) ==> r.1 == Invalid
  {
    if sels == [] then (l, BadRequest)
    else
      var batch := NewBatch(l, sels, actor, year, now);
      if !NewBatchValid(l.batches, batch.repairNumber) then (l, Invalid)
      else
        match Run(BatchStart(l, sels, actor, year, now), FreshKey(l.batches.Keys), sels, actor, now, cuteTerminal)
        case Failed(reply) => (l, reply)
        case Done(l2, _) => (l2, Ok)
  }

  /** `create_batch` as the controller runs it: a loop over the selections. */
  method CreateBatch(l: Ledger, sels: seq<Selection>, actor: UserId, year: nat, now: Time,
                     cuteTerminal: Installation -> Option<string>) returns (l': Ledger, reply: Reply)
    ensures (l', reply) == CreateBatchSpec(l, sels, actor, year, now, cuteTerminal)
  {
    if sels == [] {
      return l, BadRequest;
    }
    var batch := NewBatch(l, sels, actor, year, now);
    if !NewBatchValid(l.batches, batch.repairNumber) {
      return l, Invalid;
    }
    var id := FreshKey(l.batches.Keys);
    var start := BatchStart(l, sels, actor, year, now);
    var cur := start;
    var created: seq<Id> := [];
    var i := 0;
    while i < |sels|
      invariant 0 <= i <= |sels|
      invariant Run(start, id, sels[..i], actor, now, cuteTerminal) == Done(cur, created)
    {
      var step := Step(cur, id, sels[i], actor, now, cuteTerminal);
      RunSnoc(start, id, sels, i, actor, now, cuteTerminal);
      if step.Failed? {
        RunStopsAtFailure(start, id, sels, i + 1, actor, now, cuteTerminal);
        return l, step.reply;
      }
      cur, created := step.ledger, created + step.created;
      i := i + 1;
    }
    assert sels[..|sels|] == sels;
    return cur, Ok;
  }

  /** One more selection runs one more step on what the loop has so far. */
  lemma RunSnoc(l: Ledger, batch: Id, sels: seq<Selection>, i: nat, actor: UserId, now: Time,
                cuteTerminal: Installation -> Option<string>)
    requires i < |sels| && Run(l, batch, sels[..i], actor, now, cuteTerminal).Done?
    ensures var prev := Run(l, batch, sels[..i], actor, now, cuteTerminal);
      Run(l, batch, sels[..i + 1], actor, now, cuteTerminal) ==
        match Step(prev.ledger, batch, sels[i], actor, now, cuteTerminal)
        case Failed(reply) => Failed(reply)
        case Done(l2, c2) => Done(l2, prev.created + c2)
  {
    assert sels[..i + 1][..i] == sels[..i];
  }

  /** Once a prefix of the selections fails, the whole run fails the same way. */
  lemma {:induction false} RunStopsAtFailure(l: Ledger, batch: Id, sels: seq<Selection>, k: nat, actor: UserId, now: Time,
                                             cuteTerminal: Installation -> Option<string>)
    requires k <= |sels| && Run(l, batch, sels[..k], actor, now, cuteTerminal).Failed?
    ensures Run(l, batch, sels, actor, now, cuteTerminal) == Run(l, batch, sels[..k], actor, now, cuteTerminal)
    decreases |sels| - k
  {
    if k < |sels| {
      var longer := sels[..k + 1];
      assert longer[..|longer| - 1] == sels[..k];
      RunStopsAtFailure(l, batch, sels, k + 1, actor, now, cuteTerminal);
    } else {
      assert sels[..k] == sels;
    }
  }

  // ------------------------------------------------- what a batch leaves behind

  /** The selections include equipment `id` of system `s`. */
  predicate SelectedIn(sels: seq<Selection>, s: System, id: Id) {
    exists i | 0 <= i < |sels| :: sels[i] == Selection(Some(ClassName(s)), id)
  }

  lemma SelectedInSnoc(sels: seq<Selection>, last: Selection, s: System, id: Id)
    ensures SelectedIn(sels + [last], s, id) <==> SelectedIn(sels, s, id) || last == Selection(Some(ClassName(s)), id)
  {
    var all := sels + [last];
    if SelectedIn(sels, s, id) {
      var i :| 0 <= i < |sels| && sels[i] == Selection(Some(ClassName(s)), id);
      assert all[i] == sels[i];
    }
    if last == Selection(Some(ClassName(s)), id) {
      assert all[|sels|] == last;
    }
    if SelectedIn(all, s, id) {
      var i :| 0 <= i < |all| && all[i] == Selection(Some(ClassName(s)), id);
      if i < |sels| {
        assert sels[i] == all[i];
      }
    }
  }

  /** One system's table after the loop: selected rows sent to repair, all else as it was. */
  predicate Evolved(t: Table, t': Table, s: System, sels: seq<Selection>, actor: UserId, now: Time) {
    && t'.installations == t.installations
    && t'.equipment.Keys == t.equipment.Keys
    && forall id | id in t.equipment ::
         t'.equipment[id] == if SelectedIn(sels, s, id) then Sent(t.equipment[id], actor, now) else t.equipment[id]
  }

  /**
   * The snapshot a selection that resolves in `l` records; `again` says the
   * row was already saved earlier in the same batch, so the item sees its
   * text columns stripped.
   */
  function SnapshotOf(l: Ledger, batch: Id, sel: Selection, now: Time,
                      cuteTerminal: Installation -> Option<string>, again: bool): RepairBatchItem
    requires Resolves(l, sel)
  {
    var s := SystemOf(sel).value;
    var t := TableOf(l, s);
    var e := t.equipment[sel.id];
    Snapshot(t, s, sel.id, if again then Normalize(e) else e, batch, now, cuteTerminal)
  }

  /** Selection `i` repeats one made before it. */
  predicate Repeated(sels: seq<Selection>, i: nat)
    requires i < |sels|
  {
    exists j | 0 <= j < i :: sels[j] == sels[i]
  }

  /** On valid tables a repeated selection records the same snapshot as the first. */
  lemma RepeatSnapshotSame(l: Ledger, batch: Id, sel: Selection, now: Time, cuteTerminal: Installation -> Option<string>)
    requires TablesValid(l) && Resolves(l, sel)
    ensures SnapshotOf(l, batch, sel, now, cuteTerminal, true) == SnapshotOf(l, batch, sel, now, cuteTerminal, false)
  {
    var s := SystemOf(sel).value;
    assert TableValid(PolicyOf(s), TableOf(l, s));
    assert EquipmentValid(PolicyOf(s), TableOf(l, s), sel.id);
  }

  /** The items after the loop: the old ones untouched, one fresh item per selection. */
  predicate ItemsRecorded(l: Ledger, l': Ledger, created: seq<Id>, batch: Id, sels: seq<Selection>, now: Time,
                          cuteTerminal: Installation -> Option<string>) {
    && |created| == |sels|
    && (forall i | 0 <= i < |created| :: created[i] !in l.items && created[i] in l'.items)
    && (forall i, j | 0 <= i < j < |created| :: created[i] != created[j])
    && (forall k | k in l'.items :: k in l.items || k in created)
    && (forall k | k in l.items :: k in l'.items && l'.items[k] == l.items[k])
    && forall i | 0 <= i < |sels| ::
         Resolves(l, sels[i]) && l'.items[created[i]] == SnapshotOf(l, batch, sels[i], now, cuteTerminal, Repeated(sels, i))
  }

  /** A step that succeeds sends its row to repair and records its snapshot under a fresh id. */
  lemma StepDone(l: Ledger, batch: Id, sel: Selection, actor: UserId, now: Time,
                 cuteTerminal: Installation -> Option<string>)
    requires Step(l, batch, sel, actor, now, cuteTerminal).Done?
    ensures Resolves(l, sel)
    ensures var s := SystemOf(sel).value;
      var t := TableOf(l, s);
      var itemId := FreshKey(l.items.Keys);
      Step(l, batch, sel, actor, now, cuteTerminal) ==
        Done(WithTable(l, s, t.(equipment := t.equipment[sel.id := Sent(t.equipment[sel.id], actor, now)]))
               .(items := l.items[itemId := SnapshotOf(l, batch, sel, now, cuteTerminal, false)]),
             [itemId])
  {
    var s := SystemOf(sel).value;
    var t := TableOf(l, s);
    var x := SentToRepair(t.equipment[sel.id], actor, now);
    var t' := Save(PolicyOf(s), t, sel.id, x, now).0;
    assert Normalize(x).lastActionDate == Some(now);
    assert t'.equipment[sel.id] == Sent(t.equipment[sel.id], actor, now);
    assert t'.equipment == t.equipment[sel.id := Sent(t.equipment[sel.id], actor, now)];
  }

  /** Sending a row to repair twice is the same as sending it once. */
  lemma SentTwice(e: Equipment, actor: UserId, now: Time)
    ensures Sent(Sent(e, actor, now), actor, now) == Sent(e, actor, now)
  {
    var once := Sent(e, actor, now);
    assert SentToRepair(once, actor, now) == once;
  }

  /** The snapshot reads only text columns, which the loop can only strip. */
  lemma SnapshotIgnoresStatus(t: Table, s: System, id: Id, e: Equipment, batch: Id, actor: UserId, now: Time,
                              cuteTerminal: Installation -> Option<string>)
    ensures Snapshot(t, s, id, Sent(e, actor, now), batch, now, cuteTerminal)
         == Snapshot(t, s, id, Normalize(e), batch, now, cuteTerminal)
  {
    NormalizeStamped(e, SentToRepair(e, actor, now));
  }

  /** One more selection sends one more row of its own system to repair. */
  lemma EvolvedStep(t0: Table, t1: Table, s: System, init: seq<Selection>, last: Selection, actor: UserId, now: Time)
    requires Evolved(t0, t1, s, init, actor, now)
    ensures var t2 := if SystemOf(last) == Some(s) && last.id in t1.equipment
      then t1.(equipment := t1.equipment[last.id := Sent(t1.equipment[last.id], actor, now)])
      else t1;
      Evolved(t0, t2, s, init + [last], actor, now)
  {
    var t2 := if SystemOf(last) == Some(s) && last.id in t1.equipment
      then t1.(equipment := t1.equipment[last.id := Sent(t1.equipment[last.id], actor, now)])
      else t1;
    forall id | id in t0.equipment
      ensures t2.equipment[id]
           == if SelectedIn(init + [last], s, id) then Sent(t0.equipment[id], actor, now) else t0.equipment[id]
    {
      SelectedInSnoc(init, last, s, id);
      SentTwice(t0.equipment[id], actor, now);
    }
  }

  /** A row's snapshot is the same before and after the loop has touched its table. */
  lemma SnapshotAfterEvolved(t0: Table, t1: Table, s: System, sels: seq<Selection>, actor: UserId, now: Time,
                             id: Id, batch: Id, cuteTerminal: Installation -> Option<string>)
    requires Evolved(t0, t1, s, sels, actor, now) && id in t0.equipment
    ensures id in t1.equipment
    ensures var e := t0.equipment[id];
      Snapshot(t1, s, id, t1.equipment[id], batch, now, cuteTerminal)
        == Snapshot(t0, s, id, if SelectedIn(sels, s, id) then Normalize(e) else e, batch, now, cuteTerminal)
  {
    var e := t0.equipment[id];
    SnapshotIgnoresStatus(t0, s, id, e, batch, actor, now, cuteTerminal);
    assert InstallationOf(t1, t1.equipment[id]) == InstallationOf(t0, e);
  }

  /** A completed loop has sent exactly the selected rows to repair and left every other row and every installation as it was. */
  lemma {:induction false} RunTables(l: Ledger, batch: Id, sels: seq<Selection>, actor: UserId, now: Time,
                                     cuteTerminal: Installation -> Option<string>)
    requires Run(l, batch, sels, actor, now, cuteTerminal).Done?
    ensures var r := Run(l, batch, sels, actor, now, cuteTerminal);
      forall s: System :: Evolved(TableOf(l, s), TableOf(r.ledger, s), s, sels, actor, now)
    decreases |sels|
  {
    var r := Run(l, batch, sels, actor, now, cuteTerminal);
    if sels == [] {
      forall s: System
        ensures Evolved(TableOf(l, s), TableOf(r.ledger, s), s, sels, actor, now)
      {
        assert forall id :: !SelectedIn(sels, s, id);
      }
    } else {
      var init := sels[..|sels| - 1];
      var last := sels[|sels| - 1];
      SnocSplit(sels);
      RunTables(l, batch, init, actor, now, cuteTerminal);
      var l1 := Run(l, batch, init, actor, now, cuteTerminal).ledger;
      StepDone(l1, batch, last, actor, now, cuteTerminal);
      var step := Step(l1, batch, last, actor, now, cuteTerminal);
      assert r.ledger == step.ledger;
      var sys := SystemOf(last).value;
      forall s: System
        ensures Evolved(TableOf(l, s), TableOf(r.ledger, s), s, sels, actor, now)
      {
        EvolvedStep(TableOf(l, s), TableOf(l1, s), s, init, last, actor, now);
        if s != sys {
          assert TableOf(step.ledger, s) == TableOf(l1, s);
        }
      }
    }
  }

  /**
   * A completed loop has recorded one fresh item per selection, holding the
   * snapshot of the selected row as it stood before the batch, and left the
   * older items alone.
   */
  lemma {:induction false} RunItems(l: Ledger, batch: Id, sels: seq<Selection>, actor: UserId, now: Time,
                                    cuteTerminal: Installation -> Option<string>)
    requires Run(l, batch, sels, actor, now, cuteTerminal).Done?
    ensures var r := Run(l, batch, sels, actor, now, cuteTerminal);
      ItemsRecorded(l, r.ledger, r.created, batch, sels, now, cuteTerminal)
    decreases |sels|
  {
    var r := Run(l, batch, sels, actor, now, cuteTerminal);
    if sels != [] {
      var init := sels[..|sels| - 1];
      var last := sels[|sels| - 1];
      SnocSplit(sels);
      RunItems(l, batch, init, actor, now, cuteTerminal);
      RunTables(l, batch, init, actor, now, cuteTerminal);
      var prev := Run(l, batch, init, actor, now, cuteTerminal);
      var l1, c1 := prev.ledger, prev.created;
      StepDone(l1, batch, last, actor, now, cuteTerminal);
      var sys := SystemOf(last).value;
      var itemId := FreshKey(l1.items.Keys);
      assert r.created == c1 + [itemId];
      assert r.ledger.items == l1.items[itemId := SnapshotOf(l1, batch, last, now, cuteTerminal, false)];
      SnapshotAfterEvolved(TableOf(l, sys), TableOf(l1, sys), sys, init, actor, now, last.id, batch, cuteTerminal);
      RepeatedLast(init, last, sys);
      ItemsSnoc(l, l1, r.ledger, c1, itemId, batch, init, last, now, cuteTerminal);
    }
  }

  /** Recording one more fresh item for one more selection extends what the loop has recorded. */
  lemma ItemsSnoc(l: Ledger, l1: Ledger, l2: Ledger, c1: seq<Id>, itemId: Id, batch: Id,
                  init: seq<Selection>, last: Selection, now: Time, cuteTerminal: Installation -> Option<string>)
    requires ItemsRecorded(l, l1, c1, batch, init, now, cuteTerminal)
    requires itemId !in l1.items && Resolves(l, last)
    requires l2.items == l1.items[itemId := SnapshotOf(l, batch, last, now, cuteTerminal, Repeated(init + [last], |init|))]
    ensures ItemsRecorded(l, l2, c1 + [itemId], batch, init + [last], now, cuteTerminal)
  {
    var sels, created := init + [last], c1 + [itemId];
    forall i | 0 <= i < |sels|
      ensures Resolves(l, sels[i]) && l2.items[created[i]] == SnapshotOf(l, batch, sels[i], now, cuteTerminal, Repeated(sels, i))
    {
      if i < |init| {
        assert sels[i] == init[i] && created[i] == c1[i];
        assert Repeated(sels, i) == Repeated(init, i) by {
          if Repeated(sels, i) {
            var j :| 0 <= j < i && sels[j] == sels[i];
            assert init[j] == sels[j];
          }
          if Repeated(init, i) {
            var j :| 0 <= j < i && init[j] == init[i];
            assert sels[j] == init[j];
          }
        }
      }
    }
  }

  /** The last selection repeats an earlier one exactly when the earlier ones include its row. */
  lemma RepeatedLast(init: seq<Selection>, last: Selection, s: System)
    requires SystemOf(last) == Some(s)
    ensures Repeated(init + [last], |init|) <==> SelectedIn(init, s, last.id)
  {
    var sels := init + [last];
    assert last == Selection(Some(ClassName(s)), last.id);
    if Repeated(sels, |init|) {
      var j :| 0 <= j < |init| && sels[j] == sels[|init|];
      assert init[j] == sels[j];
    }
    if SelectedIn(init, s, last.id) {
      var j :| 0 <= j < |init| && init[j] == Selection(Some(ClassName(s)), last.id);
      assert sels[j] == init[j];
    }
  }

  /** A selection of a valid row sends it to repair without failing, and the tables stay valid. */
  lemma StepSucceeds(l: Ledger, batch: Id, sel: Selection, actor: UserId, now: Time,
                     cuteTerminal: Installation -> Option<string>)
    requires TablesValid(l) && Resolves(l, sel)
    ensures Step(l, batch, sel, actor, now, cuteTerminal).Done?
    ensures TablesValid(Step(l, batch, sel, actor, now, cuteTerminal).ledger)
  {
    var s := SystemOf(sel).value;
    var t := TableOf(l, s);
    var e' := SentToRepair(t.equipment[sel.id], actor, now);
    SendSaves(PolicyOf(s), t, sel.id, actor, now);
    var item := Snapshot(t, s, sel.id, t.equipment[sel.id], batch, now, cuteTerminal);
    TablesValidWith(l, s, Save(PolicyOf(s), t, sel.id, e', now).0, l.items[FreshKey(l.items.Keys) := item]);
  }

  /** Sending a valid row to repair passes every check of `update!`, and the table stays valid. */
  lemma SendSaves(p: Policy, t: Table, id: Id, actor: UserId, now: Time)
    requires TableValid(p, t) && id in t.equipment
    ensures Save(p, t, id, SentToRepair(t.equipment[id], actor, now), now).1 == Ok
    ensures TableValid(p, Save(p, t, id, SentToRepair(t.equipment[id], actor, now), now).0)
  {
    var e' := SentToRepair(t.equipment[id], actor, now);
    assert EquipmentValid(p, t, id);
    NormalizeStamped(t.equipment[id], e');
    assert Normalize(e') == e';
    assert UniqueIn(p, t.equipment, id, e');
    SavePreservesValid(p, t, id, e', now);
  }

  /** Replacing one system's table by a valid one keeps every table valid. */
  lemma TablesValidWith(l: Ledger, s: System, t: Table, items: map<Id, RepairBatchItem>)
    requires TablesValid(l) && TableValid(PolicyOf(s), t)
    ensures TablesValid(WithTable(l, s, t).(items := items))
  {
    var l' := WithTable(l, s, t).(items := items);
    forall o: System
      ensures TableValid(PolicyOf(o), TableOf(l', o))
    {
      if o != s {
        assert TableOf(l', o) == TableOf(l, o);
      }
    }
  }

  /** When every selection names a valid row, the loop completes and the tables stay valid. */
  lemma {:induction false} RunSucceeds(l: Ledger, batch: Id, sels: seq<Selection>, actor: UserId, now: Time,
                                       cuteTerminal: Installation -> Option<string>)
    requires TablesValid(l)
    requires forall i | 0 <= i < |sels| :: Resolves(l, sels[i])
    ensures Run(l, batch, sels, actor, now, cuteTerminal).Done?
    ensures TablesValid(Run(l, batch, sels, actor, now, cuteTerminal).ledger)
    decreases |sels|
  {
    if sels != [] {
      var init := sels[..|sels| - 1];
      var last := sels[|sels| - 1];
      SnocSplit(sels);
      assert forall i | 0 <= i < |init| :: init[i] == sels[i];
      RunSucceeds(l, batch, init, actor, now, cuteTerminal);
      RunTables(l, batch, init, actor, now, cuteTerminal);
      var l1 := Run(l, batch, init, actor, now, cuteTerminal).ledger;
      var sys := SystemOf(last).value;
      assert Evolved(TableOf(l, sys), TableOf(l1, sys), sys, init, actor, now);
      assert Resolves(l1, last);
      StepSucceeds(l1, batch, last, actor, now, cuteTerminal);
    }
  }

  /**
   * `create_batch` on valid tables succeeds exactly when something is
   * selected and every selection names an existing row of one of the three
   * equipment classes; the tables stay valid.
   */
  lemma CreateBatchSucceeds(l: Ledger, sels: seq<Selection>, actor: UserId, year: nat, now: Time,
                            cuteTerminal: Installation -> Option<string>)
    requires TablesValid(l) && sels != []
    requires forall i | 0 <= i < |sels| :: Resolves(l, sels[i])
    ensures CreateBatchSpec(l, sels, actor, year, now, cuteTerminal).1 ==
      if NextNumberAsWritten(Numbers(l.batches), year) in Numbers(l.batches) then Invalid else Ok
    ensures TablesValid(CreateBatchSpec(l, sels, actor, year, now, cuteTerminal).0)
  {
    AsWrittenPresent(Numbers(l.batches), year);
    var start := BatchStart(l, sels, actor, year, now);
    assert TablesValid(start);
    assert forall i | 0 <= i < |sels| :: Resolves(start, sels[i]);
    RunSucceeds(start, FreshKey(l.batches.Keys), sels, actor, now, cuteTerminal);
  }

  /** A selection that names no row (or no equipment class) makes the whole batch fail, changing nothing. */
  lemma CreateBatchNeedsEveryRow(l: Ledger, sels: seq<Selection>, actor: UserId, year: nat, now: Time,
                                 cuteTerminal: Installation -> Option<string>, i: nat)
    requires i < |sels| && !Resolves(l, sels[i])
    ensures CreateBatchSpec(l, sels, actor, year, now, cuteTerminal).1 != Ok
    ensures CreateBatchSpec(l, sels, actor, year, now, cuteTerminal).0 == l
  {
    var start := BatchStart(l, sels, actor, year, now);
    var b := FreshKey(l.batches.Keys);
    assert !Resolves(start, sels[i]);
    if NewBatchValid(l.batches, NewBatch(l, sels, actor, year, now).repairNumber) && Run(start, b, sels, actor, now, cuteTerminal).Done? {
      RunItems(start, b, sels, actor, now, cuteTerminal);
      assert false;
    }
  }

  /** A successful `create_batch` leaves the ledger the loop produced from the new batch row. */
  lemma CreateBatchIsRun(l: Ledger, sels: seq<Selection>, actor: UserId, year: nat, now: Time,
                         cuteTerminal: Installation -> Option<string>)
    requires CreateBatchSpec(l, sels, actor, year, now, cuteTerminal).1 == Ok
    ensures var r := Run(BatchStart(l, sels, actor, year, now), FreshKey(l.batches.Keys), sels, actor, now, cuteTerminal);
      r.Done? && CreateBatchSpec(l, sels, actor, year, now, cuteTerminal).0 == r.ledger
  {
  }

  /**
   * A successful `create_batch` opens one batch (status "sent", the actor as
   * creator, one count per selection, including repeats) under a number no
   * other batch has.
   */
  lemma CreateBatchOpensBatch(l: Ledger, sels: seq<Selection>, actor: UserId, year: nat, now: Time,
                              cuteTerminal: Installation -> Option<string>)
    requires CreateBatchSpec(l, sels, actor, year, now, cuteTerminal).1 == Ok
    ensures var l' := CreateBatchSpec(l, sels, actor, year, now, cuteTerminal).0;
      var b := FreshKey(l.batches.Keys);
      && b !in l.batches
      && l'.batches == l.batches[b := RepairBatch(NextNumberAsWritten(Numbers(l.batches), year), Some(actor), |sels|, Some("sent"), now)]
      && NewBatchValid(l.batches, l'.batches[b].repairNumber)
  {
  }

  /** While a year has handed out numbers 001 to m, m below 1000, a valid selection opens batch m + 1. */
  lemma CreateBatchSucceedsBelow1000(l: Ledger, sels: seq<Selection>, actor: UserId, year: nat, now: Time,
                                     cuteTerminal: Installation -> Option<string>, m: nat)
    requires TablesValid(l) && sels != [] && m < 1000
    requires forall i | 0 <= i < |sels| :: Resolves(l, sels[i])
    requires SameYear(Numbers(l.batches), year) == Sequential(year, m)
    ensures CreateBatchSpec(l, sels, actor, year, now, cuteTerminal).1 == Ok
    ensures CreateBatchSpec(l, sels, actor, year, now, cuteTerminal).0.batches[FreshKey(l.batches.Keys)].repairNumber
            == NumberFor(year, m + 1)
  {
    var numbers := Numbers(l.batches);
    AsWrittenReadsYear(numbers, year);
    AsWrittenAgreesBelow1000(year, m);
    NextNumberFresh(Sequential(year, m), year);
    CreateBatchSucceeds(l, sels, actor, year, now, cuteTerminal);
  }

  /**
   * Once a year holds batches 001 to 1000, every later `create_batch` of that
   * year is refused: the proposed number is REP-Y-1000 again.
   */
  lemma CreateBatchStallsAfter999(l: Ledger, sels: seq<Selection>, actor: UserId, year: nat, now: Time,
                                  cuteTerminal: Installation -> Option<string>)
    requires sels != [] && SameYear(Numbers(l.batches), year) == Sequential(year, 1000)
    ensures CreateBatchSpec(l, sels, actor, year, now, cuteTerminal) == (l, Invalid)
  {
    AsWrittenRepeatsAfter999(year);
    SequentialSameYear(year, 1000);
    AsWrittenReadsYear(Numbers(l.batches), year);
    AsWrittenReadsYear(Sequential(year, 1000), year);
  }

  /**
   * A successful `create_batch` sends exactly the selected rows to repair
   * (waiting_repair, the actor, now) and leaves every other row and every
   * installation alone.
   */
  lemma CreateBatchSendsSelected(l: Ledger, sels: seq<Selection>, actor: UserId, year: nat, now: Time,
                                 cuteTerminal: Installation -> Option<string>)
    requires CreateBatchSpec(l, sels, actor, year, now, cuteTerminal).1 == Ok
    ensures var l' := CreateBatchSpec(l, sels, actor, year, now, cuteTerminal).0;
      forall s: System :: Evolved(TableOf(l, s), TableOf(l', s), s, sels, actor, now)
  {
    var start := BatchStart(l, sels, actor, year, now);
    CreateBatchIsRun(l, sels, actor, year, now, cuteTerminal);
    RunTables(start, FreshKey(l.batches.Keys), sels, actor, now, cuteTerminal);
  }

  /**
   * A successful `create_batch` records one fresh item of the new batch per
   * selection, holding the row's snapshot from before the batch; older items
   * are untouched.
   */
  lemma CreateBatchRecordsItems(l: Ledger, sels: seq<Selection>, actor: UserId, year: nat, now: Time,
                                cuteTerminal: Installation -> Option<string>)
    requires CreateBatchSpec(l, sels, actor, year, now, cuteTerminal).1 == Ok
    ensures var l' := CreateBatchSpec(l, sels, actor, year, now, cuteTerminal).0;
      var b := FreshKey(l.batches.Keys);
      var created := Run(BatchStart(l, sels, actor, year, now), b, sels, actor, now, cuteTerminal).created;
      && ItemsRecorded(l, l', created, b, sels, now, cuteTerminal)
      && (forall k | k in created :: l'.items[k].batch == b)
  {
    var start := BatchStart(l, sels, actor, year, now);
    var b := FreshKey(l.batches.Keys);
    CreateBatchIsRun(l, sels, actor, year, now, cuteTerminal);
    RunItems(start, b, sels, actor, now, cuteTerminal);
    var r := Run(start, b, sels, actor, now, cuteTerminal);
    assert ItemsRecorded(start, r.ledger, r.created, b, sels, now, cuteTerminal);
    forall i | 0 <= i < |sels|
      ensures Resolves(l, sels[i])
           && SnapshotOf(start, b, sels[i], now, cuteTerminal, Repeated(sels, i)) == SnapshotOf(l, b, sels[i], now, cuteTerminal, Repeated(sels, i))
    {
      assert Resolves(start, sels[i]);
    }
    forall k | k in r.created
      ensures r.ledger.items[k].batch == b
    {
      var i :| 0 <= i < |r.created| && r.created[i] == k;
      assert r.ledger.items[r.created[i]] == SnapshotOf(start, b, sels[i], now, cuteTerminal, Repeated(sels, i));
    }
  }

  // ------------------------------------------------------------------ index

  /** One row of the list of equipment in maintenance. */
  datatype Row = Row(system: System, id: Id, lastActionDate: Option<Time>)

  /** The sort key, `last_action_date || Time.at(0)`. */
  function RowKey(r: Row): int {
    if r.lastActionDate.Some? then r.lastActionDate.value else 0
  }

  /** The `system` parameter names one system; any other value shows all three. */
  function ChosenSystems(system: Option<string>): (r: set<System>)
    ensures system.Some? && SystemOfKey(system.value).Some? ==> r == {SystemOfKey(system.value).value}
    ensures (system.None? || SystemOfKey(system.value).None?) ==> r == {Cute, Fids, Zamar}
  {
    if system.Some? && SystemOfKey(system.value).Some? then {SystemOfKey(system.value).value} else {Cute, Fids, Zamar}
  }

  /** The filters of the list: maintenance status, the terminal, the system and the type. */
  predicate Listed(l: Ledger, terminal: Option<int>, system: Option<string>, etype: Option<string>, s: System, id: Id)
    requires id in TableOf(l, s).equipment
  {
    var t := TableOf(l, s);
    var e := t.equipment[id];
    && e.status == Maintenance
    && (terminal.None? || EquipmentTerminal(t, e) == terminal)
    && s in ChosenSystems(system)
    && (BlankOpt(etype) || e.etype == etype)
  }

  /** The rows the list shows, as a set. */
  function MaintenanceRows(l: Ledger, terminal: Option<int>, system: Option<string>, etype: Option<string>): (rows: set<Row>)
    ensures forall r | r in rows ::
      && r.id in TableOf(l, r.system).equipment
      && TableOf(l, r.system).equipment[r.id].status == Maintenance
      && r.system in ChosenSystems(system)
      && r.lastActionDate == TableOf(l, r.system).equipment[r.id].lastActionDate
    ensures forall s: System, id | id in TableOf(l, s).equipment ::
      Listed(l, terminal, system, etype, s, id) <==> Row(s, id, TableOf(l, s).equipment[id].lastActionDate) in rows
  {
    set s: System, id | s in {Cute, Fids, Zamar} && id in TableOf(l, s).equipment && Listed(l, terminal, system, etype, s, id)
      :: Row(s, id, TableOf(l, s).equipment[id].lastActionDate)
  }

  /**
   * `index`: the three lists gathered into one and sorted by last action,
   * newest first (`sort_by` then `reverse!`); rows never acted on sort as the
   * epoch, so they come last.
   */
  method MaintenanceIndex(l: Ledger, terminal: Option<int>, system: Option<string>, etype: Option<string>)
    returns (rows: seq<Row>)
    ensures |rows| == |MaintenanceRows(l, terminal, system, etype)|
    ensures forall r :: r in rows <==> r in MaintenanceRows(l, terminal, system, etype)
    ensures SortedDesc(rows, RowKey)
  {
    var all := MaintenanceRows(l, terminal, system, etype);
    var gathered := Gather(all);
    rows := SortDesc(gathered, RowKey);
    SortKeepsRows(gathered, rows, all);
  }

  // ------------------------------------------------------- serial statistics

  /** The items recorded for one serial number. */
  function ItemsWithSerial(items: map<Id, RepairBatchItem>, serial: string): set<Id> {
    set i | i in items && items[i].serial == Some(serial)
  }

  /** An item's `created_at`, the order of the statistics. */
  function ItemKey(items: map<Id, RepairBatchItem>): Id -> int {
    i => if i in items then items[i].createdAt else 0
  }

  /**
   * `calculate_serial_stats`: how many times the serial number was sent to
   * repair, and those items newest first (each gives a date and its batch).
   */
  method SerialStats(items: map<Id, RepairBatchItem>, serial: string) returns (total: nat, history: seq<Id>)
    ensures total == |ItemsWithSerial(items, serial)| == |history|
    ensures forall i :: i in history <==> i in items && items[i].serial == Some(serial)
    ensures SortedDesc(history, ItemKey(items))
  {
    var matching := ItemsWithSerial(items, serial);
    var gathered := Gather(matching);
    history := SortDesc(gathered, ItemKey(items));
    SortKeepsRows(gathered, history, matching);
    total := |matching|;
  }
}

=== FILE: text.dfy ===
/**
 * String helpers shared by the model, written to match the Ruby and
 * ActiveSupport operations the tracker calls: `strip`, `blank?`,
 * `downcase`/`upcase`, `include?`, `split(sep).first`/`.last`,
 * `split(' ').last`, `to_i`, `format("%03d")` and the byte order in which
 * the database compares strings.
 */
module Text {

  datatype Option<+T> = None | Some(value: T)

  /** Mass assignment of one attribute: a submitted value replaces the current one. */
  function Pick<T>(submitted: Option<T>, current: T): T {
    if submitted.Some? then submitted.value else current
  }

  /** ASCII white space: what `String#strip` trims and what `split(' ')` splits on. */
  predicate IsAsciiSpace(c: char) {
    c == ' ' || c == '\t' || c == '\n' || c == '\U{B}' || c == '\U{C}' || c == '\r'
  }

  /** Unicode White_Space, the class `[[:space:]]` behind ActiveSupport's `blank?`. */
  predicate IsUnicodeSpace(c: char) {
    || IsAsciiSpace(c)
    || c == '\U{85}' || c == '\U{A0}' || c == '\U{1680}'
    || ('\U{2000}' <= c <= '\U{200A}')
    || c == '\U{2028}' || c == '\U{2029}' || c == '\U{202F}' || c == '\U{205F}' || c == '\U{3000}'
  }

  /** `blank?` on a string: nothing but white space, the empty string included. */
  predicate Blank(s: string) {
    forall i | 0 <= i < |s| :: IsUnicodeSpace(s[i])
  }

  /** `blank?` on a nullable column: nil, or a blank string. */
  predicate BlankOpt(o: Option<string>) {
    o.None? || Blank(o.value)
  }

  /** `present?`, the negation of `blank?`. */
  predicate Present(o: Option<string>) {
    !BlankOpt(o)
  }

  /** A nullable string column no longer than `n` characters (nil always passes `length`). */
  predicate MaxLen(o: Option<string>, n: nat) {
    o.None? || |o.value| <= n
  }

  // ---------------------------------------------------------------- trimming

  /**
   * What `strip_attributes` trims from both ends of a string attribute:
   * `[[:space:]]` and six invisible characters (U+180E, U+200B, U+200C,
   * U+200D, U+2060 and U+FEFF).
   */
  predicate IsPadding(c: char) {
    || IsUnicodeSpace(c)
    || c == '\U{180E}' || ('\U{200B}' <= c <= '\U{200D}') || c == '\U{2060}' || c == '\U{FEFF}'
  }

  /** What separates or pads words: ASCII white space, attribute padding, or one given character. */
  datatype Sep = Spaces | Padding | Char(c: char)

  predicate IsSep(x: char, sep: Sep) {
    match sep
    case Spaces => IsAsciiSpace(x)
    case Padding => IsPadding(x)
    case Char(c) => x == c
  }

  /** `s` without its leading separators. */
  function DropLeading(s: string, drop: Sep): (r: string)
    ensures |r| <= |s|
    ensures r == [] || !IsSep(r[0], drop)
    ensures forall i | 0 <= i < |s| - |r| :: IsSep(s[i], drop)
  {
    if s != [] && IsSep(s[0], drop) then DropLeading(s[1..], drop) else s
  }

  /** `s` without its trailing separators. */
  function DropTrailing(s: string, drop: Sep): (r: string)
    ensures |r| <= |s|
    ensures r == [] || !IsSep(r[|r| - 1], drop)
    ensures forall i | |r| <= i < |s| :: IsSep(s[i], drop)
  {
    if s != [] && IsSep(s[|s| - 1], drop) then DropTrailing(s[..|s| - 1], drop) else s
  }

  /** What `DropLeading` keeps is a suffix of its argument. */
  lemma {:induction false} DropLeadingSuffix(s: string, drop: Sep)
    ensures DropLeading(s, drop) == s[|s| - |DropLeading(s, drop)|..]
  {
    if s != [] && IsSep(s[0], drop) {
      DropLeadingSuffix(s[1..], drop);
    }
  }

  /** What `DropTrailing` keeps is a prefix of its argument. */
  lemma {:induction false} DropTrailingPrefix(s: string, drop: Sep)
    ensures DropTrailing(s, drop) == s[..|DropTrailing(s, drop)|]
  {
    if s != [] && IsSep(s[|s| - 1], drop) {
      DropTrailingPrefix(s[..|s| - 1], drop);
    }
  }

  /** Ruby's `String#strip`. */
  function Strip(s: string): (r: string)
    ensures |r| <= |s|
    ensures r == [] || (!IsAsciiSpace(r[0]) && !IsAsciiSpace(r[|r| - 1]))
  {
    var l := DropLeading(s, Spaces);
    var r := DropTrailing(l, Spaces);
    DropTrailingPrefix(l, Spaces);
    assert r != [] ==> r[0] == l[0];
    r
  }

  /** `strip` on a nullable value (`x&.strip`). */
  function StripOpt(o: Option<string>): Option<string> {
    if o.None? then None else Some(Strip(o.value))
  }

  /** Stripping never changes whether a value is blank: `s.strip.blank? == s.blank?`. */
  lemma StripKeepsBlank(s: string)
    ensures Blank(Strip(s)) <==> Blank(s)
  {
    if Blank(Strip(s)) {
      BlankBeforeStrip(s);
    }
    if Blank(s) {
      BlankAfterStrip(s);
    }
  }

  /** What `strip` removes is white space, so a blank result came from a blank string. */
  lemma BlankBeforeStrip(s: string)
    requires Blank(Strip(s))
    ensures Blank(s)
  {
    var l := DropLeading(s, Spaces);
    var r := DropTrailing(l, Spaces);
    DropLeadingSuffix(s, Spaces);
    DropTrailingPrefix(l, Spaces);
    forall i | 0 <= i < |s|
      ensures IsUnicodeSpace(s[i])
    {
      if i >= |s| - |l| {
        var j := i - (|s| - |l|);
        assert s[i] == l[j];
        if j < |r| {
          assert l[j] == r[j];
        }
      }
    }
  }

  /** What `strip` keeps is part of the string, so a blank string strips to a blank one. */
  lemma BlankAfterStrip(s: string)
    requires Blank(s)
    ensures Blank(Strip(s))
  {
    var l := DropLeading(s, Spaces);
    var r := DropTrailing(l, Spaces);
    DropLeadingSuffix(s, Spaces);
    DropTrailingPrefix(l, Spaces);
    forall j | 0 <= j < |r|
      ensures IsUnicodeSpace(r[j])
    {
      assert r[j] == l[j] == s[|s| - |l| + j];
    }
  }

  /** `strip` is idempotent. */
  lemma StripIdempotent(s: string)
    ensures Strip(Strip(s)) == Strip(s)
  {
    var t := Strip(s);
    if t != [] {
      assert DropLeading(t, Spaces) == t;
      assert DropTrailing(t, Spaces) == t;
    }
  }

  /**
   * Stripping white space from around text that neither starts nor ends with
   * white space gives that text back: the white space goes, and nothing else.
   */
  lemma StripPadded(a: string, v: string, b: string)
    requires forall i | 0 <= i < |a| :: IsAsciiSpace(a[i])
    requires forall i | 0 <= i < |b| :: IsAsciiSpace(b[i])
    requires v == [] || (!IsAsciiSpace(v[0]) && !IsAsciiSpace(v[|v| - 1]))
    ensures Strip(a + v + b) == v
  {
    if v == [] {
      assert a + v + b == (a + b) + [];
      DropLeadingSeps(a + b, [], Spaces);
    } else {
      assert a + v + b == a + (v + b);
      assert (v + b)[0] == v[0];
      DropLeadingSeps(a, v + b, Spaces);
      DropTrailingSeps(v, b, Spaces);
    }
  }

  // ------------------------------------------- strip_attributes, nilify_blanks

  /** A column as `strip_attributes` and `nilify_blanks` leave it: nil, or text without padding at either end. */
  predicate Tidied(o: Option<string>) {
    o.None? || (o.value != [] && !IsPadding(o.value[0]) && !IsPadding(o.value[|o.value| - 1]))
  }

  /**
   * `strip_attributes` followed by `nilify_blanks` on one nullable string
   * column: the padding goes from both ends, and a value left empty becomes
   * nil. What is left is never blank, so `nilify_blanks` finds nothing more
   * to clear.
   */
  function Tidy(o: Option<string>): (r: Option<string>)
    ensures Tidied(r)
    ensures Tidied(o) ==> r == o
    ensures r.None? <==> o.None? || forall i | 0 <= i < |o.value| :: IsPadding(o.value[i])
    ensures r.Some? ==> Present(r)
  {
    if o.None? then None
    else
      var l := DropLeading(o.value, Padding);
      var s := DropTrailing(l, Padding);
      DropLeadingSuffix(o.value, Padding);
      DropTrailingPrefix(l, Padding);
      assert s != [] ==> s[0] == l[0] && !IsUnicodeSpace(s[0]);
      assert s == [] ==> l == [];
      if s == [] then None else Some(s)
  }

  /** Separators in front of text that does not start with one are exactly what `DropLeading` removes. */
  lemma {:induction false} DropLeadingSeps(a: string, rest: string, sep: Sep)
    requires forall i | 0 <= i < |a| :: IsSep(a[i], sep)
    requires rest == [] || !IsSep(rest[0], sep)
    ensures DropLeading(a + rest, sep) == rest
  {
    if a == [] {
      assert a + rest == rest;
    } else {
      assert (a + rest)[1..] == a[1..] + rest;
      DropLeadingSeps(a[1..], rest, sep);
    }
  }

  /** Separators behind text that does not end with one are exactly what `DropTrailing` removes. */
  lemma {:induction false} DropTrailingSeps(rest: string, b: string, sep: Sep)
    requires forall i | 0 <= i < |b| :: IsSep(b[i], sep)
    requires rest == [] || !IsSep(rest[|rest| - 1], sep)
    ensures DropTrailing(rest + b, sep) == rest
  {
    if b == [] {
      assert rest + b == rest;
    } else {
      assert (rest + b)[..|rest + b| - 1] == rest + b[..|b| - 1];
      DropTrailingSeps(rest, b[..|b| - 1], sep);
    }
  }

  /** Tidying a tidy value wrapped in padding gives the value back: the padding goes, and nothing else. */
  lemma TidyPadded(a: string, v: string, b: string)
    requires forall i | 0 <= i < |a| :: IsPadding(a[i])
    requires forall i | 0 <= i < |b| :: IsPadding(b[i])
    requires Tidied(Some(v))
    ensures Tidy(Some(a + v + b)) == Some(v)
  {
    assert a + v + b == a + (v + b);
    assert (v + b)[0] == v[0];
    DropLeadingSeps(a, v + b, Padding);
    DropTrailingSeps(v, b, Padding);
  }

  // ------------------------------------------------------------ case mapping

  /** Ruby's `downcase` on one character, for the Latin and Cyrillic letters. */
  function LowerChar(c: char): char {
    if 'A' <= c <= 'Z' || '\U{410}' <= c <= '\U{42F}' then (c as int + 32) as char
    else if '\U{400}' <= c <= '\U{40F}' then (c as int + 80) as char
    else c
  }

  /** Ruby's `upcase` on one character, for the Latin and Cyrillic letters. */
  function UpperChar(c: char): char {
    if 'a' <= c <= 'z' || '\U{430}' <= c <= '\U{44F}' then (c as int - 32) as char
    else if '\U{450}' <= c <= '\U{45F}' then (c as int - 80) as char
    else c
  }

  function Lower(s: string): string {
    seq(|s|, i requires 0 <= i < |s| => LowerChar(s[i]))
  }

  function Upper(s: string): string {
    seq(|s|, i requires 0 <= i < |s| => UpperChar(s[i]))
  }

  // ---------------------------------------------------------- searching

  /** `sub` occurs in `s` starting at index `i`. */
  predicate OccursAt(s: string, sub: string, i: int) {
    0 <= i && i + |sub| <= |s| && s[i..i + |sub|] == sub
  }

  /** `s.include?(sub)`. */
  predicate Contains(s: string, sub: string) {
    exists i | 0 <= i <= |s| - |sub| :: OccursAt(s, sub, i)
  }

  /** The last maximal run of non-separators at the end of `t`. */
  function TakeLastField(t: string, sep: Sep): (r: string)
    ensures |r| <= |t| && r == t[|t| - |r|..]
    ensures forall i | 0 <= i < |r| :: !IsSep(r[i], sep)
    ensures |r| < |t| ==> IsSep(t[|t| - |r| - 1], sep)
    ensures t != [] && !IsSep(t[|t| - 1], sep) ==> r != []
  {
    if t == [] || IsSep(t[|t| - 1], sep) then [] else TakeLastField(t[..|t| - 1], sep) + [t[|t| - 1]]
  }

  /** The characters of `s` before its first `sep`. */
  function TakeFirstField(s: string, sep: char): (r: string)
    ensures |r| <= |s| && r == s[..|r|] && sep !in r
    ensures |r| < |s| ==> s[|r|] == sep
  {
    if s == [] || s[0] == sep then [] else [s[0]] + TakeFirstField(s[1..], sep)
  }

  /**
   * `s.split(sep).last` for a one-character separator other than a space.
   * Ruby drops trailing empty fields, so the result is nil exactly when `s`
   * consists of separators only (or is empty).
   */
  function SplitLast(s: string, sep: char): (r: Option<string>)
    ensures r.None? <==> forall i | 0 <= i < |s| :: s[i] == sep
    ensures r.Some? ==> r.value != [] && sep !in r.value
    ensures r.Some? && sep !in s ==> r.value == s
    ensures r.Some? && s[|s| - 1] != sep ==>
      EndsWith(s, r.value) && (|r.value| < |s| ==> s[|s| - |r.value| - 1] == sep)
  {
    var t := DropTrailing(s, Char(sep));
    DropTrailingPrefix(s, Char(sep));
    if t == [] then None
    else
      var f := TakeLastField(t, Char(sep));
      assert sep !in s ==> f == s by {
        if sep !in s {
          assert |t| == |s|;
          assert forall i | 0 <= i < |t| :: t[i] != sep;
          assert |f| == |t|;
        }
      }
      Some(f)
  }

  /** After a separator, a single final character is the last field. */
  lemma SplitLastSingle(prefix: string, c: char, sep: char)
    requires prefix != [] && prefix[|prefix| - 1] == sep && c != sep
    ensures SplitLast(prefix + [c], sep) == Some([c])
  {
    var s := prefix + [c];
    var r := SplitLast(s, sep);
    assert r.Some? by {
      assert s[|s| - 1] == c;
    }
    var v := r.value;
    assert s[|s| - 1] != sep;
    assert |v| == 1;
    assert v[0] == s[|s| - 1];
  }

  /**
   * `s.split(sep).first` for a one-character separator: nil when `s` holds
   * separators only, otherwise everything before the first separator
   * (possibly empty, when `s` starts with one).
   */
  function SplitFirst(s: string, sep: char): (r: Option<string>)
    ensures r.None? <==> forall i | 0 <= i < |s| :: s[i] == sep
    ensures r.Some? ==> sep !in r.value && |r.value| <= |s| && r.value == s[..|r.value|]
    ensures r.Some? && |r.value| < |s| ==> s[|r.value|] == sep
  {
    if forall i | 0 <= i < |s| :: s[i] == sep then None else Some(TakeFirstField(s, sep))
  }

  /**
   * `s.split(' ').last`: awk-style splitting on runs of white space, so the
   * result is the last word, or nil when `s` holds white space only.
   */
  function LastWord(s: string): (r: Option<string>)
    ensures r.None? <==> forall i | 0 <= i < |s| :: IsAsciiSpace(s[i])
    ensures r.Some? ==> r.value != [] && forall i | 0 <= i < |r.value| :: !IsAsciiSpace(r.value[i])
    ensures r.Some? ==>
      var t := DropTrailing(s, Spaces);
      EndsWith(t, r.value) && (|r.value| < |t| ==> IsAsciiSpace(t[|t| - |r.value| - 1]))
  {
    var t := DropTrailing(s, Spaces);
    DropTrailingPrefix(s, Spaces);
    if t == [] then None else Some(TakeLastField(t, Spaces))
  }

  /** The last field stops short of any white space. */
  lemma FieldStopsAtSpace(t: string, k: int)
    requires 0 <= k < |t| && IsAsciiSpace(t[k])
    ensures |TakeLastField(t, Spaces)| < |t| - k
  {
  }

  /** The last field reaches back over every character that is not white space. */
  lemma FieldReachesBack(t: string, k: int)
    requires 0 <= k <= |t| && forall j | k <= j < |t| :: !IsAsciiSpace(t[j])
    ensures |TakeLastField(t, Spaces)| >= |t| - k
  {
  }

  /** A word behind white space, or at the start, is the last field of the text it ends. */
  lemma WordAfterSpace(p: string, w: string)
    requires p == [] || IsAsciiSpace(p[|p| - 1])
    requires w != [] && forall i | 0 <= i < |w| :: !IsAsciiSpace(w[i])
    ensures TakeLastField(p + w, Spaces) == w
  {
    var t := p + w;
    assert forall j | |p| <= j < |t| :: t[j] == w[j - |p|];
    FieldReachesBack(t, |p|);
    if p != [] {
      assert t[|p| - 1] == p[|p| - 1];
      FieldStopsAtSpace(t, |p| - 1);
    }
    assert t[|p|..] == w;
  }

  /**
   * The last word of text ending in a word and then any white space: the
   * trailing white space is ignored and the word is returned whole.
   */
  lemma LastWordPadded(p: string, w: string, b: string)
    requires p == [] || IsAsciiSpace(p[|p| - 1])
    requires w != [] && forall i | 0 <= i < |w| :: !IsAsciiSpace(w[i])
    requires forall i | 0 <= i < |b| :: IsAsciiSpace(b[i])
    ensures LastWord(p + w + b) == Some(w)
  {
    var s := p + w + b;
    assert (p + w)[|p + w| - 1] == w[|w| - 1];
    DropTrailingSeps(p + w, b, Spaces);
    assert DropTrailing(s, Spaces) == p + w;
    WordAfterSpace(p, w);
  }

  predicate StartsWith(s: string, prefix: string) {
    |prefix| <= |s| && s[..|prefix|] == prefix
  }

  predicate EndsWith(s: string, suffix: string) {
    |suffix| <= |s| && s[|s| - |suffix|..] == suffix
  }

  // ---------------------------------------------------------------- numbers

  predicate IsDigit(c: char) {
    '0' <= c <= '9'
  }

  predicate AllDigits(s: string) {
    forall i | 0 <= i < |s| :: IsDigit(s[i])
  }

  function DigitChar(d: nat): (c: char)
    requires d < 10
    ensures IsDigit(c)
  {
    ('0' as int + d) as char
  }

  /** The number a string of decimal digits denotes. */
  function DigitsValue(s: string): nat
    requires AllDigits(s)
  {
    if s == [] then 0 else DigitsValue(s[..|s| - 1]) * 10 + (s[|s| - 1] as int - '0' as int)
  }

  /**
   * The digits of the longest prefix of `s` of the form `[0-9]+(_[0-9]+)*`,
   * underscores left out: the digits Ruby's `to_i` reads.
   */
  function NumeralDigits(s: string): (r: string)
    ensures AllDigits(r) && |r| <= |s|
    ensures r == [] <==> s == [] || !IsDigit(s[0])
  {
    if s == [] || !IsDigit(s[0]) then []
    else if |s| >= 3 && s[1] == '_' && IsDigit(s[2]) then [s[0]] + NumeralDigits(s[2..])
    else [s[0]] + NumeralDigits(s[1..])
  }

  /**
   * Ruby's `String#to_i`: leading white space is skipped, an optional sign is
   * read, then digits with single underscores between them; anything else
   * ends the number, and no digits at all give 0.
   */
  function ToI(s: string): int {
    var t := DropLeading(s, Spaces);
    if t != [] && t[0] == '-' then -(DigitsValue(NumeralDigits(t[1..])) as int)
    else if t != [] && t[0] == '+' then DigitsValue(NumeralDigits(t[1..]))
    else DigitsValue(NumeralDigits(t))
  }

  /** Without a minus sign `to_i` is never negative. */
  lemma ToINonNegative(s: string)
    requires '-' !in s
    ensures ToI(s) >= 0
  {
    var t := DropLeading(s, Spaces);
    DropLeadingSuffix(s, Spaces);
    if t != [] {
      assert t[0] in s;
    }
  }

  /** `n.to_s`: the shortest decimal notation of `n`. */
  function NatToString(n: nat): (r: string)
    ensures r != [] && AllDigits(r)
    ensures DigitsValue(r) == n
    ensures n > 0 ==> r[0] != '0'
  {
    if n < 10 then [DigitChar(n)]
    else
      var r := NatToString(n / 10) + [DigitChar(n % 10)];
      assert r[..|r| - 1] == NatToString(n / 10);
      r
  }

  function Zeros(k: nat): (r: string)
    ensures |r| == k && forall i | 0 <= i < k :: r[i] == '0'
  {
    if k == 0 then [] else ['0'] + Zeros(k - 1)
  }

  /** `format("%03d", n)`: at least three digits, padded with zeros on the left. */
  function Format03(n: nat): (r: string)
    ensures |r| >= 3 && AllDigits(r)
  {
    var d := NatToString(n);
    if |d| < 3 then Zeros(3 - |d|) + d else d
  }

  /** Leading zeros do not change the value of a digit string. */
  lemma {:induction false} DigitsValueZeros(k: nat, d: string)
    requires AllDigits(d)
    ensures AllDigits(Zeros(k) + d) && DigitsValue(Zeros(k) + d) == DigitsValue(d)
  {
    var z := Zeros(k) + d;
    if d == [] {
      assert z == Zeros(k);
      ZerosValue(k);
    } else {
      var d' := d[..|d| - 1];
      DigitsValueZeros(k, d');
      assert z[..|z| - 1] == Zeros(k) + d';
    }
  }

  lemma {:induction false} ZerosValue(k: nat)
    ensures AllDigits(Zeros(k)) && DigitsValue(Zeros(k)) == 0
  {
    if k > 0 {
      ZerosValue(k - 1);
      var z := Zeros(k);
      assert z == Zeros(k - 1) + ['0'] by {
        ZerosSnoc(k);
      }
      assert z[..|z| - 1] == Zeros(k - 1);
    }
  }

  lemma {:induction false} ZerosSnoc(k: nat)
    requires k > 0
    ensures Zeros(k) == Zeros(k - 1) + ['0']
  {
    if k > 1 {
      ZerosSnoc(k - 1);
    }
  }

  /** A digit string is read in full: `to_i` sees every one of its digits. */
  lemma {:induction false} NumeralDigitsOfDigits(s: string)
    requires AllDigits(s)
    ensures NumeralDigits(s) == s
  {
    if s != [] {
      NumeralDigitsOfDigits(s[1..]);
    }
  }

  /** `to_i` of a non-empty digit string is the number it denotes. */
  lemma ToIOfDigits(s: string)
    requires AllDigits(s) && s != []
    ensures ToI(s) == DigitsValue(s)
  {
    assert DropLeading(s, Spaces) == s;
    NumeralDigitsOfDigits(s);
  }

  /** Round trip: `format("%03d", n).to_i == n`. */
  lemma Format03RoundTrip(n: nat)
    ensures ToI(Format03(n)) == n
  {
    var d := NatToString(n);
    ToIOfDigits(Format03(n));
    if |d| < 3 {
      DigitsValueZeros(3 - |d|, d);
    }
  }

  /** Distinct numbers get distinct three-digit labels. */
  lemma Format03Injective(m: nat, n: nat)
    requires Format03(m) == Format03(n)
    ensures m == n
  {
    Format03RoundTrip(m);
    Format03RoundTrip(n);
  }

  // ------------------------------------------------------------ string order

  /** Strictly before in byte (code point) order, as the database compares strings. */
  predicate LexLess(a: string, b: string)
    decreases |a|
  {
    if a == [] then b != []
    else if b == [] then false
    else if a[0] != b[0] then a[0] < b[0]
    else LexLess(a[1..], b[1..])
  }

  predicate LexLe(a: string, b: string) {
    a == b || LexLess(a, b)
  }

  /** The order is strict and total: exactly one of `a < b`, `a == b`, `b < a`. */
  lemma {:induction false} LexTrichotomy(a: string, b: string)
    ensures !LexLess(a, a)
    ensures a == b || LexLess(a, b) || LexLess(b, a)
    ensures !(LexLess(a, b) && LexLess(b, a))
    decreases |a|
  {
    if a != [] && b != [] {
      LexTrichotomy(a[1..], b[1..]);
      if a[0] == b[0] && a[1..] == b[1..] {
        assert a == [a[0]] + a[1..] && b == [b[0]] + b[1..];
      }
    } else if a != [] {
      LexTrichotomy(a[1..], a[1..]);
    }
  }

  lemma {:induction false} LexTransitive(a: string, b: string, c: string)
    requires LexLess(a, b) && LexLess(b, c)
    ensures LexLess(a, c)
    decreases |a|
  {
    if a != [] && a[0] == b[0] && b[0] == c[0] {
      LexTransitive(a[1..], b[1..], c[1..]);
    }
  }

  /** A common prefix does not affect the comparison. */
  lemma {:induction false} LexCommonPrefix(p: string, a: string, b: string)
    ensures LexLess(p + a, p + b) <==> LexLess(a, b)
    decreases |p|
  {
    if p != [] {
      assert (p + a)[1..] == p[1..] + a;
      assert (p + b)[1..] == p[1..] + b;
      LexCommonPrefix(p[1..], a, b);
    } else {
      assert p + a == a && p + b == b;
    }
  }

  /** Every non-empty set of strings has a greatest element in this order. */
  lemma {:induction false} GreatestStringExists(S: set<string>)
    requires S != {}
    ensures exists m :: m in S && forall x | x in S :: LexLe(x, m)
    decreases |S|
  {
    var y :| y in S;
    var rest := S - {y};
    if rest == {} {
      assert S == {y};
      assert forall x | x in S :: LexLe(x, y);
    } else {
      GreatestStringExists(rest);
      var m :| m in rest && forall x | x in rest :: LexLe(x, m);
      LexTrichotomy(y, m);
      if LexLess(y, m) || y == m {
        assert forall x | x in S :: LexLe(x, m);
      } else {
        forall x | x in S
          ensures LexLe(x, y)
        {
          if x != y && x != m {
            assert LexLe(x, m);
            LexTransitive(x, m, y);
          }
        }
      }
    }
  }

  /** `S.max` in byte order: the string every other member sorts before. */
  function GreatestString(S: set<string>): (m: string)
    requires S != {}
    ensures m in S && forall x | x in S :: LexLe(x, m)
  {
    GreatestStringExists(S);
    LexAntisymmetric();
    var m :| m in S && forall x | x in S :: LexLe(x, m);
    m
  }

  lemma LexAntisymmetric()
    ensures forall a, b | LexLe(a, b) && LexLe(b, a) :: a == b
  {
    forall a, b | LexLe(a, b) && LexLe(b, a)
      ensures a == b
    {
      LexTrichotomy(a, b);
    }
  }

  // ----------------------------------------------------------- sets of naturals

  predicate IsMinOf(m: nat, s: set<nat>) {
    m in s && forall x | x in s :: m <= x
  }

  predicate IsMaxOf(m: nat, s: set<nat>) {
    m in s && forall x | x in s :: x <= m
  }

  lemma {:induction false} MinExists(s: set<nat>)
    requires s != {}
    ensures exists m :: IsMinOf(m, s)
    decreases |s|
  {
    var y :| y in s;
    var rest := s - {y};
    if rest == {} {
      assert s == {y};
      assert IsMinOf(y, s);
    } else {
      MinExists(rest);
      var m :| IsMinOf(m, rest);
      var w := if y < m then y else m;
      forall x | x in s
        ensures w <= x
      {
        if x != y {
          assert x in rest;
        }
      }
      assert IsMinOf(w, s);
    }
  }

  lemma {:induction false} MaxExists(s: set<nat>)
    requires s != {}
    ensures exists m :: IsMaxOf(m, s)
    decreases |s|
  {
    var y :| y in s;
    var rest := s - {y};
    if rest == {} {
      assert s == {y};
      assert IsMaxOf(y, s);
    } else {
      MaxExists(rest);
      var m :| IsMaxOf(m, rest);
      var w := if m < y then y else m;
      forall x | x in s
        ensures x <= w
      {
        if x != y {
          assert x in rest;
        }
      }
      assert IsMaxOf(w, s);
    }
  }

  /** The smallest member: the row `find_by` returns among several matches. */
  function MinOf(s: set<nat>): (m: nat)
    requires s != {}
    ensures m in s && forall x | x in s :: m <= x
  {
    MinExists(s);
    var m :| IsMinOf(m, s);
    m
  }

  function MaxOf(s: set<nat>): (m: nat)
    requires s != {}
    ensures m in s && forall x | x in s :: x <= m
  {
    MaxExists(s);
    var m :| IsMaxOf(m, s);
    m
  }

  /** A key larger than every key in use, as a database sequence hands out. */
  function FreshKey(keys: set<nat>): (k: nat)
    ensures k !in keys && forall x | x in keys :: x < k
  {
    if keys == {} then 1 else MaxOf(keys) + 1
  }
}
